=== FILE: README.md ===
# mxGraph Vue component core, modelled in Dafny

This project models the parts of the mxGraph Vue component that compute things:

- **Custom shapes** (`mxgraph-vue3/src/shapes.js`). About forty vertex shapes
  (cube, note, card, tape, document, process, parallelogram, the flowchart
  and UML shapes, module, component). There are also two arrow-connector
  edge shapes, `flexArrow` and `link`.
  - Each paint routine is a pure function. It takes the shape's size and its
    style map and returns the sequence of canvas commands it issues
    (`Canvas.PathCmd`). It works in the shape's local frame, or at the given
    `x, y` where the source paints there.
  - The main property is containment: whatever a shape draws stays inside
    its bounding box, for every style value the source clamps.
  - Label margins and label bounds are tied to the geometry they avoid.
- **Edge handles** (same file). `createHandle`, `createEdgeHandle` and
  `createEdgeWidthHandle`, the `handleFactory` entries for `link` and
  `flexArrow`, and the two patched `createCustomHandles` hooks of the vertex
  and edge handlers.
  - A handle is a record: its style keys, its kind and its end.
  - Its `getPosition` and `setPosition` become functions over the edge's end
    segment, the view scale and translate, and the style map they read or
    write.
  - Ctrl, which mirrors the other end, and Alt, which suppresses snapping,
    are parameters.
- **The mxClient loader** (`javascript/examples/VueComponents/src/utils.js`,
  `ensureMxClient`):
  - the candidate list, with truthy filtering and duplicate removal;
  - deriving the package root from the style link;
  - the global path settings made before each attempt;
  - the failover from one candidate to the next;
  - the optional Grapheditor extension load.

  The network is an oracle `string -> Outcome` (Loaded, Failed or Pending).
  A run reports whether the promise resolved, rejected or is still waiting,
  the final globals, and how many scripts were tried.
- **The static file server** (`javascript/server.js`): `parseArgs`,
  `getMimeType`, `resolvePathFromUrl` and the request handler, with
  `path.extname`'s POSIX rules written out.
  - Node's `decodeURIComponent`, `path.normalize`, `path.join` and
    `path.resolve` are parameters (`Server.PathOps`), and so is `Number`.
  - `fs.stat` is also a parameter: what it reports, and whether it throws
    before calling back. Node's `fs.stat` throws for a path holding a NUL
    character, and the handler's `catch` then answers 500. A response records
    its status, content type, the file it serves and the file-system calls
    made on the way.
  - The security property is stated over every possible behaviour of those
    parameters. The handler's first file-system call is always on a path
    inside the root. Suppose joining `index.html` onto a path that `resolve`
    returned inside the root keeps it inside. Node's `path.join` does this,
    because `resolve` returns normalised paths. Then every call the handler
    makes, and the file it serves, are inside the root too.

Numbers are `real`. JavaScript's `Math.round` is `Style.Round`, which is
floor(x + 0.5). `parseFloat(getValue(style, key, default))` is
`Style.NumberOr`: the style value when it is a number, otherwise the
default. A numeric style value is held as a number and a non-numeric one as
text. JavaScript truthiness reads the number 0 and the empty text as false. Sequences stand in
for arrays, and `Option` for `null`/`undefined`.

The loader sets `window.mxBasePath` only while it is unset (utils.js line
76). So the first candidate attempted fixes the base path, even when it
fails and a later candidate is the one that loads.
`Loader.BasePathFromFirstCandidate` states it.

## Model

| member | source | states |
|---|---|---|
| Style.Clamp | mxgraph-vue3/src/shapes.js:99 | `max(lo, min(hi, v))` lies in [lo, hi] whenever that interval is non-empty, and leaves a value already inside it unchanged |
| Style.Round | mxgraph-vue3/src/shapes.js:140 | `Math.round` gives a whole number within half a unit of its argument, rounding halves upward |
| Style.RoundWhole | mxgraph-vue3/src/shapes.js:140 | rounding a whole number returns it unchanged |
| Style.Portion | mxgraph-vue3/src/shapes.js:99 | a length scaled by a clamped fraction lies between zero and the length |
| ActorShapes.CardPath | mxgraph-vue3/src/shapes.js:83-92 | the card outline is one closed five-point polygon inside the box, whatever the style's size |
| ActorShapes.WaveDepth | mxgraph-vue3/src/shapes.js:99 | the wave depth of tape and document is the style's relative size times the height, clamped into [0, h] |
| ActorShapes.TapePath | mxgraph-vue3/src/shapes.js:95-104 | the tape outline, waves included, stays inside the box |
| ActorShapes.DocumentPath | mxgraph-vue3/src/shapes.js:114-118 | the document outline with its wavy bottom stays inside the box |
| ActorShapes.DocumentLabelMargins | mxgraph-vue3/src/shapes.js:110-113 | margins exist exactly when `boundedLbl` is truthy (a number other than 0, or non-empty text), and then they reserve only a bottom band, equal to the painted wave depth when the size is a fraction in [0, 1] |
| ActorShapes.SideInset | mxgraph-vue3/src/shapes.js:151-152 | the slant inset is the absolute `size` under `fixedSize`, otherwise the relative size times the width; it always lies in [0, w] |
| ActorShapes.ParallelogramPath | mxgraph-vue3/src/shapes.js:147-157 | the parallelogram stays inside the box for every style size |
| ActorShapes.TrapezoidInset | mxgraph-vue3/src/shapes.js:164-165 | the trapezoid inset is at most half the width, so the two slants never cross |
| ActorShapes.HalfScale | mxgraph-vue3/src/shapes.js:165 | a width scaled by a fraction clamped to [0, 0.5] stays within half the width |
| ActorShapes.TrapezoidPath | mxgraph-vue3/src/shapes.js:160-169 | the trapezoid stays inside the box |
| ActorShapes.ArrowShaft | mxgraph-vue3/src/shapes.js:176-178 | the arrow shaft is centred vertically, its thickness is the clamped `arrowWidth` times h, and the head length lies in [0, w] |
| ActorShapes.SingleArrowPath | mxgraph-vue3/src/shapes.js:172-183 | the single arrow stays inside the box |
| ActorShapes.DoubleArrowPath | mxgraph-vue3/src/shapes.js:185-195 | the double arrow stays inside the box |
| ActorShapes.DataStoragePath | mxgraph-vue3/src/shapes.js:198-206 | the data-storage outline, with both curved sides, stays inside the box |
| ActorShapes.OrPath | mxgraph-vue3/src/shapes.js:231 | the OR gate outline stays inside the box |
| ActorShapes.XorPath | mxgraph-vue3/src/shapes.js:235 | the XOR gate outline and its extra arc stay inside the box |
| ActorShapes.LoopLimitCut | mxgraph-vue3/src/shapes.js:242 | the loop-limit corner cut is the style size capped at half the width and at the height |
| ActorShapes.LoopLimitPath | mxgraph-vue3/src/shapes.js:242 | for a non-negative style size, the loop-limit outline stays inside the box |
| ActorShapes.LoopLimitNegativeSizeLeavesBox | mxgraph-vue3/src/shapes.js:242 | the loop-limit cut has no lower clamp, so a negative size pushes the outline outside the box |
| ActorShapes.OffPageConnectorPath | mxgraph-vue3/src/shapes.js:247 | the off-page connector outline stays inside the box |
| ActorShapes.RoundEnd | mxgraph-vue3/src/shapes.js:271 | the rounded end of delay and display is at most half the height and at most the width |
| ActorShapes.DelayPath | mxgraph-vue3/src/shapes.js:271 | the delay outline stays inside the box |
| ActorShapes.DisplayPoint | mxgraph-vue3/src/shapes.js:276 | the display's pointed end never overlaps its rounded end |
| ActorShapes.DisplayPath | mxgraph-vue3/src/shapes.js:276 | the display outline stays inside the box |
| ActorShapes.CornerPath | mxgraph-vue3/src/shapes.js:282 | the corner outline stays inside the box for any `dx`/`dy` |
| ActorShapes.CrossbarPath | mxgraph-vue3/src/shapes.js:286 | the crossbar stays inside the box |
| ActorShapes.TeePath | mxgraph-vue3/src/shapes.js:290 | the tee is an eight-point polygon inside the box whose stem is centred horizontally |
| ActorShapes.SwitchPath | mxgraph-vue3/src/shapes.js:296 | the switch outline stays inside the box |
| ActorShapes.CalloutPointer | mxgraph-vue3/src/shapes.js:302 | the callout's pointer positions and the body height stay within the box's width and height |
| ActorShapes.CalloutPath | mxgraph-vue3/src/shapes.js:302 | the callout is a seven-point polygon inside the box, and the pointer's base lies left of its far side |
| ActorShapes.CalloutLabelMargins | mxgraph-vue3/src/shapes.js:301 | the callout reserves only a bottom margin, scaled and never negative for a non-negative size |
| ActorShapes.RoundableOutline | mxgraph-vue3/src/shapes.js:241-247 | each of the six shapes that declare `isRoundable` (card 85, parallelogram 149, trapezoid 162, loopLimit 241, offPageConnector 246, callout 300) hands `addPoints` one polygon of at least four corners, inside the box (loopLimit's for a non-negative size) |
| ProcessShape.RoundedInset | mxgraph-vue3/src/shapes.js:130 | rounding can only widen the process inset, and leaves it unchanged for an unrounded shape |
| ProcessShape.LabelInset | mxgraph-vue3/src/shapes.js:129-130 | the label inset is non-negative, and at most the width when the shape is not rounded |
| ProcessShape.ProcessLabelBounds | mxgraph-vue3/src/shapes.js:126-134 | the label is narrowed on both sides only when it runs along the bars; the two insets differ by at most one unit, the label stays within the shape up to rounding, and the rectangle comes back unchanged otherwise |
| ProcessShape.RoundingBalance | mxgraph-vue3/src/shapes.js:131 | rounding the inset and the double inset separately can leave a one-unit asymmetry, never more |
| ProcessShape.BarInset | mxgraph-vue3/src/shapes.js:136-140 | the bar inset is a whole number; it is non-negative, and at most the width for an unrounded shape of whole width |
| ProcessShape.ProcessForeground | mxgraph-vue3/src/shapes.js:135-143 | the foreground draws two full-height vertical bars placed symmetrically about the shape's centre |
| ProcessShape.ProcessBarsWithin | mxgraph-vue3/src/shapes.js:135-141 | for an unrounded process of whole width, both bars lie inside the shape |
| ProcessShape.LabelStartsAtBar | mxgraph-vue3/src/shapes.js:126-141 | for an unrounded, relatively sized process, the label starts where the left bar is drawn |
| ProcessShape.RoundedBarsCanCross | mxgraph-vue3/src/shapes.js:139-141 | with rounding, the inset is not capped, so a large arc size draws the bars outside the shape |
| CylinderShapes.FoldSize | mxgraph-vue3/src/shapes.js:50 | the fold size is the style size clamped into [0, min(w, h)] |
| CylinderShapes.Opacity | mxgraph-vue3/src/shapes.js:51-52 | the shading opacity is the style value clamped into [-1, 1] |
| CylinderShapes.DarkFace | mxgraph-vue3/src/shapes.js:55-60 | shading a face only adds fill commands, so it stays wherever the face stays |
| CylinderShapes.CubePaint | mxgraph-vue3/src/shapes.js:46-61 | the cube's body, shaded faces and edges stay inside the box |
| CylinderShapes.CubeBody | mxgraph-vue3/src/shapes.js:54 | the cube body with its cut corners stays inside the box when the fold fits |
| CylinderShapes.CubeDetail | mxgraph-vue3/src/shapes.js:55-60 | the shaded top and side and the inner edges stay inside the box when the fold fits |
| CylinderShapes.CubeTop | mxgraph-vue3/src/shapes.js:57 | the top face stays inside every box at least as tall as the fold |
| CylinderShapes.CubeSide | mxgraph-vue3/src/shapes.js:58 | the side face stays inside every box at least as wide as the fold |
| CylinderShapes.CubeLabelMargins | mxgraph-vue3/src/shapes.js:62-65 | margins exist exactly when `boundedLbl` is truthy (a number other than 0, or non-empty text); they are equal on the left and top and zero elsewhere |
| CylinderShapes.CubeLabelMatchesFold | mxgraph-vue3/src/shapes.js:50-63 | when the style size fits, the label margin equals the painted fold, scaled |
| CylinderShapes.NotePaint | mxgraph-vue3/src/shapes.js:69-80 | the note's dog-eared body and fold stay inside the box |
| CylinderShapes.DatastoreLip | mxgraph-vue3/src/shapes.js:211 | the cylinder's rim depth is at most half the height, and not negative for a stroke of at least one pixel |
| CylinderShapes.DatastorePath | mxgraph-vue3/src/shapes.js:208-222 | the cylinder stays inside the box, and it draws nothing only in the foreground pass of an unfilled shape |
| CylinderShapes.DatastoreLabelMargins | mxgraph-vue3/src/shapes.js:223-225 | the label keeps a top margin of two and a half rim depths, which is at most 1.25 times the height |
| CylinderShapes.MessagePath | mxgraph-vue3/src/shapes.js:306 | the envelope and its flap stay inside the box |
| CylinderShapes.JettyPathWithin | mxgraph-vue3/src/shapes.js:351 | the two jetty rectangles stay inside the box whenever they sit within it vertically and the jetty width fits |
| CylinderShapes.ModuleJetties | mxgraph-vue3/src/shapes.js:351 | the module's jetties use the style's jetty size, sit one jetty height from the top and bottom, and never overlap when both fit |
| CylinderShapes.ModulePath | mxgraph-vue3/src/shapes.js:351 | the module stays inside the box when its jetties fit |
| CylinderShapes.ModuleJettyLeavesShortBox | mxgraph-vue3/src/shapes.js:351 | a module shorter than its jetty height draws the upper jetty above the box |
| CylinderShapes.ComponentJetties | mxgraph-vue3/src/shapes.js:356 | the component's jetties are centred at 30% and 70% of the height |
| CylinderShapes.ComponentPath | mxgraph-vue3/src/shapes.js:356 | the component stays inside the box when its jetties fit |
| CylinderShapes.ComponentJettyLeavesShortBox | mxgraph-vue3/src/shapes.js:356 | a component short relative to its jetty height draws the upper jetty above the box |
| EllipseShapes.TapeDataPaint | mxgraph-vue3/src/shapes.js:251 | the tape-data ellipse and its tail stay inside the shape's rectangle |
| EllipseShapes.OrEllipsePaint | mxgraph-vue3/src/shapes.js:257 | the ellipse and its cross stay inside the rectangle |
| EllipseShapes.SumEllipsePaint | mxgraph-vue3/src/shapes.js:261 | the ellipse and its diagonal cross stay inside the rectangle |
| EllipseShapes.LineEllipsePaint | mxgraph-vue3/src/shapes.js:265 | the ellipse stays inside the rectangle, with a vertical centre line when `line` is `vertical` and a horizontal one otherwise |
| EllipseShapes.UmlEntityPaint | mxgraph-vue3/src/shapes.js:321 | the entity circle and its underline stay inside the rectangle |
| UmlShapes.UmlActorPaint | mxgraph-vue3/src/shapes.js:312 | the stick figure stays inside the box, and its body starts at the bottom centre of its head |
| UmlShapes.UmlBoundaryPaint | mxgraph-vue3/src/shapes.js:317 | the boundary symbol stays inside the box, and its connecting line meets the circle's leftmost point |
| UmlShapes.UmlBoundaryLabelMargins | mxgraph-vue3/src/shapes.js:316 | the label's left margin is where the boundary's circle begins |
| UmlShapes.UmlDestroyPaint | mxgraph-vue3/src/shapes.js:325 | the destroy cross stays inside the box and both strokes are symmetric about its centre |
| UmlShapes.UmlControlBackground | mxgraph-vue3/src/shapes.js:330 | the control circle stays inside the box, and the arrow barb starts on its vertical extent |
| UmlShapes.UmlControlForeground | mxgraph-vue3/src/shapes.js:331 | the second barb stays inside the box |
| UmlShapes.ControlBarbsMeet | mxgraph-vue3/src/shapes.js:330-331 | the two barbs painted in separate passes start at the same point and mirror each other |
| UmlShapes.UmlControlLabelMargins | mxgraph-vue3/src/shapes.js:329 | what the source returns is the circle's band, not margins: the box's left edge and width, and the painted circle's top and height |
| UmlShapes.UmlControlLabelCollapses | mxgraph-vue3/src/shapes.js:329 | read as margins by the host, the returned values leave the label at most half a unit wide, and no width at all for a whole-width box at a non-negative x |
| UmlShapes.UmlControlLabelCollapsesAt | mxgraph-vue3/src/shapes.js:329 | a 40 x 80 control at (10, 20) gets label bounds of width -10 and height -20 |
| UmlShapes.UmlControlLabelMarginsCorrected | mxgraph-vue3/src/shapes.js:329-330 | the intended margins: no left, right or bottom margin, and a top margin where the circle starts |
| UmlShapes.UmlControlCorrectedLabelIsCircleBand | mxgraph-vue3/src/shapes.js:329-330 | the corrected margins give the label exactly the band of the painted circle, whenever that band starts on a whole unit |
| UmlShapes.LifelineHead | mxgraph-vue3/src/shapes.js:337 | the lifeline's head height is the style size clamped into [0, h] |
| UmlShapes.UmlLifelineLabelBounds | mxgraph-vue3/src/shapes.js:336 | the lifeline label keeps the rectangle's position and width, and its height is clamped into [0, rect height] |
| UmlShapes.UmlLifelineBackground | mxgraph-vue3/src/shapes.js:337 | the lifeline draws its head rectangle, and the dashed line only when the head leaves room below; all of it stays inside the rectangle |
| UmlShapes.LifelineLabelCoversHead | mxgraph-vue3/src/shapes.js:336-337 | at scale 1 the label is exactly as tall as the painted head |
| UmlShapes.UmlFrameLabelMargins | mxgraph-vue3/src/shapes.js:343 | the frame's label loses the tab's width and height, scaled |
| UmlShapes.FrameTabWidth | mxgraph-vue3/src/shapes.js:344 | the tab width is the style width, kept between the corner size and the frame width |
| UmlShapes.FrameTabHeight | mxgraph-vue3/src/shapes.js:344 | the tab height is the style height, kept between 1.5 corner sizes and the frame height |
| UmlShapes.UmlFramePaint | mxgraph-vue3/src/shapes.js:342-344 | the frame and its tab stay inside the rectangle, and the swimlane fill is painted only when it is not `none` |
| UmlShapes.FrameTab | mxgraph-vue3/src/shapes.js:344 | the tab outline stays inside the rectangle when the tab fits |
| UmlShapes.FrameLabelMatchesTab | mxgraph-vue3/src/shapes.js:343-344 | when the style's tab fits, the label margins at scale 1 are exactly the painted tab |
| EdgeShapes.StrokeExtra | mxgraph-vue3/src/shapes.js:29 | a stroke wider than one pixel widens an edge by the excess, and a thinner one adds nothing |
| EdgeShapes.FlexEdgeWidth | mxgraph-vue3/src/shapes.js:28-30 | a flexArrow's body is the style `width` (default 10) widened by the excess stroke |
| EdgeShapes.FlexArrowWidth | mxgraph-vue3/src/shapes.js:22-27 | a flexArrow head overhangs the body by `startWidth`/`endWidth` (default 20) |
| EdgeShapes.LinkEdgeWidth | mxgraph-vue3/src/shapes.js:38-41 | a link's body is the style `width` (default 4) widened by the excess stroke |
| EdgeShapes.LinkTraits | mxgraph-vue3/src/shapes.js:37-42 | a link is always open-ended, and its arrow corners are rounded exactly when the shape is |
| EdgeHandles.CreateHandle | mxgraph-vue3/src/shapes.js:380-406 | a handle keeps its keys and callbacks, snaps to the grid only when `ignoreGrid` is explicitly false, and redraws edges only when asked |
| EdgeHandles.ExecuteSteps | mxgraph-vue3/src/shapes.js:383-390 | executing a handle copies each of its keys' styles in order, then runs the extra callback exactly when one was given |
| EdgeHandles.CopySteps | mxgraph-vue3/src/shapes.js:384-386 | one style copy per key, in key order |
| EdgeHandles.PositionChangedSteps | mxgraph-vue3/src/shapes.js:394-401 | a moved handle always runs the host's update, followed by invalidate and validate exactly when it redraws edges |
| EdgeHandles.JoinCommaCount | mxgraph-vue3/src/shapes.js:403 | the tooltip of n comma-free keys contains exactly n - 1 commas |
| EdgeHandles.Tooltip | mxgraph-vue3/src/shapes.js:402-404 | the tooltip lists the keys in a way that splitting at commas recovers them |
| EdgeHandles.Split | mxgraph-vue3/src/shapes.js:403 | splitting at commas always yields at least one field |
| EdgeHandles.SplitJoin | mxgraph-vue3/src/shapes.js:403 | splitting the comma-joined keys gives back exactly the keys |
| EdgeHandles.ToModel | mxgraph-vue3/src/shapes.js:435 | converting a screen point to model coordinates is undone by the conversion back to the screen |
| EdgeHandles.ModelScreenInverse | mxgraph-vue3/src/shapes.js:435-449 | converting a model point to the screen and back gives the same point |
| EdgeHandles.AxisPoint | mxgraph-vue3/src/shapes.js:470 | on a unit direction, a handle placed at distances along and across the end segment is found again at those distances |
| EdgeHandles.AxisFrame | mxgraph-vue3/src/shapes.js:470 | the along and across coordinates of a point built from the segment frame are the ones it was built from |
| EdgeHandles.GetPosition | mxgraph-vue3/src/shapes.js:418-436 | a link handle sits a quarter of the segment along and half the scaled width plus spacing across; a flexArrow handle sits past the arrow size, at half the body or head width |
| EdgeHandles.SnapTo | mxgraph-vue3/src/shapes.js:523-525 | a size within the tolerance of the other end's size takes the other end's value, otherwise the style is unchanged |
| EdgeHandles.WriteWidthAndSize | mxgraph-vue3/src/shapes.js:514-527 | dragging a flexArrow width handle writes `width` and this end's size, mirrors the size under Ctrl, snaps it without Alt, and touches no other key |
| EdgeHandles.WriteArrowAndSize | mxgraph-vue3/src/shapes.js:533-550 | dragging an arrow-head handle writes this end's size and head width, mirrors both under Ctrl, and touches no other key |
| EdgeHandles.WriteArrowSnaps | mxgraph-vue3/src/shapes.js:542-549 | without modifiers, the size and head width each snap to the other end's value exactly when within tolerance |
| EdgeHandles.SnapArrowEnd | mxgraph-vue3/src/shapes.js:542-549 | the two snaps of an arrow-head drag change only this end's size and head width |
| EdgeHandles.StoreArrowEnd | mxgraph-vue3/src/shapes.js:536-541 | the stored size and head width are the measured ones, copied to the other end only under Ctrl |
| EdgeHandles.SizeFromDistance | mxgraph-vue3/src/shapes.js:517 | the stored arrow size, rounded to hundredths, is within 0.015 of a third of the stroke-corrected distance, unscaled |
| EdgeHandles.FlexTolerance | mxgraph-vue3/src/shapes.js:506 | the snapping tolerance is one grid step in model units |
| EdgeHandles.LinkWidthWriteAsWritten | mxgraph-vue3/src/shapes.js:472-475 | the link width the source stores: the spacing is subtracted after unscaling |
| EdgeHandles.LinkWidthWrite | mxgraph-vue3/src/shapes.js:472-475 | the corrected link width: the spacing is removed before unscaling, so scaling the width and adding the spacing gives back the doubled distance |
| EdgeHandles.WidthFromDistance | mxgraph-vue3/src/shapes.js:518 | the body width a flexArrow drag stores, scaled back, is the measured span rounded to a pixel |
| EdgeHandles.ArrowFromDistance | mxgraph-vue3/src/shapes.js:537 | the head width an arrow-head drag stores, scaled back, is how far the rounded span exceeds the body, and is never negative |
| EdgeHandles.FlexDrag | mxgraph-vue3/src/shapes.js:514-550 | a flexArrow drag writes only its handle's keys: the body width from the distance across; with Alt, the head width from it and the size from the distance along, unsnapped; Ctrl makes both ends' sizes equal |
| EdgeHandles.SetPosition | mxgraph-vue3/src/shapes.js:437-475 | as written: a link drag writes only `width`, the value `LinkWidthWriteAsWritten` gives for the distance of the dragged screen point from the segment; a flexArrow drag writes what `FlexDrag` gives for the screen point's distances across and along |
| EdgeHandles.SetPositionCorrected | mxgraph-vue3/src/shapes.js:472-475 | with the corrected link write, a link drag writes only `width`, the value `LinkWidthWrite` gives; flexArrow drags are unchanged |
| EdgeHandles.DropInPlaceMeasures | mxgraph-vue3/src/shapes.js:510-516 | for a unit end-segment frame, a handle dropped where `getPosition` drew it measures its drawn offsets: half the span across and the size's distance along (flexArrow), half the drawn width plus spacing (link) |
| EdgeHandles.FlexWidthDropInPlace | mxgraph-vue3/src/shapes.js:510-518 | dropping the width handle where it is drawn writes the width for half the drawn span |
| EdgeHandles.WidthFromDistanceShrinks | mxgraph-vue3/src/shapes.js:511-518 | with a stroke of a pixel or more and a whole drawn span, that width is one less than the width it was drawn from, so each drop in place narrows the arrow |
| EdgeHandles.FlexSizeDropInPlace | mxgraph-vue3/src/shapes.js:512-517 | dropping a flexArrow handle where it is drawn, with Alt, writes the size for its drawn distance along |
| EdgeHandles.SizeFromDistanceAtScaleOne | mxgraph-vue3/src/shapes.js:512-517 | at scale 1 that size is the size it was drawn from, for sizes in whole hundredths |
| EdgeHandles.FlexSizeDriftsAtScaleTwo | mxgraph-vue3/src/shapes.js:512-517 | at scale 2, size 10 with a one-pixel stroke is drawn 62 pixels along and is written back as 10.165 |
| EdgeHandles.FlexArrowDropInPlace | mxgraph-vue3/src/shapes.js:529-537 | dropping an arrow-head handle where it is drawn, with Alt, writes the head width for half its drawn span |
| EdgeHandles.ArrowFromDistanceAtScaleOne | mxgraph-vue3/src/shapes.js:530-537 | at scale 1 with a whole span, that head width is the one drawn less the stroke, never below zero |
| EdgeHandles.LinkDropInPlace | mxgraph-vue3/src/shapes.js:468-475 | dropping a link handle where it is drawn keeps the width under the corrected write, and writes the as-written formula's value for the drawn distance under the source's |
| EdgeHandles.LinkWidthRoundTrip | mxgraph-vue3/src/shapes.js:468-475 | dropping a link handle where it was drawn stores back the same width, at any scale |
| EdgeHandles.LinkWidthAsWrittenDrifts | mxgraph-vue3/src/shapes.js:468-475 | as written, at scale 2 a link of width 4 dropped in place gets width -1 |
| EdgeHandles.LinkWidthWritesAgreeAtScaleOne | mxgraph-vue3/src/shapes.js:474 | at scale 1 the written and the corrected formula agree |
| HandleDispatch.EdgeWidthHandle | mxgraph-vue3/src/shapes.js:463-477 | a link width handle owns only `width`, ignores the grid and has no extra callback |
| HandleDispatch.FlexWidthHandle | mxgraph-vue3/src/shapes.js:510 | the flexArrow width handle owns `width` and both arrow sizes |
| HandleDispatch.FlexArrowHandle | mxgraph-vue3/src/shapes.js:529 | the arrow-head handle owns both head widths and both arrow sizes |
| HandleDispatch.FlexEndHandles | mxgraph-vue3/src/shapes.js:508-551 | an end gets its width and head handles, in that order, exactly when that end draws an arrow |
| HandleDispatch.HandleFactory | mxgraph-vue3/src/shapes.js:482-598 | only `link` and `flexArrow` have entries; a link gets one width handle per end, and a flexArrow two handles per arrowed end |
| HandleDispatch.FlexArrowHandleCount | mxgraph-vue3/src/shapes.js:500-597 | a flexArrow gets 0, 2 or 4 handles, and the start end's come first |
| HandleDispatch.EdgeHandleName | mxgraph-vue3/src/shapes.js:627-630 | the edge hook's key is the shape name when the host knows it, otherwise the connector |
| HandleDispatch.EdgeCustomHandles | mxgraph-vue3/src/shapes.js:625-636 | the edge hook returns the factory's handles when the key has an entry, and otherwise whatever the original hook returns |
| HandleDispatch.UnknownEdgeUsesOriginal | mxgraph-vue3/src/shapes.js:628-635 | an edge of unknown shape falls back to the original hook |
| HandleDispatch.LinkEdgeGetsTwoHandles | mxgraph-vue3/src/shapes.js:488-491 | a known link edge gets exactly two handles, start first |
| HandleDispatch.VertexHandleName | mxgraph-vue3/src/shapes.js:608-613 | the vertex hook's key is the rectangle for an unknown shape, the swimlane for a known swimlane cell, and the shape name otherwise |
| HandleDispatch.VertexCustomHandles | mxgraph-vue3/src/shapes.js:604-623 | the vertex hook keeps the original handles as a prefix and appends the factory's only for a rotatable cell whose key has an entry |
| HandleDispatch.VertexRectangleAndSwimlaneKeepOriginal | mxgraph-vue3/src/shapes.js:609-619 | unknown shapes and swimlanes keep only the original vertex handles |
| JsArray.IndexOf | javascript/examples/VueComponents/src/utils.js:68 | `indexOf` is -1 exactly for an absent value, and otherwise the position of its first occurrence |
| JsArray.IndexOfAppend | javascript/examples/VueComponents/src/utils.js:68 | appending an element does not move the first occurrence of a value already present |
| Loader.Truthy | javascript/examples/VueComponents/src/utils.js:67 | the truthy filter keeps exactly the non-empty candidates |
| Loader.TruthyCounts | javascript/examples/VueComponents/src/utils.js:67 | the truthy filter keeps every non-empty entry as often as it occurs and drops every empty one |
| Loader.TruthyKeepsOrder | javascript/examples/VueComponents/src/utils.js:67 | the truthy filter keeps order: a value that is first among the kept entries was first in the original list |
| Loader.FirstOccurrences | javascript/examples/VueComponents/src/utils.js:68 | duplicate removal keeps every value once, in the order of its first occurrence |
| Loader.FirstOccurrencesOfNoDup | javascript/examples/VueComponents/src/utils.js:68 | a list without duplicates passes duplicate removal unchanged |
| Loader.FirstMatch | javascript/examples/VueComponents/src/utils.js:61 | the search finds the leftmost position where an optional slash, `dist/index.css` and a line-free rest match, or reports that none does |
| Loader.StripDistCss | javascript/examples/VueComponents/src/utils.js:61 | the package root is the style link cut at the leftmost match, or the whole link when nothing matches |
| Loader.StyleCandidate | javascript/examples/VueComponents/src/utils.js:56-65 | the style-derived candidate is the package root plus the vendor client path, and it is absent when there is no link or the root is empty |
| Loader.StyleCandidateExample | javascript/examples/VueComponents/src/utils.js:61-64 | a link `pkg/dist/index.css?v=3` yields the candidate `pkg/vendor/mxgraph/js/mxClient.js` |
| Loader.SlashGoesWithMatch | javascript/examples/VueComponents/src/utils.js:61-64 | the optional slash before `dist` is removed with the match, so no doubled slash appears |
| Loader.FilteredKeepsOrder | javascript/examples/VueComponents/src/utils.js:66-68 | dropping falsy entries and then repeats keeps every list's order of first occurrence |
| Loader.Candidates | javascript/examples/VueComponents/src/utils.js:66-68 | the candidates are the truthy ones of the explicit URL, the module-relative URL and the style URL, without duplicates, and the explicit URL comes first when given |
| Loader.CandidatesInOrder | javascript/examples/VueComponents/src/utils.js:66-68 | the candidates keep the order of their first occurrence in `[mxClientUrl, mxClientRel, mxClientFromStyle]` |
| Loader.FirstStaysFirst | javascript/examples/VueComponents/src/utils.js:68 | duplicate removal never displaces the first element |
| Loader.BaseOf | javascript/examples/VueComponents/src/utils.js:75 | the base is a prefix of the URL, followed in it by `/js/mxClient.js` unless it is the whole URL |
| Loader.BaseOfStripsSuffix | javascript/examples/VueComponents/src/utils.js:75 | for a URL ending in `/js/mxClient.js` the base followed by that suffix is the URL; any other URL is its own base |
| Loader.BaseOfClientPath | javascript/examples/VueComponents/src/utils.js:75 | a URL ending in `/js/mxClient.js` gives back exactly its prefix |
| Loader.AttemptGlobals | javascript/examples/VueComponents/src/utils.js:76-79 | before each attempt, only unset globals are filled: the base path from the URL, the image path from the argument or the base, and resource loading off |
| Loader.AttemptGlobalsSettled | javascript/examples/VueComponents/src/utils.js:76-79 | once all three globals are set, further attempts leave them alone |
| Loader.LoadGe | javascript/examples/VueComponents/src/utils.js:84-105 | the extension load never rejects; without a Graph it resolves at once; otherwise it tries candidates until one loads or is pending |
| Loader.TryLoad | javascript/examples/VueComponents/src/utils.js:31-45 | the extension load in the client-present branch never rejects and stops at the first candidate that does not fail |
| Loader.LoadWithIndex | javascript/examples/VueComponents/src/utils.js:70-111 | the client load rejects exactly when every remaining candidate fails, resolves only after a candidate loads, and skips only failed candidates |
| Loader.LoadWithIndexGlobals | javascript/examples/VueComponents/src/utils.js:75-79 | after a run, globals set beforehand are kept, an unset base path holds the first candidate's base, and an unset resource switch is set to false once any candidate is tried |
| Loader.EnsureMxClient | javascript/examples/VueComponents/src/utils.js:5-115 | without a window it resolves untouched; with a client present it only fills the path arguments into unset globals; otherwise it rejects exactly when all candidates fail |
| Loader.BasePathFromFirstCandidate | javascript/examples/VueComponents/src/utils.js:74-76 | the base path comes from the first candidate tried, whichever candidate loads |
| Loader.ThreeCandidates | javascript/examples/VueComponents/src/utils.js:66-68 | three distinct truthy candidates are kept in source order |
| Loader.RelativeBeforeStyle | javascript/examples/VueComponents/src/utils.js:66-68 | without an explicit URL, the module-relative URL is tried before a distinct style URL |
| Loader.ThirdCandidateLoads | javascript/examples/VueComponents/src/utils.js:70-111 | when the first two candidates fail and the third loads, the promise resolves after three attempts with globals from the first URL |
| Server.FlagValue | javascript/server.js:24-27 | a flag's value is the argument after its first occurrence, and absent when the flag is absent or last |
| Server.OrElse | javascript/server.js:29-30 | `a \|\| b` on strings picks the first non-empty value |
| Server.PortOf | javascript/server.js:35 | a finite number is used as the port, anything else falls back to 8000 |
| Server.ParseArgs | javascript/server.js:23-36 | the port and root come from the flag, then the environment, then the default; the root is resolved |
| Server.DefaultPortWithoutArguments | javascript/server.js:29-35 | with no flags and no environment, the server listens on 8000 at the resolved script directory |
| Server.FlagBeatsEnvironment | javascript/server.js:29-35 | a given flag wins over the environment even when its port is not a number, which then becomes 8000 |
| Server.TrailingFlagFallsBack | javascript/server.js:24-29 | a flag with no value after it falls back to the environment |
| Server.MimeEntry | javascript/server.js:8-20 | every table key is a dotted extension |
| Server.LastIndex | javascript/server.js:40 | the last occurrence of a character, or -1 |
| Server.TrimTrailingSlashes | javascript/server.js:40 | trailing slashes are removed and nothing else |
| Server.Basename | javascript/server.js:40 | the base name contains no slash |
| Server.Extname | javascript/server.js:40 | the extension is empty or a dot followed by a dot-free tail, it is a proper suffix of the base name, and it is empty exactly for names without an inner dot and for `..` |
| Server.LowerChar | javascript/server.js:40 | ASCII capitals map to the matching lower-case letter, and every other character is unchanged |
| Server.LowerAscii | javascript/server.js:40 | lower-casing keeps the length and maps every character |
| Server.GetMimeType | javascript/server.js:39-42 | the type is the table entry for the lower-cased extension, or `application/octet-stream`, which is always the result for a file without an extension |
| Server.LowerAsciiIdempotent | javascript/server.js:40 | lower-casing twice equals lower-casing once |
| Server.MimeIgnoresCase | javascript/server.js:40-41 | files whose extensions differ only in case get the same type |
| Server.BasenameOfChild | javascript/server.js:40 | the base name of `dir/name` is `name` |
| Server.ExtnameOfFileName | javascript/server.js:40 | the extension of `dir/stem.tail` is `.tail` |
| Server.DotFileHasNoExtension | javascript/server.js:40 | a dot file such as `.env` has no extension |
| Server.UpperCaseHtml | javascript/server.js:40-41 | `page.HTML` is served as HTML |
| Server.DotFileIsBinary | javascript/server.js:40-41 | a dot file is served as `application/octet-stream` |
| Server.QueryFree | javascript/server.js:53 | the path before the first `?` |
| Server.QueryFreeIgnoresQuery | javascript/server.js:53 | the query string is cut off |
| Server.StripLeadingSlashes | javascript/server.js:56 | only leading slashes are removed |
| Server.RelativePath | javascript/server.js:53-56 | the relative path is absent exactly when decoding fails, and never starts with a slash |
| Server.ResolvePathFromUrl | javascript/server.js:52-65 | a resolved path is always the root or inside it; a path that leaves the root is refused; a decoding error is reported as such |
| Server.SiblingIsOutside | javascript/server.js:61-63 | a sibling directory sharing the root's prefix, such as `/srv/www2`, is refused for root `/srv/www` |
| Server.QueryIgnored | javascript/server.js:53 | the query string never changes the resolved path |
| Server.RootServesIndex | javascript/server.js:53-55 | the root URL maps to `index.html` |
| Server.ErrorResponse | javascript/server.js:45-49 | an error carries its code as plain text and serves nothing |
| Server.RequestUrl | javascript/server.js:81 | a missing or empty request URL is treated as `/` |
| Server.Respond | javascript/server.js:81-98 | 403 exactly for a refused or empty path, before any file-system call; every other error is 404 or 500 in plain text serving nothing; a 200 serves an existing, readable file (the path itself, or a directory's `index.html`) with its MIME type |
| Server.RespondByCase | javascript/server.js:81-98 | 500 for a decoding error; 500, after that one call, when the first `stat` throws; 404 when the path, or the directory's `index.html`, is missing; 500 when the found file cannot be read; otherwise 200 serving that file; only the path and that file are touched |
| Server.HandleRequest | javascript/server.js:78-100 | a refused path is answered 403 with no file-system call, and the first call is on a path inside the root |
| Server.HandleRequestStaysInside | javascript/server.js:81-93 | when joining `index.html` onto a path `resolve` returned inside the root keeps it inside, every file-system call and the served file are inside the root |
| Server.ResponseIgnoresQuery | javascript/server.js:53-81 | a request with a query string is answered like the same request without it |

## Findings

| source | as written | input that shows it | evidently intended | confidence | as-written member | corrected member |
|---|---|---|---|---|---|---|
| mxgraph-vue3/src/shapes.js:472-475 | the link width handle stores `round(2d) / scale - spacing`, subtracting the screen-pixel spacing after converting to model units, while `getPosition` (line 469) adds the spacing in screen pixels | scale 2, style width 4, stroke 1, spacing 10: the handle is drawn at distance 9, and dropping it there stores width -1 | `(round(2d) - spacing) / scale`, which stores back width 4 | medium; not executed | EdgeHandles.SetPosition with EdgeHandles.LinkWidthWriteAsWritten, shown by EdgeHandles.LinkWidthAsWrittenDrifts and EdgeHandles.LinkDropInPlace | EdgeHandles.SetPositionCorrected with EdgeHandles.LinkWidthWrite, proved by EdgeHandles.LinkWidthRoundTrip and EdgeHandles.LinkDropInPlace |
| mxgraph-vue3/src/shapes.js:329 | `UmlControlShape.getLabelMargins` returns the bounds `(x, y + h/8, w, 7h/8)`, but the host reads the result as left, top, right and bottom margins | a 40 x 80 control at (10, 20): margins 10, 30, 40 and 70 leave label bounds of width -10 and height -20 | margins `(0, h/8, 0, 0)`, which give the label the band of the circle painted on line 330 | medium; not executed | UmlShapes.UmlControlLabelMargins, shown by UmlShapes.UmlControlLabelCollapses and UmlShapes.UmlControlLabelCollapsesAt | UmlShapes.UmlControlLabelMarginsCorrected, proved by UmlShapes.UmlControlCorrectedLabelIsCircleBand |

`EdgeHandles.SetPosition` is the handle as the source writes it, and
`EdgeHandles.SetPositionCorrected` differs only in the link write. At
scale 1 the two formulas agree (`EdgeHandles.LinkWidthWritesAgreeAtScaleOne`),
which is why the drift is invisible at the default zoom.

The flexArrow handles have the same kind of asymmetry, recorded as
behaviour rather than as a finding. Each is drawn from the edge's width
including the stroke excess, but the width it writes back does not remove
that excess. So with a stroke of a pixel or more, each drop in place
narrows the body by one unit (`EdgeHandles.WidthFromDistanceShrinks`) and
shrinks a head by the stroke (`EdgeHandles.ArrowFromDistanceAtScaleOne`).
Sizes are drawn with the stroke scaled but written back with it unscaled,
so they are kept only at scale 1 (`EdgeHandles.SizeFromDistanceAtScaleOne`,
`EdgeHandles.FlexSizeDriftsAtScaleTwo`).

## Left out

- Painting done by the host library is not modelled: `mxCylinder` and `mxActor` base painting, `mxRectangleShape.paintForeground` and the view's translate. The model covers only the commands the repository's own routines issue.
- `addPoints` corner rounding and the arc size of rounded outlines: a rounded polygon is modelled by its corner points. The rounding only cuts corners inward, which is not proved.
- Curve control points (`curveTo`, `quadTo`) are not checked for containment, only their end points. Control points can lie outside the drawn curve's hull.
- `TableShape` (shapes.js 360-365) only delegates to the host's table painting.
- The shape registry calls (`mxCellRenderer.registerShape`) and `isHtmlAllowed` are not modelled. They only bind names to the routines modelled here; `HandleDispatch.Registry` stands in for the set of known names.
- `mxUtils.htmlEntities` escaping in the tooltip is not modelled: style keys contain no HTML-special characters.
- The host's stylesheet, which parses style strings, is not part of this model. The model takes its result: a numeric value arrives as the number `Num(n)`, anything else as `Text`. So `Style.Flag` reads `Num(0)` as false, and `Style.FixedSizeOn` and `Style.LooseEqualsBool` compare numbers numerically. `Style.IsBlank` knows only the ASCII white-space characters. JavaScript's number conversion also skips Unicode spaces, which are not modelled.
- The host's `mxUtils.getDirectedBounds`, which turns label margins into label bounds, is not part of this model. `Canvas.MarginedBounds` takes it for an unrotated, unflipped shape: each margin is clamped into its side, rounded, and cut off. Directions and flips are not modelled.
- `parseFloat` returning NaN: `Style.NumberOr` falls back to the default for a non-numeric value, whereas the source would compute with NaN.
- `Math.sqrt`, `mxUtils.ptSegDistSq` and `mxUtils.ptLineDist` are not computed: the edge-handle model takes the segment frame (end point, unit direction, length) and the dropped point's distances as inputs.
- `virtualBends` and `isAddPointEvent` of the edge handler are not modelled; the hooks only read the shape name.
- DOM script elements, `document.head` insertion and removal, and `import.meta.url` resolution: the network is an oracle and the candidate URLs are inputs.
- The Grapheditor extension candidate list is a parameter. In the source it always holds exactly one module-relative URL.
- Node's `decodeURIComponent`, `path.posix.normalize`, `path.join`, `path.resolve` and `Number`, and the file system's `stat` and `readFile`, are parameters. Their own behaviour is not modelled, and the containment guard is proved for all of them.
- Server.Extname: follows POSIX `path.extname`, with `/` as the only separator. On Windows, Node's `path.extname` also splits at `\`. So for `C:\srv\a.b\.html` Windows finds no extension and serves `application/octet-stream`, where the model finds `.html`. The path guard's separator stays a parameter, so the containment proofs cover both platforms.
- `toLowerCase` beyond ASCII: `Server.LowerAscii` lower-cases only A to Z. The MIME table's keys are ASCII.
- Server start-up (`http.createServer`, `listen`), console logging, the `Cache-Control` header and the response body bytes are not modelled.
- Server.Respond: the catch-all 500 (server.js line 96) is modelled for its two causes, a failed URI decode and a first `fs.stat` that throws (the `throws` oracle). A throw from the second `stat` (line 91) happens inside a callback, escapes the `catch`, and is not modelled. Joining `index.html` adds no NUL character, so that stat sees the same kind of path as the first. Whether `readFile` succeeds is the `readable` oracle.
- `EdgeHandles.LinkWidthRoundTrip` holds only for strokes of at most one pixel. For a thicker stroke, `getEdgeWidth` includes the stroke excess, so the source stores a width larger by that excess on every drag.
- `ActorShapes.LoopLimitPath` proves containment only for a non-negative style size. The source does not clamp the size from below (see `ActorShapes.LoopLimitNegativeSizeLeavesBox`).
- `CylinderShapes.ModulePath` and `CylinderShapes.ComponentPath` prove containment only when the jetties fit in the box. The source does not clamp them (see the `LeavesShortBox` lemmas).
- `ProcessShape.ProcessBarsWithin` is stated for an unrounded process of whole width. With rounding the inset is not capped (see `ProcessShape.RoundedBarsCanCross`), and a fractional width can round the inset past it.

=== FILE: actor_shapes.dfy ===
/**
  The actor-derived vertex shapes of shapes.js: outlines built by
  `redrawPath(c, x, y, w, h)` in the shape's local frame, from offsets read
  from the style and clamped. Shapes that hand a vertex list to the host's
  `addPoints` (which rounds the corners) return one `Polygon` command.
 */
module ActorShapes {
  import opened Style
  import opened Canvas
  import CylinderShapes

  /** The shapes of this file whose `isRoundable` override returns true:
      card, parallelogram, trapezoid, loopLimit, offPageConnector and
      callout. Roundability the host's own shapes define is not modelled. */
  const RoundableShapes: set<string> :=
    {"card", "parallelogram", "trapezoid", "loopLimit", "offPageConnector", "callout"}

  /** `isRoundable` of a shape this file registers (false for those that do
      not override it). */
  predicate IsRoundable(name: string)
  {
    name in RoundableShapes
  }

  /** CardShape.redrawPath: a rectangle with its top-left corner cut by the
      fold size of cube and note (default 30). */
  function CardPath(w: real, h: real, style: StyleMap): (r: seq<PathCmd>)
    ensures 0.0 <= w && 0.0 <= h ==> Within(r, Box(w, h))
    ensures |r| == 2 && r[0].Polygon? && |r[0].pts| == 5
  {
    var s := CylinderShapes.FoldSize(w, h, NumberOr(style, "size", 30.0));
    [Polygon([Point(s, 0.0), Point(w, 0.0), Point(w, h), Point(0.0, h), Point(0.0, s)]), End]
  }

  /** The wave depth of tape and document: `h * clamp01(size)`. */
  function WaveDepth(h: real, style: StyleMap, default: real): (dy: real)
    ensures 0.0 <= h ==> 0.0 <= dy <= h
    ensures 0.0 <= NumberOr(style, "size", default) <= 1.0 ==> dy == h * NumberOr(style, "size", default)
  {
    var f := Clamp(0.0, 1.0, NumberOr(style, "size", default));
    ScaleBounds(h, f); h * f
  }

  const WaveFactor := 1.4

  /** TapeShape.redrawPath: wavy top and bottom edges of depth `dy`. */
  function TapePath(w: real, h: real, style: StyleMap): (r: seq<PathCmd>)
    ensures 0.0 <= w && 0.0 <= h ==> Within(r, Box(w, h))
  {
    var dy := WaveDepth(h, style, 0.4);
    var fy := WaveFactor;
    [MoveTo(Point(0.0, dy / 2.0)),
     QuadTo(Point(w / 4.0, dy * fy), Point(w / 2.0, dy / 2.0)),
     QuadTo(Point((3.0 * w) / 4.0, dy * (1.0 - fy)), Point(w, dy / 2.0)),
     LineTo(Point(w, h - dy / 2.0)),
     QuadTo(Point((3.0 * w) / 4.0, h - dy * fy), Point(w / 2.0, h - dy / 2.0)),
     QuadTo(Point(w / 4.0, h - dy * (1.0 - fy)), Point(0.0, h - dy / 2.0)),
     LineTo(Point(0.0, dy / 2.0)), Close, End]
  }

  /** DocumentShape.redrawPath: straight top, wavy bottom edge. */
  function DocumentPath(w: real, h: real, style: StyleMap): (r: seq<PathCmd>)
    ensures 0.0 <= w && 0.0 <= h ==> Within(r, Box(w, h))
  {
    var dy := WaveDepth(h, style, 0.3);
    var fy := WaveFactor;
    [MoveTo(Point(0.0, 0.0)), LineTo(Point(w, 0.0)), LineTo(Point(w, h - dy / 2.0)),
     QuadTo(Point((3.0 * w) / 4.0, h - dy * fy), Point(w / 2.0, h - dy / 2.0)),
     QuadTo(Point(w / 4.0, h - dy * (1.0 - fy)), Point(0.0, h - dy / 2.0)),
     LineTo(Point(0.0, dy / 2.0)), Close, End]
  }

  /** DocumentShape.getLabelMargins: with `boundedLbl` set, the label keeps
      clear of the wave at the bottom by the raw (unclamped) size fraction of
      the label rectangle's height. */
  function DocumentLabelMargins(style: StyleMap, rect: Rect): (r: Option<Rect>)
    ensures r.Some? <==> Flag(style, "boundedLbl", false)
    ensures r.Some? ==> r.value.x == 0.0 && r.value.y == 0.0 && r.value.width == 0.0
    ensures r.Some? && 0.0 <= rect.height && 0.0 <= NumberOr(style, "size", 0.3) <= 1.0 ==>
      r.value.height == WaveDepth(rect.height, style, 0.3)
  {
    if Flag(style, "boundedLbl", false) then
      Some(Rect(0.0, 0.0, 0.0, NumberOr(style, "size", 0.3) * rect.height))
    else None
  }

  /** The inset shared by parallelogram and data storage: with `fixedSize`
      the style size (default 20) clamped into [0, w], otherwise `w` times
      the size fraction clamped into [0, 1]. */
  function SideInset(w: real, style: StyleMap, relDefault: real): (dx: real)
    ensures 0.0 <= w ==> 0.0 <= dx <= w
    ensures FixedSizeOn(style) && 0.0 <= NumberOr(style, "size", 20.0) <= w ==> dx == NumberOr(style, "size", 20.0)
    ensures !FixedSizeOn(style) && 0.0 <= NumberOr(style, "size", relDefault) <= 1.0 ==> dx == w * NumberOr(style, "size", relDefault)
  {
    if FixedSizeOn(style) then Clamp(0.0, w, NumberOr(style, "size", 20.0))
    else
      var f := Clamp(0.0, 1.0, NumberOr(style, "size", relDefault));
      ScaleBounds(w, f); w * f
  }

  /** ParallelogramShape.redrawPath. */
  function ParallelogramPath(w: real, h: real, style: StyleMap): (r: seq<PathCmd>)
    ensures 0.0 <= w && 0.0 <= h ==> Within(r, Box(w, h))
  {
    var dx := SideInset(w, style, 0.2);
    [Polygon([Point(0.0, h), Point(dx, 0.0), Point(w, 0.0), Point(w - dx, h)]), End]
  }

  /** The trapezoid's inset: like `SideInset`, but bounded by half the width
      in both modes, so the top edge is never inverted. */
  function TrapezoidInset(w: real, style: StyleMap): (dx: real)
    ensures 0.0 <= w ==> 0.0 <= dx <= w / 2.0 && dx <= w - dx
    ensures FixedSizeOn(style) && 0.0 <= NumberOr(style, "size", 20.0) <= w / 2.0 ==> dx == NumberOr(style, "size", 20.0)
    ensures !FixedSizeOn(style) && 0.0 <= NumberOr(style, "size", 0.2) <= 0.5 ==> dx == w * NumberOr(style, "size", 0.2)
  {
    if FixedSizeOn(style) then Clamp(0.0, w * 0.5, NumberOr(style, "size", 20.0))
    else
      var f := Clamp(0.0, 0.5, NumberOr(style, "size", 0.2));
      HalfScale(w, f);
      Portion(w, f)
  }

  lemma HalfScale(w: real, f: real)
    ensures 0.0 <= w && 0.0 <= f <= 0.5 ==> 0.0 <= Portion(w, f) <= w / 2.0
  {
    if 0.0 <= w && 0.0 <= f <= 0.5 {
      ScaleMonotone(w, f, 0.5);
      ScaleMonotone(w, 0.0, f);
    }
  }

  /** TrapezoidShape.redrawPath (it issues no `end`). */
  function TrapezoidPath(w: real, h: real, style: StyleMap): (r: seq<PathCmd>)
    ensures 0.0 <= w && 0.0 <= h ==> Within(r, Box(w, h))
  {
    var dx := TrapezoidInset(w, style);
    [Polygon([Point(0.0, h), Point(dx, 0.0), Point(w - dx, 0.0), Point(w, h)])]
  }

  /** The shaft of the single and double arrows: its top `at`, bottom `ab`
      and the head length `head`. */
  datatype Shaft = Shaft(at: real, ab: real, head: real)

  /** The shaft is `h * clamp01(arrowWidth)` thick and vertically centred;
      the head is `w * clamp01(arrowSize)` long. */
  function ArrowShaft(w: real, h: real, style: StyleMap): (s: Shaft)
    ensures 0.0 <= h ==> 0.0 <= s.at <= s.ab <= h
    ensures s.ab - s.at == h * Clamp(0.0, 1.0, NumberOr(style, "arrowWidth", 0.3))
    ensures s.at + s.ab == h
    ensures 0.0 <= w ==> 0.0 <= s.head <= w
  {
    var fw := Clamp(0.0, 1.0, NumberOr(style, "arrowWidth", 0.3));
    var fs := Clamp(0.0, 1.0, NumberOr(style, "arrowSize", 0.2));
    var aw := h * fw;
    var as_ := w * fs;
    ScaleBounds(h, fw);
    ScaleBounds(w, fs);
    var at := (h - aw) / 2.0;
    Shaft(at, at + aw, as_)
  }

  /** SingleArrowShape.redrawPath. */
  function SingleArrowPath(w: real, h: real, style: StyleMap): (r: seq<PathCmd>)
    ensures 0.0 <= w && 0.0 <= h ==> Within(r, Box(w, h))
  {
    var a := ArrowShaft(w, h, style);
    [Polygon([Point(0.0, a.at), Point(w - a.head, a.at), Point(w - a.head, 0.0), Point(w, h / 2.0),
              Point(w - a.head, h), Point(w - a.head, a.ab), Point(0.0, a.ab)]), End]
  }

  /** DoubleArrowShape.redrawPath (it reads the single arrow's defaults). */
  function DoubleArrowPath(w: real, h: real, style: StyleMap): (r: seq<PathCmd>)
    ensures 0.0 <= w && 0.0 <= h ==> Within(r, Box(w, h))
  {
    var a := ArrowShaft(w, h, style);
    [Polygon([Point(0.0, h / 2.0), Point(a.head, 0.0), Point(a.head, a.at), Point(w - a.head, a.at),
              Point(w - a.head, 0.0), Point(w, h / 2.0), Point(w - a.head, h), Point(w - a.head, a.ab),
              Point(a.head, a.ab), Point(a.head, h)]), End]
  }

  /** DataStorageShape.redrawPath: a drum seen from the side. */
  function DataStoragePath(w: real, h: real, style: StyleMap): (r: seq<PathCmd>)
    ensures 0.0 <= w && 0.0 <= h ==> Within(r, Box(w, h))
  {
    var s := SideInset(w, style, 0.1);
    [MoveTo(Point(s, 0.0)), LineTo(Point(w, 0.0)), QuadTo(Point(w - s * 2.0, h / 2.0), Point(w, h)),
     LineTo(Point(s, h)), QuadTo(Point(s - s * 2.0, h / 2.0), Point(s, 0.0)), Close, End]
  }

  /** OrShape.redrawPath. */
  function OrPath(w: real, h: real): (r: seq<PathCmd>)
    ensures 0.0 <= w && 0.0 <= h ==> Within(r, Box(w, h))
  {
    [MoveTo(Point(0.0, 0.0)), QuadTo(Point(w, 0.0), Point(w, h / 2.0)), QuadTo(Point(w, h), Point(0.0, h)), Close, End]
  }

  /** XorShape.redrawPath. */
  function XorPath(w: real, h: real): (r: seq<PathCmd>)
    ensures 0.0 <= w && 0.0 <= h ==> Within(r, Box(w, h))
  {
    [MoveTo(Point(0.0, 0.0)), QuadTo(Point(w, 0.0), Point(w, h / 2.0)), QuadTo(Point(w, h), Point(0.0, h)),
     QuadTo(Point(w / 2.0, h / 2.0), Point(0.0, 0.0)), Close, End]
  }

  /** The loop-limit corner cut: `min(w/2, min(h, size))`, bounded above
      only; a negative style size passes through. */
  function LoopLimitCut(w: real, h: real, style: StyleMap): (s: real)
    ensures s <= w / 2.0 && s <= h
    ensures NumberOr(style, "size", 20.0) <= w / 2.0 && NumberOr(style, "size", 20.0) <= h ==> s == NumberOr(style, "size", 20.0)
  {
    Min(w / 2.0, Min(h, NumberOr(style, "size", 20.0)))
  }

  /** LoopLimitShape.redrawPath: in the box whenever the style size is not
      negative. */
  function LoopLimitPath(w: real, h: real, style: StyleMap): (r: seq<PathCmd>)
    ensures 0.0 <= w && 0.0 <= h && 0.0 <= NumberOr(style, "size", 20.0) ==> Within(r, Box(w, h))
  {
    var s := LoopLimitCut(w, h, style);
    [Polygon([Point(s, 0.0), Point(w - s, 0.0), Point(w, s * 0.8), Point(w, h), Point(0.0, h), Point(0.0, s * 0.8)]), End]
  }

  /** A negative size is not clamped: the first vertex lies left of the box. */
  lemma LoopLimitNegativeSizeLeavesBox()
    ensures var r := LoopLimitPath(100.0, 50.0, map["size" := Num(-10.0)]);
      r[0].Polygon? && r[0].pts[0] == Point(-10.0, 0.0) && !Within(r, Box(100.0, 50.0))
  {
    var r := LoopLimitPath(100.0, 50.0, map["size" := Num(-10.0)]);
    assert !CmdWithin(r[0], Box(100.0, 50.0)) by {
      assert !InRect(r[0].pts[0], Box(100.0, 50.0));
    }
  }

  /** OffPageConnectorShape.redrawPath: a pentagon whose point is
      `h * clamp01(size)` deep. */
  function OffPageConnectorPath(w: real, h: real, style: StyleMap): (r: seq<PathCmd>)
    ensures 0.0 <= w && 0.0 <= h ==> Within(r, Box(w, h))
  {
    var f := Clamp(0.0, 1.0, NumberOr(style, "size", 3.0 / 8.0));
    var s := h * f;
    ScaleBounds(h, f);
    [Polygon([Point(0.0, 0.0), Point(w, 0.0), Point(w, h - s), Point(w / 2.0, h), Point(0.0, h - s)]), End]
  }

  /** The rounded end of delay and display: `min(w, h/2)`. */
  function RoundEnd(w: real, h: real): (dx: real)
    ensures dx <= w && dx <= h / 2.0
    ensures 0.0 <= w && 0.0 <= h ==> 0.0 <= dx
  {
    Min(w, h / 2.0)
  }

  /** DelayShape.redrawPath. */
  function DelayPath(w: real, h: real): (r: seq<PathCmd>)
    ensures 0.0 <= w && 0.0 <= h ==> Within(r, Box(w, h))
  {
    var dx := RoundEnd(w, h);
    [MoveTo(Point(0.0, 0.0)), LineTo(Point(w - dx, 0.0)), QuadTo(Point(w, 0.0), Point(w, h / 2.0)),
     QuadTo(Point(w, h), Point(w - dx, h)), LineTo(Point(0.0, h)), Close, End]
  }

  /** The display's left point: `min(w - dx, max(0, size) * w)`. It never
      reaches into the rounded end. */
  function DisplayPoint(w: real, h: real, style: StyleMap): (s: real)
    ensures s <= w - RoundEnd(w, h)
    ensures 0.0 <= w && 0.0 <= h ==> 0.0 <= s
  {
    var f := Max(0.0, NumberOr(style, "size", 0.25));
    Min(w - RoundEnd(w, h), f * w)
  }

  /** DisplayShape.redrawPath. */
  function DisplayPath(w: real, h: real, style: StyleMap): (r: seq<PathCmd>)
    ensures 0.0 <= w && 0.0 <= h ==> Within(r, Box(w, h))
  {
    var dx := RoundEnd(w, h);
    var s := DisplayPoint(w, h, style);
    [MoveTo(Point(0.0, h / 2.0)), LineTo(Point(s, 0.0)), LineTo(Point(w - dx, 0.0)),
     QuadTo(Point(w, 0.0), Point(w, h / 2.0)), QuadTo(Point(w, h), Point(w - dx, h)), LineTo(Point(s, h)), Close, End]
  }

  /** CornerShape.redrawPath: the arm widths `dx`, `dy` (default 20)
      clamped into the box. */
  function CornerPath(w: real, h: real, style: StyleMap): (r: seq<PathCmd>)
    ensures 0.0 <= w && 0.0 <= h ==> Within(r, Box(w, h))
  {
    var dx := Clamp(0.0, w, NumberOr(style, "dx", 20.0));
    var dy := Clamp(0.0, h, NumberOr(style, "dy", 20.0));
    [Polygon([Point(0.0, 0.0), Point(w, 0.0), Point(w, dy), Point(dx, dy), Point(dx, h), Point(0.0, h)]), End]
  }

  /** CrossbarShape.redrawPath: two uprights and a crossbar at mid-height. */
  function CrossbarPath(w: real, h: real): (r: seq<PathCmd>)
    ensures 0.0 <= w && 0.0 <= h ==> Within(r, Box(w, h))
  {
    [MoveTo(Point(0.0, 0.0)), LineTo(Point(0.0, h)), End, MoveTo(Point(w, 0.0)), LineTo(Point(w, h)), End,
     MoveTo(Point(0.0, h / 2.0)), LineTo(Point(w, h / 2.0)), End]
  }

  /** TeeShape.redrawPath: a bar of height `dy` with a centred stem of width
      `dx`. */
  function TeePath(w: real, h: real, style: StyleMap): (r: seq<PathCmd>)
    ensures 0.0 <= w && 0.0 <= h ==> Within(r, Box(w, h))
    ensures |r| == 2 && r[0].Polygon? && |r[0].pts| == 8
    ensures var p := r[0].pts; p[3].x + p[6].x == w && p[4].x + p[5].x == w
  {
    var dx := Clamp(0.0, w, NumberOr(style, "dx", 20.0));
    var dy := Clamp(0.0, h, NumberOr(style, "dy", 20.0));
    [Polygon([Point(0.0, 0.0), Point(w, 0.0), Point(w, dy), Point((w + dx) / 2.0, dy), Point((w + dx) / 2.0, h),
              Point((w - dx) / 2.0, h), Point((w - dx) / 2.0, dy), Point(0.0, dy)]), End]
  }

  /** SwitchShape.redrawPath: four inward-bowed quadratic sides. */
  function SwitchPath(w: real, h: real): (r: seq<PathCmd>)
    ensures 0.0 <= w && 0.0 <= h ==> Within(r, Box(w, h))
  {
    var curve := 0.5;
    [MoveTo(Point(0.0, 0.0)), QuadTo(Point(w / 2.0, h * curve), Point(w, 0.0)),
     QuadTo(Point(w * (1.0 - curve), h / 2.0), Point(w, h)), QuadTo(Point(w / 2.0, h * (1.0 - curve)), Point(0.0, h)),
     QuadTo(Point(w * curve, h / 2.0), Point(0.0, 0.0)), End]
  }

  /** The callout's clamped parameters: pointer depth `s`, pointer base
      position `dx`, pointer tip position `dx2`, pointer base width. */
  datatype Pointer = Pointer(s: real, dx: real, dx2: real, base: real)

  function CalloutPointer(w: real, h: real, style: StyleMap): (p: Pointer)
    ensures 0.0 <= h ==> 0.0 <= p.s <= h
    ensures 0.0 <= w ==> 0.0 <= p.dx <= w && 0.0 <= p.dx2 <= w && 0.0 <= p.base <= w
  {
    var f1 := Clamp(0.0, 1.0, NumberOr(style, "position", 0.5));
    var f2 := Clamp(0.0, 1.0, NumberOr(style, "position2", 0.5));
    Pointer(Clamp(0.0, h, NumberOr(style, "size", 30.0)), Portion(w, f1), Portion(w, f2),
            Clamp(0.0, w, NumberOr(style, "base", 20.0)))
  }

  /** CalloutShape.redrawPath (it issues no `end`): every vertex, the
      pointer's included, is in the box, and the pointer's base runs
      left to right. */
  function CalloutPath(w: real, h: real, style: StyleMap): (r: seq<PathCmd>)
    ensures 0.0 <= w && 0.0 <= h ==> Within(r, Box(w, h))
    ensures |r| == 1 && r[0].Polygon? && |r[0].pts| == 7
    ensures 0.0 <= w ==> var p := r[0].pts; p[5].x <= p[3].x <= w
  {
    var p := CalloutPointer(w, h, style);
    [Polygon([Point(0.0, 0.0), Point(w, 0.0), Point(w, h - p.s), Point(Min(w, p.dx + p.base), h - p.s),
              Point(p.dx2, h), Point(Max(0.0, p.dx), h - p.s), Point(0.0, h - p.s)])]
  }

  /** CalloutShape.getLabelMargins: the label keeps clear of the pointer by
      the raw style size times the view scale at the bottom. */
  function CalloutLabelMargins(style: StyleMap, scale: real): (r: Rect)
    ensures r.x == 0.0 && r.y == 0.0 && r.width == 0.0
    ensures 0.0 <= scale && 0.0 <= NumberOr(style, "size", 30.0) ==> 0.0 <= r.height
  {
    Rect(0.0, 0.0, 0.0, NumberOr(style, "size", 30.0) * scale)
  }

  /** The outline a roundable shape hands the host's `addPoints`, which
      rounds its corners when the style says `rounded`: for each of the
      six, one closed polygon of at least four vertices, within the shape's
      box (loopLimit's only for a non-negative cut). */
  function RoundableOutline(name: string, w: real, h: real, style: StyleMap): (r: seq<PathCmd>)
    requires IsRoundable(name)
    ensures 1 <= |r| <= 2 && r[0].Polygon? && 4 <= |r[0].pts|
    ensures |r| == 2 ==> r[1] == End
    ensures 0.0 <= w && 0.0 <= h && (name == "loopLimit" ==> 0.0 <= NumberOr(style, "size", 20.0)) ==> Within(r, Box(w, h))
  {
    if name == "card" then CardPath(w, h, style)
    else if name == "parallelogram" then ParallelogramPath(w, h, style)
    else if name == "trapezoid" then TrapezoidPath(w, h, style)
    else if name == "loopLimit" then LoopLimitPath(w, h, style)
    else if name == "offPageConnector" then OffPageConnectorPath(w, h, style)
    else CalloutPath(w, h, style)
  }
}

=== FILE: canvas.dfy ===
/**
  The drawing primitives a shape routine issues to the host canvas, and the
  containment predicates used to state that an outline stays inside the
  shape's bounding box.
 */
module Canvas {
  import opened Style

  datatype Point = Point(x: real, y: real)

  datatype Rect = Rect(x: real, y: real, width: real, height: real)

  /** One canvas call. `Polygon` is a closed `addPoints` outline (its corner
      rounding belongs to the host); `Ellipse` and `RectCmd` are `c.ellipse`
      and `c.rect`. Canvas translations are folded into the coordinates. */
  datatype PathCmd =
    | MoveTo(p: Point)
    | LineTo(p: Point)
    | QuadTo(c: Point, p: Point)
    | CurveTo(c1: Point, c2: Point, p: Point)
    | Polygon(pts: seq<Point>)
    | Ellipse(r: Rect)
    | RectCmd(r: Rect)
    | Close
    | Begin
    | End
    | Stroke
    | Fill
    | FillAndStroke
    | SetShadow(on: bool)
    | SetDashed(on: bool)
    | SetFillAlpha(alpha: real)
    | SetFillColor(color: StyleValue)

  function Box(w: real, h: real): Rect
  {
    Rect(0.0, 0.0, w, h)
  }

  predicate InRect(p: Point, b: Rect)
  {
    b.x <= p.x <= b.x + b.width && b.y <= p.y <= b.y + b.height
  }

  predicate RectInside(r: Rect, b: Rect)
  {
    0.0 <= r.width && 0.0 <= r.height
    && InRect(Point(r.x, r.y), b) && InRect(Point(r.x + r.width, r.y + r.height), b)
  }

  predicate PointsWithin(pts: seq<Point>, b: Rect)
  {
    forall i :: 0 <= i < |pts| ==> InRect(pts[i], b)
  }

  /** The points a command draws through lie in `b`: end points of lines and
      curves (control points may bulge outside), polygon vertices, and the
      boxes of ellipses and rectangles. */
  predicate CmdWithin(c: PathCmd, b: Rect)
  {
    match c
    case MoveTo(p) => InRect(p, b)
    case LineTo(p) => InRect(p, b)
    case QuadTo(_, p) => InRect(p, b)
    case CurveTo(_, _, p) => InRect(p, b)
    case Polygon(pts) => PointsWithin(pts, b)
    case Ellipse(r) => RectInside(r, b)
    case RectCmd(r) => RectInside(r, b)
    case _ => true
  }

  predicate Within(cmds: seq<PathCmd>, b: Rect)
  {
    forall i :: 0 <= i < |cmds| ==> CmdWithin(cmds[i], b)
  }

  /** Containment is preserved by concatenation. */
  lemma WithinAppend(a: seq<PathCmd>, b: seq<PathCmd>, box: Rect)
    ensures Within(a, box) && Within(b, box) ==> Within(a + b, box)
  {
    if Within(a, box) && Within(b, box) {
      forall i | 0 <= i < |a + b|
        ensures CmdWithin((a + b)[i], box)
      {
        if i >= |a| {
          assert (a + b)[i] == b[i - |a|];
        }
      }
    }
  }

  /** The label bounds the host derives from a shape's label margins for an
      unrotated, unflipped shape. The margins travel in a rectangle's slots:
      left in `x`, top in `y`, right in `width`, bottom in `height`. Each is
      clamped into the side it shrinks, rounded, and cut off that side. */
  function MarginedBounds(bounds: Rect, m: Rect): Rect
  {
    var left := Round(Clamp(0.0, bounds.width, m.x));
    var top := Round(Clamp(0.0, bounds.height, m.y));
    var right := Round(Clamp(0.0, bounds.width, m.width));
    var bottom := Round(Clamp(0.0, bounds.height, m.height));
    Rect(bounds.x + left, bounds.y + top, bounds.width - left - right, bounds.height - top - bottom)
  }
}

=== FILE: cylinder_shapes.dfy ===
/**
  The cylinder-derived vertex shapes of shapes.js: cube, note, datastore,
  message, module and component. Each routine is a pure function of the
  shape's width, height and style, returning the canvas calls it issues in
  the shape's local frame (the routines translate the canvas to the shape's
  origin first, or the host does before calling `redrawPath`).
 */
module CylinderShapes {
  import opened Style
  import opened Canvas

  const CubeDefaultSize := 20.0
  const NoteDefaultSize := 30.0

  /** The fold or cut size shared by cube, note and card:
      `max(0, min(w, min(h, size)))`. */
  function FoldSize(w: real, h: real, size: real): (s: real)
    ensures 0.0 <= s
    ensures 0.0 <= w && 0.0 <= h ==> s <= w && s <= h
    ensures 0.0 <= size && size <= w && size <= h ==> s == size
  {
    Max(0.0, Min(w, Min(h, size)))
  }

  /** A dark-face opacity clamped into [-1, 1]; its sign selects white or
      black and its magnitude the alpha. */
  function Opacity(style: StyleMap, key: string, default: real): (op: real)
    ensures -1.0 <= op <= 1.0
    ensures -1.0 <= NumberOr(style, key, default) <= 1.0 ==> op == NumberOr(style, key, default)
  {
    Clamp(-1.0, 1.0, NumberOr(style, key, default))
  }

  function Abs(x: real): real
  {
    if x < 0.0 then -x else x
  }

  /** The fill colour a dark face with opacity `op` is painted in. */
  function ShadeColor(op: real): StyleValue
  {
    if op < 0.0 then Text("#FFFFFF") else Text("#000000")
  }

  /** A dark face: painted only when its opacity is non-zero. */
  function DarkFace(op: real, face: seq<PathCmd>): (r: seq<PathCmd>)
    ensures forall box :: Within(face, box) ==> Within(r, box)
  {
    if op != 0.0 then
      var r := [SetFillAlpha(Abs(op)), SetFillColor(ShadeColor(op)), Begin] + face + [Close, Fill];
      assert forall box :: Within(face, box) ==> Within(r, box) by {
        forall box | Within(face, box) ensures Within(r, box) {
          WithinAppend([SetFillAlpha(Abs(op)), SetFillColor(ShadeColor(op)), Begin], face, box);
          WithinAppend([SetFillAlpha(Abs(op)), SetFillColor(ShadeColor(op)), Begin] + face, [Close, Fill], box);
        }
      }
      r
    else []
  }

  function CubeFold(w: real, h: real, style: StyleMap): real
  {
    FoldSize(w, h, NumberOr(style, "size", CubeDefaultSize))
  }

  /** CubeShape.paintVertexShape: the hexagonal body, then (unless painted as
      a bare outline) the two optional dark faces and the three inner edges. */
  function CubePaint(w: real, h: real, style: StyleMap, outline: bool): (r: seq<PathCmd>)
    ensures 0.0 <= w && 0.0 <= h ==> Within(r, Box(w, h))
  {
    var s := CubeFold(w, h, style);
    var body := CubeBody(w, h, s);
    if outline then body
    else
      var detail := CubeDetail(w, h, s, Opacity(style, "darkOpacity", 0.0), Opacity(style, "darkOpacity2", 0.0));
      WithinAppend(body, detail, Box(w, h));
      body + detail
  }

  function CubeBody(w: real, h: real, s: real): (r: seq<PathCmd>)
    ensures 0.0 <= s <= w && s <= h ==> Within(r, Box(w, h))
  {
    [Begin, MoveTo(Point(0.0, 0.0)), LineTo(Point(w - s, 0.0)), LineTo(Point(w, s)),
     LineTo(Point(w, h)), LineTo(Point(s, h)), LineTo(Point(0.0, h - s)),
     LineTo(Point(0.0, 0.0)), Close, End, FillAndStroke]
  }

  /** The cube's top and side dark faces and its three inner edges, drawn
      without shadow. */
  function CubeDetail(w: real, h: real, s: real, op: real, op2: real): (r: seq<PathCmd>)
    ensures 0.0 <= s <= w && s <= h ==> Within(r, Box(w, h))
  {
    var box := Box(w, h);
    var top := CubeTop(w, s, op);
    var side := CubeSide(h, s, op2);
    var edges := [Begin, MoveTo(Point(s, h)), LineTo(Point(s, s)), LineTo(Point(0.0, 0.0)),
                  MoveTo(Point(s, s)), LineTo(Point(w, s)), End, Stroke];
    assert 0.0 <= s <= w && s <= h ==> Within(edges, box);
    WithinAppend([SetShadow(false)], top, box);
    WithinAppend([SetShadow(false)] + top, side, box);
    WithinAppend([SetShadow(false)] + top + side, edges, box);
    [SetShadow(false)] + top + side + edges
  }

  function CubeTop(w: real, s: real, op: real): (r: seq<PathCmd>)
    ensures forall h :: 0.0 <= s <= w && s <= h ==> Within(r, Box(w, h))
  {
    var face := [MoveTo(Point(0.0, 0.0)), LineTo(Point(w - s, 0.0)), LineTo(Point(w, s)), LineTo(Point(s, s))];
    assert forall h :: 0.0 <= s <= w && s <= h ==> Within(face, Box(w, h));
    DarkFace(op, face)
  }

  function CubeSide(h: real, s: real, op2: real): (r: seq<PathCmd>)
    ensures forall w :: 0.0 <= s <= w && s <= h ==> Within(r, Box(w, h))
  {
    var face := [MoveTo(Point(0.0, 0.0)), LineTo(Point(s, s)), LineTo(Point(s, h)), LineTo(Point(0.0, h - s))];
    assert forall w :: 0.0 <= s <= w && s <= h ==> Within(face, Box(w, h));
    DarkFace(op2, face)
  }

  /** CubeShape.getLabelMargins: with `boundedLbl` set, the label is inset by
      the raw (unclamped) style size times the view scale on the top and
      left; otherwise there are no margins. */
  function CubeLabelMargins(style: StyleMap, scale: real): (r: Option<Rect>)
    ensures r.Some? <==> Flag(style, "boundedLbl", false)
    ensures r.Some? ==> r.value.x == r.value.y && r.value.width == 0.0 && r.value.height == 0.0
  {
    if Flag(style, "boundedLbl", false) then
      var s := NumberOr(style, "size", CubeDefaultSize) * scale;
      Some(Rect(s, s, 0.0, 0.0))
    else None
  }

  /** The cube's label margin equals the painted fold (scaled) exactly when
      the style size already lies inside the box: the margin is not clamped. */
  lemma CubeLabelMatchesFold(w: real, h: real, style: StyleMap, scale: real)
    requires Flag(style, "boundedLbl", false)
    requires 0.0 <= NumberOr(style, "size", CubeDefaultSize) <= w
    requires NumberOr(style, "size", CubeDefaultSize) <= h
    ensures CubeLabelMargins(style, scale).value.x == CubeFold(w, h, style) * scale
  {
  }

  function NoteFold(w: real, h: real, style: StyleMap): real
  {
    FoldSize(w, h, NumberOr(style, "size", NoteDefaultSize))
  }

  /** NoteShape.paintVertexShape: the dog-eared body, then the optional dark
      corner and the corner's two inner edges. */
  function NotePaint(w: real, h: real, style: StyleMap, outline: bool): (r: seq<PathCmd>)
    ensures 0.0 <= w && 0.0 <= h ==> Within(r, Box(w, h))
  {
    var s := NoteFold(w, h, style);
    var op := Opacity(style, "darkOpacity", 0.0);
    var body := [Begin, MoveTo(Point(0.0, 0.0)), LineTo(Point(w - s, 0.0)), LineTo(Point(w, s)),
                 LineTo(Point(w, h)), LineTo(Point(0.0, h)), LineTo(Point(0.0, 0.0)), Close, End, FillAndStroke];
    if outline then body
    else
      var corner := DarkFace(op, [MoveTo(Point(w - s, 0.0)), LineTo(Point(w - s, s)), LineTo(Point(w, s))]);
      var edges := [Begin, MoveTo(Point(w - s, 0.0)), LineTo(Point(w - s, s)), LineTo(Point(w, s)), End, Stroke];
      WithinAppend(body, [SetShadow(false)], Box(w, h));
      WithinAppend(body + [SetShadow(false)], corner, Box(w, h));
      WithinAppend(body + [SetShadow(false)] + corner, edges, Box(w, h));
      body + [SetShadow(false)] + corner + edges
  }

  /** The datastore's lip depth: `min(h/2, round(h/8) + strokewidth - 1)`. */
  function DatastoreLip(h: real, strokewidth: real): (dy: real)
    ensures dy <= h / 2.0
    ensures 0.0 <= h && 1.0 <= strokewidth ==> 0.0 <= dy
  {
    Min(h / 2.0, Round(h / 8.0) + strokewidth - 1.0)
  }

  /** One lip curve drawn `off` below the top lip. */
  function DatastoreRim(w: real, dy: real, off: real): seq<PathCmd>
  {
    [MoveTo(Point(0.0, dy + off)),
     CurveTo(Point(0.0, 2.0 * dy + off), Point(w, 2.0 * dy + off), Point(w, dy + off))]
  }

  /** DataStoreShape.redrawPath: the three stacked rims (drawn in the
      foreground pass of a filled shape, or in the background pass of an
      unfilled one; the two `translate(0, dy/2)` steps are folded into the
      offsets), then, in the background pass, the body. */
  function DatastorePath(w: real, h: real, strokewidth: real, filled: bool, foreground: bool): (r: seq<PathCmd>)
    ensures 0.0 <= w && 0.0 <= h && 1.0 <= strokewidth ==> Within(r, Box(w, h))
    ensures r == [] <==> foreground && !filled
  {
    var dy := DatastoreLip(h, strokewidth);
    var sep: seq<PathCmd> := if !foreground then [Stroke, Begin] else [];
    var rims :=
      if (foreground && filled) || (!foreground && !filled) then
        DatastoreRim(w, dy, 0.0) + sep + DatastoreRim(w, dy, dy / 2.0) + sep + DatastoreRim(w, dy, dy) + sep
      else [];
    var body :=
      if !foreground then
        [MoveTo(Point(0.0, dy)), CurveTo(Point(0.0, -dy / 3.0), Point(w, -dy / 3.0), Point(w, dy)),
         LineTo(Point(w, h - dy)), CurveTo(Point(w, h + dy / 3.0), Point(0.0, h + dy / 3.0), Point(0.0, h - dy)), Close]
      else [];
    rims + body
  }

  /** DataStoreShape.getLabelMargins: the label starts 2.5 lip depths below
      the top, which is at most 1.25 times the height. */
  function DatastoreLabelMargins(rect: Rect, strokewidth: real): (r: Rect)
    ensures r.y == 2.5 * DatastoreLip(rect.height, strokewidth)
    ensures r.y <= 1.25 * rect.height
    ensures 0.0 <= rect.height && 1.0 <= strokewidth ==> 0.0 <= r.y
    ensures r.x == 0.0 && r.width == 0.0 && r.height == 0.0
  {
    Rect(0.0, 2.5 * Min(rect.height / 2.0, Round(rect.height / 8.0) + strokewidth - 1.0), 0.0, 0.0)
  }

  /** MessageShape.redrawPath: the envelope flap in the foreground pass, the
      envelope rectangle in the background pass. */
  function MessagePath(w: real, h: real, foreground: bool): (r: seq<PathCmd>)
    ensures 0.0 <= w && 0.0 <= h ==> Within(r, Box(w, h))
  {
    if foreground then
      [MoveTo(Point(0.0, 0.0)), LineTo(Point(w / 2.0, h / 2.0)), LineTo(Point(w, 0.0)), End]
    else
      [MoveTo(Point(0.0, 0.0)), LineTo(Point(w, 0.0)), LineTo(Point(w, h)), LineTo(Point(0.0, h)), Close, End]
  }

  /** The vertical placement of the two jetties of a module or component. */
  datatype Jetties = Jetties(x0: real, x1: real, y0: real, y1: real, dy: real)

  /** The jetty outline shared by module and component (foreground pass:
      the two jetty boxes; background pass: the body with the jetty notches). */
  function JettyPath(w: real, h: real, j: Jetties, foreground: bool): seq<PathCmd>
  {
    var x0 := j.x0; var x1 := j.x1; var y0 := j.y0; var y1 := j.y1; var dy := j.dy;
    if foreground then
      [MoveTo(Point(x0, y0)), LineTo(Point(x1, y0)), LineTo(Point(x1, y0 + dy)), LineTo(Point(x0, y0 + dy)),
       MoveTo(Point(x0, y1)), LineTo(Point(x1, y1)), LineTo(Point(x1, y1 + dy)), LineTo(Point(x0, y1 + dy)), End]
    else
      [MoveTo(Point(x0, 0.0)), LineTo(Point(w, 0.0)), LineTo(Point(w, h)), LineTo(Point(x0, h)),
       LineTo(Point(x0, y1 + dy)), LineTo(Point(0.0, y1 + dy)), LineTo(Point(0.0, y1)), LineTo(Point(x0, y1)),
       LineTo(Point(x0, y0 + dy)), LineTo(Point(0.0, y0 + dy)), LineTo(Point(0.0, y0)), LineTo(Point(x0, y0)),
       Close, End]
  }

  /** Both jetties lie in the box when their extents do. */
  lemma JettyPathWithin(w: real, h: real, j: Jetties, foreground: bool)
    ensures 0.0 <= j.x0 <= j.x1 <= w && 0.0 <= h
         && 0.0 <= j.y0 && 0.0 <= j.dy && j.y0 + j.dy <= h
         && 0.0 <= j.y1 && j.y1 + j.dy <= h
         ==> Within(JettyPath(w, h, j, foreground), Box(w, h))
  {
  }

  /** ModuleShape's jetty placement: `y0 = min(dy, h - dy)` and
      `y1 = min(y0 + 2dy, h - dy)`. The lower jetty never passes the bottom
      edge; there is no lower clamp on `y0`. */
  function ModuleJetties(h: real, style: StyleMap): (j: Jetties)
    ensures j.dy == NumberOr(style, "jettyHeight", 10.0)
    ensures j.x0 == NumberOr(style, "jettyWidth", 20.0) / 2.0 && j.x1 == 2.0 * j.x0
    ensures j.y0 <= j.dy && j.y0 <= h - j.dy
    ensures j.y1 + j.dy <= h
    ensures 0.0 <= j.dy ==> j.y0 <= j.y1
    ensures 0.0 <= j.dy <= h - j.dy ==> j.y0 == j.dy
  {
    var dx := NumberOr(style, "jettyWidth", 20.0);
    var dy := NumberOr(style, "jettyHeight", 10.0);
    var x0 := dx / 2.0;
    var y0 := Min(dy, h - dy);
    Jetties(x0, x0 + dx / 2.0, y0, Min(y0 + 2.0 * dy, h - dy), dy)
  }

  /** ModuleShape.redrawPath. */
  function ModulePath(w: real, h: real, style: StyleMap, foreground: bool): (r: seq<PathCmd>)
    ensures var dx := NumberOr(style, "jettyWidth", 20.0); var dy := NumberOr(style, "jettyHeight", 10.0);
      0.0 <= dx <= w && 0.0 <= dy <= h ==> Within(r, Box(w, h))
  {
    var j := ModuleJetties(h, style);
    JettyPathWithin(w, h, j, foreground);
    JettyPath(w, h, j, foreground)
  }

  /** A module shorter than its jetty: the upper jetty starts above the box. */
  lemma ModuleJettyLeavesShortBox()
    ensures ModuleJetties(5.0, map["jettyHeight" := Num(10.0)]).y0 == -5.0
  {
  }

  /** ComponentShape's jetty placement: the jetties are centred at 0.3 and
      0.7 of the height, `0.4 * h` apart, with no clamp at all. */
  function ComponentJetties(h: real, style: StyleMap): (j: Jetties)
    ensures j.dy == NumberOr(style, "jettyHeight", 12.0)
    ensures j.x0 == NumberOr(style, "jettyWidth", 32.0) / 2.0 && j.x1 == 2.0 * j.x0
    ensures j.y0 + j.dy / 2.0 == 0.3 * h && j.y1 + j.dy / 2.0 == 0.7 * h
    ensures j.y1 - j.y0 == 0.4 * h
  {
    var dx := NumberOr(style, "jettyWidth", 32.0);
    var dy := NumberOr(style, "jettyHeight", 12.0);
    var x0 := dx / 2.0;
    Jetties(x0, x0 + dx / 2.0, 0.3 * h - dy / 2.0, 0.7 * h - dy / 2.0, dy)
  }

  /** ComponentShape.redrawPath. The outline stays in the box while the
      jetty height is at most 0.6 of the height. */
  function ComponentPath(w: real, h: real, style: StyleMap, foreground: bool): (r: seq<PathCmd>)
    ensures var dx := NumberOr(style, "jettyWidth", 32.0); var dy := NumberOr(style, "jettyHeight", 12.0);
      0.0 <= dx <= w && 0.0 <= dy <= 0.6 * h ==> Within(r, Box(w, h))
  {
    var j := ComponentJetties(h, style);
    JettyPathWithin(w, h, j, foreground);
    JettyPath(w, h, j, foreground)
  }

  /** A component whose jetty is taller than 0.6 of its height: the upper
      jetty starts above the box. */
  lemma ComponentJettyLeavesShortBox()
    ensures ComponentJetties(10.0, map["jettyHeight" := Num(12.0)]).y0 == -3.0
  {
  }
}

=== FILE: dispatch.dfy ===
/**
  The handle factory of shapes.js and the two patched `createCustomHandles`
  hooks of the vertex and edge handlers that consult it.
 */
module HandleDispatch {
  import opened Style
  import opened EdgeHandles

  /** The link handles' extra distance from the body, in screen pixels. */
  const LinkSpacing := 10.0

  /** The host's shape-name constants and the "no arrow" style value. */
  const ShapeConnector := "connector"
  const ShapeRectangle := "rectangle"
  const ShapeSwimlane := "swimlane"
  const NoArrow := "none"

  /** createEdgeWidthHandle: a link handle owning only `width`, with the
      defaults of createHandle. */
  function EdgeWidthHandle(start: bool, spacing: real): (r: Handle)
    ensures r.keys == ["width"] && r.kind == LinkWidth(spacing) && r.start == start
    ensures r.ignoreGrid && !r.redrawEdges && !r.hasExecute
  {
    CreateHandle(["width"], LinkWidth(spacing), start, None, false, false)
  }

  /** The flexArrow handle for the body width and the arrow size at one end. */
  function FlexWidthHandle(start: bool): (r: Handle)
    ensures r.keys == ["width", StartSize, EndSize] && r.kind == FlexWidth && r.start == start
    ensures r.ignoreGrid && !r.redrawEdges && !r.hasExecute
  {
    CreateHandle(["width", StartSize, EndSize], FlexWidth, start, None, false, false)
  }

  /** The flexArrow handle for the arrow-head width and size at one end. */
  function FlexArrowHandle(start: bool): (r: Handle)
    ensures r.keys == ["startWidth", "endWidth", StartSize, EndSize] && r.kind == FlexArrowHead && r.start == start
    ensures r.ignoreGrid && !r.redrawEdges && !r.hasExecute
  {
    CreateHandle(["startWidth", "endWidth", StartSize, EndSize], FlexArrowHead, start, None, false, false)
  }

  /** `mxUtils.getValue(style, key, NONE) != NONE`: an arrow is drawn at that
      end. */
  predicate ArrowOn(style: StyleMap, key: string)
  {
    !ValueIs(style, key, NoArrow, NoArrow)
  }

  /** The handles of one end of a flexArrow: none when that end has no
      arrow, otherwise its width handle then its arrow-head handle. */
  function FlexEndHandles(style: StyleMap, start: bool): (r: seq<Handle>)
    ensures |r| == (if ArrowOn(style, if start then "startArrow" else "endArrow") then 2 else 0)
    ensures |r| == 2 ==> r[0] == FlexWidthHandle(start) && r[1] == FlexArrowHandle(start)
  {
    if ArrowOn(style, if start then "startArrow" else "endArrow") then [FlexWidthHandle(start), FlexArrowHandle(start)]
    else []
  }

  /** handleFactory: handles for the `link` and `flexArrow` shapes; any
      other name has no entry. */
  function HandleFactory(name: string, style: StyleMap): (r: Option<seq<Handle>>)
    ensures r.Some? <==> name == "link" || name == "flexArrow"
    ensures name == "link" ==> r == Some([EdgeWidthHandle(true, LinkSpacing), EdgeWidthHandle(false, LinkSpacing)])
    ensures name == "flexArrow" ==>
      |r.value| == (if ArrowOn(style, "startArrow") then 2 else 0) + (if ArrowOn(style, "endArrow") then 2 else 0)
    ensures name == "flexArrow" ==>
      forall i :: 0 <= i < |r.value| ==>
        (r.value[i].start ==> ArrowOn(style, "startArrow")) && (!r.value[i].start ==> ArrowOn(style, "endArrow"))
  {
    if name == "link" then Some([EdgeWidthHandle(true, LinkSpacing), EdgeWidthHandle(false, LinkSpacing)])
    else if name == "flexArrow" then Some(FlexEndHandles(style, true) + FlexEndHandles(style, false))
    else None
  }

  /** A flexArrow gets 0, 2 or 4 handles, and the start end's come first. */
  lemma FlexArrowHandleCount(style: StyleMap)
    ensures |HandleFactory("flexArrow", style).value| in {0, 2, 4}
    ensures var hs := HandleFactory("flexArrow", style).value;
      forall i, j :: 0 <= i < j < |hs| && !hs[i].start ==> !hs[j].start
  {
  }

  /** The names the host knows: registered shapes and stencils. */
  datatype Registry = Registry(shapes: set<string>, stencils: set<string>)

  predicate Known(reg: Registry, name: Option<string>)
  {
    name.Some? && (name.value in reg.shapes || name.value in reg.stencils)
  }

  /** The edge hook's factory key: the cell's shape name, or the connector
      for a name the host does not know. */
  function EdgeHandleName(reg: Registry, name: Option<string>): (r: string)
    ensures Known(reg, name) ==> r == name.value
    ensures !Known(reg, name) ==> r == ShapeConnector
  {
    if Known(reg, name) then name.value else ShapeConnector
  }

  /** mxEdgeHandler.createCustomHandles as patched: the factory's handles
      when it has an entry for the key, otherwise whatever the original hook
      returns (`original`, None when there is no original hook or it returns
      null). */
  function EdgeCustomHandles(reg: Registry, name: Option<string>, style: StyleMap,
                             original: Option<seq<Handle>>): (r: Option<seq<Handle>>)
    ensures HandleFactory(EdgeHandleName(reg, name), style).Some? ==>
      r == HandleFactory(EdgeHandleName(reg, name), style)
    ensures HandleFactory(EdgeHandleName(reg, name), style).None? ==> r == original
  {
    var key := EdgeHandleName(reg, name);
    var fromFactory := HandleFactory(key, style);
    if fromFactory.Some? then fromFactory else original
  }

  /** An edge whose shape the host does not know falls back to the original
      hook: its key is the connector, which the factory has no entry for. */
  lemma UnknownEdgeUsesOriginal(reg: Registry, name: Option<string>, style: StyleMap, original: Option<seq<Handle>>)
    requires !Known(reg, name)
    ensures EdgeCustomHandles(reg, name, style, original) == original
  {
  }

  /** A known `link` edge gets exactly its two width handles, one per end,
      whatever the original hook offers. */
  lemma LinkEdgeGetsTwoHandles(reg: Registry, style: StyleMap, original: Option<seq<Handle>>)
    requires "link" in reg.shapes
    ensures var r := EdgeCustomHandles(reg, Some("link"), style, original);
      r.Some? && |r.value| == 2 && r.value[0].start && !r.value[1].start
  {
  }

  /** The vertex hook's factory key: the rectangle for an unknown shape, the
      swimlane for a known shape on a swimlane cell, the shape name
      otherwise. */
  function VertexHandleName(reg: Registry, name: Option<string>, swimlane: bool): (r: string)
    ensures !Known(reg, name) ==> r == ShapeRectangle
    ensures Known(reg, name) && swimlane ==> r == ShapeSwimlane
    ensures Known(reg, name) && !swimlane ==> r == name.value
  {
    if !Known(reg, name) then ShapeRectangle
    else if swimlane then ShapeSwimlane
    else name.value
  }

  /** mxVertexHandler.createCustomHandles as patched: the original hook's
      handles (`original`), followed, for a rotatable cell whose key has a
      factory entry, by the factory's handles. */
  function VertexCustomHandles(reg: Registry, name: Option<string>, style: StyleMap, rotatable: bool,
                               swimlane: bool, original: Option<seq<Handle>>): (r: Option<seq<Handle>>)
    ensures !rotatable ==> r == original
    ensures original.Some? ==> r.Some? && original.value <= r.value
    ensures rotatable && HandleFactory(VertexHandleName(reg, name, swimlane), style).Some? ==>
      r.Some? && r.value == (if original.Some? then original.value else [])
                            + HandleFactory(VertexHandleName(reg, name, swimlane), style).value
    ensures HandleFactory(VertexHandleName(reg, name, swimlane), style).None? ==> r == original
  {
    if rotatable then
      var extra := HandleFactory(VertexHandleName(reg, name, swimlane), style);
      if extra.None? then original
      else if original.None? then extra
      else Some(original.value + extra.value)
    else original
  }

  /** Unknown shapes and swimlanes keep only the original vertex handles:
      the factory has no rectangle or swimlane entry. */
  lemma VertexRectangleAndSwimlaneKeepOriginal(reg: Registry, name: Option<string>, style: StyleMap,
                                               rotatable: bool, swimlane: bool, original: Option<seq<Handle>>)
    requires !Known(reg, name) || swimlane
    ensures VertexCustomHandles(reg, name, style, rotatable, swimlane, original) == original
  {
  }
}

=== FILE: edge_shapes.dfy ===
/**
  The two arrow-connector edge shapes of shapes.js, `flexArrow` and `link`:
  how wide their body and arrow heads are drawn, given the style and the
  stroke width.
 */
module EdgeShapes {
  import opened Style

  const FlexDefaultWidth := 10.0
  const FlexDefaultArrowWidth := 20.0
  const LinkDefaultWidth := 4.0

  /** What a stroke wider than one pixel adds to an edge's body. */
  function StrokeExtra(strokeWidth: real): (r: real)
    ensures 0.0 <= r
    ensures strokeWidth <= 1.0 ==> r == 0.0
    ensures 1.0 <= strokeWidth ==> r == strokeWidth - 1.0
  {
    Max(0.0, strokeWidth - 1.0)
  }

  /** FlexArrowShape.getEdgeWidth: the style's `width` (default 10) widened
      by the stroke beyond one pixel. */
  function FlexEdgeWidth(style: StyleMap, strokeWidth: real): (r: real)
    ensures NumberOr(style, "width", FlexDefaultWidth) <= r
    ensures strokeWidth <= 1.0 ==> r == NumberOr(style, "width", FlexDefaultWidth)
    ensures 1.0 <= strokeWidth ==> r == NumberOr(style, "width", FlexDefaultWidth) + strokeWidth - 1.0
  {
    NumberOr(style, "width", FlexDefaultWidth) + StrokeExtra(strokeWidth)
  }

  /** FlexArrowShape.getStartArrowWidth and getEndArrowWidth: an arrow head
      overhangs the body by the style's `startWidth` / `endWidth`
      (default 20). */
  function FlexArrowWidth(style: StyleMap, strokeWidth: real, start: bool): (r: real)
    ensures r - FlexEdgeWidth(style, strokeWidth)
         == NumberOr(style, if start then "startWidth" else "endWidth", FlexDefaultArrowWidth)
  {
    FlexEdgeWidth(style, strokeWidth)
      + NumberOr(style, if start then "startWidth" else "endWidth", FlexDefaultArrowWidth)
  }

  /** LinkShape.getEdgeWidth: the style's `width` (default 4) widened by the
      stroke beyond one pixel. */
  function LinkEdgeWidth(style: StyleMap, strokeWidth: real): (r: real)
    ensures NumberOr(style, "width", LinkDefaultWidth) <= r
    ensures strokeWidth <= 1.0 ==> r == NumberOr(style, "width", LinkDefaultWidth)
    ensures 1.0 <= strokeWidth ==> r == NumberOr(style, "width", LinkDefaultWidth) + strokeWidth - 1.0
  {
    NumberOr(style, "width", LinkDefaultWidth) + StrokeExtra(strokeWidth)
  }

  /** The arrow-connector switches a link overrides. */
  datatype ConnectorTraits = ConnectorTraits(openEnded: bool, arrowRounded: bool)

  /** LinkShape: always open-ended (no arrow heads), with arrow corners
      rounded exactly when the shape is rounded. */
  function LinkTraits(rounded: bool): (r: ConnectorTraits)
    ensures r.openEnded
    ensures r.arrowRounded <==> rounded
  {
    ConnectorTraits(true, rounded)
  }
}

=== FILE: ellipse_shapes.dfy ===
/**
  The ellipse-derived vertex shapes of shapes.js: the host ellipse followed
  by decoration strokes. These routines draw in canvas coordinates, offset
  by the shape's origin `(x, y)`, so their bounds are `Rect(x, y, w, h)`.
 */
module EllipseShapes {
  import opened Style
  import opened Canvas

  /** The host ellipse's own paint: the ellipse through the bounds, filled
      and stroked. */
  function BaseEllipse(x: real, y: real, w: real, h: real): seq<PathCmd>
  {
    [Ellipse(Rect(x, y, w, h)), FillAndStroke]
  }

  /** A stroked segment from `a` to `b`. */
  function Segment(a: Point, b: Point): seq<PathCmd>
  {
    [Begin, MoveTo(a), LineTo(b), End, Stroke]
  }

  /** TapeDataShape.paintVertexShape: the ellipse plus the tape's tail along
      the bottom edge from the middle to the right. */
  function TapeDataPaint(x: real, y: real, w: real, h: real): (r: seq<PathCmd>)
    ensures 0.0 <= w && 0.0 <= h ==> Within(r, Rect(x, y, w, h))
  {
    BaseEllipse(x, y, w, h) + Segment(Point(x + w / 2.0, y + h), Point(x + w, y + h))
  }

  /** OrEllipseShape.paintVertexShape: the ellipse crossed by its horizontal
      and vertical diameters (painted without shadow). */
  function OrEllipsePaint(x: real, y: real, w: real, h: real): (r: seq<PathCmd>)
    ensures 0.0 <= w && 0.0 <= h ==> Within(r, Rect(x, y, w, h))
  {
    BaseEllipse(x, y, w, h) + [SetShadow(false)]
    + Segment(Point(x, y + h / 2.0), Point(x + w, y + h / 2.0))
    + Segment(Point(x + w / 2.0, y), Point(x + w / 2.0, y + h))
  }

  /** The inset of the sum-ellipse's diagonals, as a fraction of the box. */
  const SumInset := 0.145

  /** SumEllipseShape.paintVertexShape: the ellipse crossed by two diagonals
      inset by 0.145 of the box on every side. */
  function SumEllipsePaint(x: real, y: real, w: real, h: real): (r: seq<PathCmd>)
    ensures 0.0 <= w && 0.0 <= h ==> Within(r, Rect(x, y, w, h))
  {
    var s2 := SumInset;
    ScaleBounds(w, s2);
    ScaleBounds(h, s2);
    ScaleBounds(w, 1.0 - s2);
    ScaleBounds(h, 1.0 - s2);
    BaseEllipse(x, y, w, h) + [SetShadow(false)]
    + Segment(Point(x + w * s2, y + h * s2), Point(x + w * (1.0 - s2), y + h * (1.0 - s2)))
    + Segment(Point(x + w * (1.0 - s2), y + h * s2), Point(x + w * s2, y + h * (1.0 - s2)))
  }

  /** LineEllipseShape.paintVertexShape: the ellipse with one diameter,
      vertical when the style's `line` is "vertical", horizontal otherwise. */
  function LineEllipsePaint(x: real, y: real, w: real, h: real, style: StyleMap): (r: seq<PathCmd>)
    ensures 0.0 <= w && 0.0 <= h ==> Within(r, Rect(x, y, w, h))
    ensures |r| == 8
    ensures ValueIs(style, "line", "", "vertical") ==>
      r[4] == MoveTo(Point(x + w / 2.0, y)) && r[5] == LineTo(Point(x + w / 2.0, y + h))
    ensures !ValueIs(style, "line", "", "vertical") ==>
      r[4] == MoveTo(Point(x, y + h / 2.0)) && r[5] == LineTo(Point(x + w, y + h / 2.0))
  {
    var line :=
      if ValueIs(style, "line", "", "vertical") then
        [MoveTo(Point(x + w / 2.0, y)), LineTo(Point(x + w / 2.0, y + h))]
      else
        [MoveTo(Point(x, y + h / 2.0)), LineTo(Point(x + w, y + h / 2.0))];
    BaseEllipse(x, y, w, h) + [SetShadow(false), Begin] + line + [End, Stroke]
  }

  /** UmlEntityShape.paintVertexShape: the ellipse underlined along the
      bottom edge between 1/8 and 7/8 of the width. */
  function UmlEntityPaint(x: real, y: real, w: real, h: real): (r: seq<PathCmd>)
    ensures 0.0 <= w && 0.0 <= h ==> Within(r, Rect(x, y, w, h))
  {
    BaseEllipse(x, y, w, h) + Segment(Point(x + w / 8.0, y + h), Point(x + (7.0 * w) / 8.0, y + h))
  }
}

=== FILE: handles.dfy ===
/**
  Custom edge handles of shapes.js: the generic handle record built by
  `createHandle`, the screen/model transforms of `createEdgeHandle`, where
  the link and flexArrow handles sit, and how dragging one rewrites the
  edge's style.

  The measurements the host makes of a dragged point (`ptSegDistSq` under a
  square root, `ptLineDist`) are oracle parameters, as is the unit direction
  of the edge's end segment (`Axis`).
 */
module EdgeHandles {
  import opened Style
  import opened Canvas
  import opened EdgeShapes

  // ---------------------------------------------------------------------
  // createHandle

  /** What a handle does when dragged: which of the edge handles it is. */
  datatype HandleKind =
    | LinkWidth(spacing: real)
    | FlexWidth
    | FlexArrowHead

  /** A handle as `createHandle` configures it: the style keys it owns, its
      drag behaviour, which end of the edge it sits on, and its switches. */
  datatype Handle = Handle(
    keys: seq<string>,
    kind: HandleKind,
    start: bool,
    ignoreGrid: bool,
    redrawEdges: bool,
    hasExecute: bool)

  /** createHandle: an absent `ignoreGrid` means true; `redrawEdges` and the
      execute callback are optional. */
  function CreateHandle(keys: seq<string>, kind: HandleKind, start: bool,
                        ignoreGrid: Option<bool>, redrawEdges: bool, hasExecute: bool): (r: Handle)
    ensures r.keys == keys && r.kind == kind && r.start == start
    ensures r.ignoreGrid <==> (ignoreGrid == None || ignoreGrid == Some(true))
    ensures r.redrawEdges == redrawEdges && r.hasExecute == hasExecute
  {
    Handle(keys, kind, start, if ignoreGrid.Some? then ignoreGrid.value else true, redrawEdges, hasExecute)
  }

  /** One step of a handle's reaction to the end of a drag or to a move. */
  datatype Step = CopyStyle(key: string) | RunExecute | HostPositionChanged | Invalidate | Validate

  /** handle.execute: copy every owned key into the cell's style, in order,
      then run the execute callback when one was given. */
  function ExecuteSteps(h: Handle): (r: seq<Step>)
    ensures |r| == |h.keys| + (if h.hasExecute then 1 else 0)
    ensures forall i :: 0 <= i < |h.keys| ==> r[i] == CopyStyle(h.keys[i])
    ensures h.hasExecute ==> r[|r| - 1] == RunExecute
    ensures RunExecute in r <==> h.hasExecute
  {
    var copies := CopySteps(h.keys);
    if h.hasExecute then copies + [RunExecute] else copies
  }

  function CopySteps(keys: seq<string>): (r: seq<Step>)
    ensures |r| == |keys|
    ensures forall i :: 0 <= i < |keys| ==> r[i] == CopyStyle(keys[i])
  {
    if keys == [] then [] else [CopyStyle(keys[0])] + CopySteps(keys[1..])
  }

  /** handle.positionChanged: the host's own reaction, followed by a view
      invalidation and revalidation when the handle redraws edges. */
  function PositionChangedSteps(h: Handle): (r: seq<Step>)
    ensures |r| >= 1 && r[0] == HostPositionChanged
    ensures |r| > 1 <==> h.redrawEdges
    ensures h.redrawEdges ==> r[1..] == [Invalidate, Validate]
  {
    if h.redrawEdges then [HostPositionChanged, Invalidate, Validate] else [HostPositionChanged]
  }

  /** `keys.join(',')`. */
  function Join(keys: seq<string>): string
  {
    if |keys| == 0 then ""
    else if |keys| == 1 then keys[0]
    else keys[0] + "," + Join(keys[1..])
  }

  /** Joining comma-free keys puts exactly one comma between neighbours. */
  lemma {:induction false} JoinCommaCount(keys: seq<string>)
    requires forall i :: 0 <= i < |keys| ==> ',' !in keys[i]
    ensures multiset(Join(keys))[','] == if |keys| == 0 then 0 else |keys| - 1
  {
    if |keys| > 1 {
      var rest := keys[1..];
      assert forall i :: 0 <= i < |rest| ==> rest[i] == keys[i + 1];
      JoinCommaCount(rest);
      assert ',' !in keys[0];
      assert multiset(keys[0] + "," + Join(rest)) == multiset(keys[0]) + multiset(",") + multiset(Join(rest));
    }
  }

  /** handle.getTooltip: the owned keys joined by commas (the host's HTML
      escaping is not modelled). */
  function Tooltip(h: Handle): (r: string)
    ensures |h.keys| >= 1 && (forall i :: 0 <= i < |h.keys| ==> ',' !in h.keys[i]) ==> Split(r) == h.keys
  {
    if |h.keys| >= 1 && (forall i :: 0 <= i < |h.keys| ==> ',' !in h.keys[i]) then
      SplitJoin(h.keys);
      Join(h.keys)
    else Join(h.keys)
  }

  /** `s.split(',')`. */
  function Split(s: string): (r: seq<string>)
    ensures |r| >= 1
  {
    if s == [] then [""]
    else if s[0] == ',' then [""] + Split(s[1..])
    else
      var rest := Split(s[1..]);
      [[s[0]] + rest[0]] + rest[1..]
  }

  /** Splitting a text without commas gives it back whole. */
  lemma {:induction false} SplitNoComma(a: string)
    requires ',' !in a
    ensures Split(a) == [a]
  {
    if a != [] {
      SplitNoComma(a[1..]);
      assert [a[0]] + a[1..] == a;
    }
  }

  /** Splitting after a comma-free prefix peels off that prefix. */
  lemma {:induction false} SplitPrefix(a: string, b: string)
    requires ',' !in a
    ensures Split(a + "," + b) == [a] + Split(b)
  {
    if a == [] {
      assert a + "," + b == [','] + b;
      assert (a + "," + b)[1..] == b;
    } else {
      SplitPrefix(a[1..], b);
      assert (a + "," + b)[1..] == a[1..] + "," + b;
      assert [a[0]] + a[1..] == a;
    }
  }

  /** The tooltip lists the keys back: splitting the joined keys at commas
      recovers them when no key holds a comma. */
  lemma {:induction false} SplitJoin(keys: seq<string>)
    requires |keys| >= 1
    requires forall i :: 0 <= i < |keys| ==> ',' !in keys[i]
    ensures Split(Join(keys)) == keys
  {
    if |keys| == 1 {
      SplitNoComma(keys[0]);
    } else {
      var rest := keys[1..];
      assert ',' !in keys[0];
      assert forall i :: 0 <= i < |rest| ==> rest[i] == keys[i + 1];
      SplitJoin(rest);
      SplitPrefix(keys[0], Join(rest));
      assert [keys[0]] + rest == keys;
    }
  }

  // ---------------------------------------------------------------------
  // createEdgeHandle: the view transform and the edge's end segment

  /** The view's scale and translation. */
  datatype View = View(scale: real, tx: real, ty: real)

  /** Screen to model coordinates, as the handle's position is reported:
      `pt / s - tr`. */
  function ToModel(v: View, p: Point): (r: Point)
    requires v.scale != 0.0
    ensures ToScreen(v, r) == p
  {
    var r := Point(p.x / v.scale - v.tx, p.y / v.scale - v.ty);
    assert (p.x / v.scale) * v.scale == p.x;
    assert (p.y / v.scale) * v.scale == p.y;
    r
  }

  /** Model to screen coordinates, as a dragged point is measured:
      `(pt + tr) * s`. */
  function ToScreen(v: View, p: Point): Point
  {
    Point((p.x + v.tx) * v.scale, (p.y + v.ty) * v.scale)
  }

  /** The read and write transforms are mutual inverses for a non-zero
      scale. */
  lemma ModelScreenInverse(v: View, p: Point)
    requires v.scale != 0.0
    ensures ToModel(v, ToScreen(v, p)) == p
  {
    assert ((p.x + v.tx) * v.scale) / v.scale == p.x + v.tx;
    assert ((p.y + v.ty) * v.scale) / v.scale == p.y + v.ty;
  }

  /** The end segment a handle works on: `p0` is the edge's first (or last)
      point, `p1` its neighbour, `dist` their distance, `(nx, ny)` the unit
      vector from `p0` to `p1`. */
  datatype Axis = Axis(p0: Point, p1: Point, dist: real, nx: real, ny: real)

  /** `ax` is the end segment of the edge through `pts` at the start (or
      end): the host's `Math.sqrt` and divisions are abstracted into this
      relation. */
  predicate AxisOf(ax: Axis, pts: seq<Point>, start: bool)
  {
    2 <= |pts|
    && ax.p0 == (if start then pts[0] else pts[|pts| - 1])
    && ax.p1 == (if start then pts[1] else pts[|pts| - 2])
    && 0.0 < ax.dist
    && ax.nx * ax.dist == ax.p1.x - ax.p0.x
    && ax.ny * ax.dist == ax.p1.y - ax.p0.y
    && ax.nx * ax.nx + ax.ny * ax.ny == 1.0
  }

  /** The point `along` the axis from `p0` and `across` it to the right of
      the direction of travel: for a unit direction, its coordinates in the
      segment's frame are exactly `along` and `across`. */
  function AxisPoint(ax: Axis, along: real, across: real): (r: Point)
    ensures ax.nx * ax.nx + ax.ny * ax.ny == 1.0 ==> Along(ax, r) == along && Across(ax, r) == across
  {
    AxisFrame(ax, along, across);
    Point(ax.p0.x + ax.nx * along + ax.ny * across, ax.p0.y + ax.ny * along - ax.nx * across)
  }

  lemma AxisFrame(ax: Axis, along: real, across: real)
    ensures var q := Point(ax.p0.x + ax.nx * along + ax.ny * across, ax.p0.y + ax.ny * along - ax.nx * across);
      Along(ax, q) == along * (ax.nx * ax.nx + ax.ny * ax.ny)
      && Across(ax, q) == across * (ax.nx * ax.nx + ax.ny * ax.ny)
  {
  }

  /** Coordinates of `q` in the frame of the end segment: distance along it
      from `p0`, and distance across it to the right. */
  function Along(ax: Axis, q: Point): real
  {
    (q.x - ax.p0.x) * ax.nx + (q.y - ax.p0.y) * ax.ny
  }

  function Across(ax: Axis, q: Point): real
  {
    (q.x - ax.p0.x) * ax.ny - (q.y - ax.p0.y) * ax.nx
  }

  // ---------------------------------------------------------------------
  // Handle positions

  /** The edge a handle belongs to: its style, the view, and its stroke. */
  datatype EdgeState = EdgeState(style: StyleMap, view: View, strokeWidth: real, gridSize: real)

  const StartSize := "startSize"
  const EndSize := "endSize"

  /** The host's `ARROW_SIZE`; an arrow's size defaults to a fifth of it. */
  const ArrowSize := 30.0

  function SizeKey(start: bool): string
  {
    if start then StartSize else EndSize
  }

  function ArrowWidthKey(start: bool): string
  {
    if start then "startWidth" else "endWidth"
  }

  /** How far along the end segment a flexArrow handle sits, on screen:
      past the arrow head (three times its size, default a fifth of
      `ArrowSize`) and the stroke. */
  function FlexAlong(e: EdgeState, start: bool): real
  {
    NumberOr(e.style, SizeKey(start), ArrowSize / 5.0) * 3.0 * e.view.scale + e.strokeWidth * e.view.scale
  }

  /** The drawn width, on screen, that a flexArrow handle measures half of:
      the body for the width handle, the head for the arrow-width handle, in
      both cases less the stroke. */
  function FlexSpan(h: Handle, e: EdgeState): real
  {
    ((if h.kind.FlexWidth? then FlexEdgeWidth(e.style, e.strokeWidth)
      else FlexArrowWidth(e.style, e.strokeWidth, h.start)) - e.strokeWidth) * e.view.scale
  }

  /** The on-screen offset of a handle from the end point, along the end
      segment and across it. Link handles sit a quarter of the way along and
      half the drawn width plus spacing to the right; flexArrow handles sit
      half their span to the right at the start and to the left at the
      end. */
  function HandleOffset(h: Handle, e: EdgeState, dist: real): (real, real)
  {
    if h.kind.LinkWidth? then
      (dist / 4.0, (LinkEdgeWidth(e.style, e.strokeWidth) * e.view.scale + h.kind.spacing) / 2.0)
    else
      (FlexAlong(e, h.start), (if h.start then 1.0 else -1.0) * FlexSpan(h, e) / 2.0)
  }

  /** handle.getPosition: the handle's screen position, reported in model
      coordinates. On screen, a link handle is a quarter of the way along the
      end segment and half the edge's drawn width plus the spacing off to the
      right; a flexArrow handle is past the arrow head, half its span off to
      the right at the start and to the left at the end. */
  function GetPosition(h: Handle, e: EdgeState, ax: Axis): (r: Point)
    requires e.view.scale != 0.0
    ensures ax.nx * ax.nx + ax.ny * ax.ny == 1.0 && h.kind.LinkWidth? ==>
      Along(ax, ToScreen(e.view, r)) == ax.dist / 4.0
      && Across(ax, ToScreen(e.view, r))
         == (LinkEdgeWidth(e.style, e.strokeWidth) * e.view.scale + h.kind.spacing) / 2.0
    ensures ax.nx * ax.nx + ax.ny * ax.ny == 1.0 && !h.kind.LinkWidth? ==>
      Along(ax, ToScreen(e.view, r)) == FlexAlong(e, h.start)
      && Across(ax, ToScreen(e.view, r)) == (if h.start then FlexSpan(h, e) / 2.0 else -FlexSpan(h, e) / 2.0)
  {
    var off := HandleOffset(h, e, ax.dist);
    var p := AxisPoint(ax, off.0, off.1);
    ToModel(e.view, p)
  }

  // ---------------------------------------------------------------------
  // Style updates

  /** `parseFloat(style[key])`: the number stored under `key`, if any. */
  function NumAt(style: StyleMap, key: string): Option<real>
  {
    if key in style && style[key].Num? then Some(style[key].n) else None
  }

  /** `Math.abs(parseFloat(style[a]) - parseFloat(style[b])) < tol`; an
      absent or non-numeric value reads as NaN and is never close. */
  predicate Close(style: StyleMap, a: string, b: string, tol: real)
  {
    NumAt(style, a).Some? && NumAt(style, b).Some? && Abs(NumAt(style, a).value - NumAt(style, b).value) < tol
  }

  function Abs(x: real): real
  {
    if x < 0.0 then -x else x
  }

  /** Snap `key` to `other`'s value when the two are closer than `tol`. */
  function SnapTo(style: StyleMap, key: string, other: string, tol: real): (r: StyleMap)
    ensures r.Keys == style.Keys
    ensures forall k :: k in style && k != key ==> r[k] == style[k]
    ensures Close(style, key, other, tol) ==> r[key] == style[other]
    ensures !Close(style, key, other, tol) ==> r == style
  {
    if Close(style, key, other, tol) then style[key := style[other]] else style
  }

  /** The modifier keys held while dragging. */
  datatype Modifiers = Modifiers(ctrl: bool, alt: bool)

  /** Two maps agree on every key outside `keys`. */
  ghost predicate AgreeOutside(a: StyleMap, b: StyleMap, keys: set<string>)
  {
    (forall k :: k !in keys ==> (k in a <==> k in b))
    && (forall k :: k in a && k !in keys ==> k in b && a[k] == b[k])
  }

  /** The flexArrow body-and-size handle's write (its keys are the width and
      both sizes): store the dragged end's size and the body width; with
      Ctrl copy the size to the other end; without Alt snap the dragged size
      to the other end's when they are within `tol`. */
  function WriteWidthAndSize(style: StyleMap, start: bool, size: real, width: real, m: Modifiers, tol: real): (r: StyleMap)
    ensures r.Keys == style.Keys + {SizeKey(start), "width"} + (if m.ctrl then {SizeKey(!start)} else {})
    ensures AgreeOutside(style, r, {"width", StartSize, EndSize})
    ensures r["width"] == Num(width)
    ensures m.ctrl ==> r[SizeKey(start)] == r[SizeKey(!start)]
    ensures m.alt ==> r[SizeKey(start)] == Num(size)
    ensures !m.ctrl ==> (SizeKey(!start) in r <==> SizeKey(!start) in style)
    ensures !m.ctrl && SizeKey(!start) in style ==> r[SizeKey(!start)] == style[SizeKey(!start)]
    ensures !m.ctrl && !m.alt && NumAt(style, SizeKey(!start)).Some?
            && Abs(size - NumAt(style, SizeKey(!start)).value) < tol
            ==> r[SizeKey(start)] == style[SizeKey(!start)]
    ensures !m.ctrl && !m.alt
            && (NumAt(style, SizeKey(!start)).None? || tol <= Abs(size - NumAt(style, SizeKey(!start)).value))
            ==> r[SizeKey(start)] == Num(size)
  {
    var near := SizeKey(start);
    var far := SizeKey(!start);
    var s1 := style[near := Num(size)]["width" := Num(width)];
    var s2 := if m.ctrl then s1[far := s1[near]] else s1;
    if m.alt then s2 else SnapTo(s2, near, far, tol)
  }

  /** The flexArrow arrow-head handle's write (its keys are both arrow widths
      and both sizes): store the dragged end's size and head width; with Ctrl
      copy both to the other end; without Alt snap the size within `sizeTol`
      and the head width within `widthTol` to the other end's. */
  function WriteArrowAndSize(style: StyleMap, start: bool, size: real, arrow: real, m: Modifiers,
                             sizeTol: real, widthTol: real): (r: StyleMap)
    ensures r.Keys == style.Keys + {SizeKey(start), ArrowWidthKey(start)}
                      + (if m.ctrl then {SizeKey(!start), ArrowWidthKey(!start)} else {})
    ensures AgreeOutside(style, r, {"startWidth", "endWidth", StartSize, EndSize})
    ensures SizeKey(start) in r && ArrowWidthKey(start) in r
    ensures m.ctrl ==> SizeKey(!start) in r && ArrowWidthKey(!start) in r
    ensures m.ctrl ==> r[SizeKey(start)] == r[SizeKey(!start)] && r[ArrowWidthKey(start)] == r[ArrowWidthKey(!start)]
    ensures m.alt ==> r[SizeKey(start)] == Num(size) && r[ArrowWidthKey(start)] == Num(arrow)
    ensures !m.ctrl ==> forall k :: k in {SizeKey(!start), ArrowWidthKey(!start)} ==>
      (k in r <==> k in style) && (k in style ==> r[k] == style[k])
  {
    var s2 := StoreArrowEnd(style, start, size, arrow, m.ctrl);
    if m.alt then s2 else SnapArrowEnd(s2, start, sizeTol, widthTol)
  }

  /** Without Ctrl or Alt, the dragged end's size and head width each snap
      to the other end's value when within tolerance, and otherwise keep
      the dragged value. */
  lemma WriteArrowSnaps(style: StyleMap, start: bool, size: real, arrow: real, sizeTol: real, widthTol: real)
    ensures var r := WriteArrowAndSize(style, start, size, arrow, Modifiers(false, false), sizeTol, widthTol);
      (NumAt(style, SizeKey(!start)).Some? && Abs(size - NumAt(style, SizeKey(!start)).value) < sizeTol
       ==> r[SizeKey(start)] == style[SizeKey(!start)])
      && (NumAt(style, SizeKey(!start)).None? || sizeTol <= Abs(size - NumAt(style, SizeKey(!start)).value)
          ==> r[SizeKey(start)] == Num(size))
      && (NumAt(style, ArrowWidthKey(!start)).Some? && Abs(arrow - NumAt(style, ArrowWidthKey(!start)).value) < widthTol
          ==> r[ArrowWidthKey(start)] == style[ArrowWidthKey(!start)])
      && (NumAt(style, ArrowWidthKey(!start)).None? || widthTol <= Abs(arrow - NumAt(style, ArrowWidthKey(!start)).value)
          ==> r[ArrowWidthKey(start)] == Num(arrow))
  {
    var s2 := StoreArrowEnd(style, start, size, arrow, false);
    assert NumAt(s2, SizeKey(!start)) == NumAt(style, SizeKey(!start));
    assert NumAt(s2, ArrowWidthKey(!start)) == NumAt(style, ArrowWidthKey(!start));
  }

  /** Snap the dragged end's size and head width to the other end's when
      each is within its tolerance. */
  function SnapArrowEnd(s: StyleMap, start: bool, sizeTol: real, widthTol: real): (r: StyleMap)
    requires SizeKey(start) in s && ArrowWidthKey(start) in s
    ensures r.Keys == s.Keys
    ensures forall k :: k in s && k != SizeKey(start) && k != ArrowWidthKey(start) ==> r[k] == s[k]
    ensures Close(s, SizeKey(start), SizeKey(!start), sizeTol) ==> r[SizeKey(start)] == s[SizeKey(!start)]
    ensures !Close(s, SizeKey(start), SizeKey(!start), sizeTol) ==> r[SizeKey(start)] == s[SizeKey(start)]
    ensures Close(s, ArrowWidthKey(start), ArrowWidthKey(!start), widthTol) ==> r[ArrowWidthKey(start)] == s[ArrowWidthKey(!start)]
    ensures !Close(s, ArrowWidthKey(start), ArrowWidthKey(!start), widthTol) ==> r[ArrowWidthKey(start)] == s[ArrowWidthKey(start)]
  {
    SnapTo(SnapTo(s, SizeKey(start), SizeKey(!start), sizeTol), ArrowWidthKey(start), ArrowWidthKey(!start), widthTol)
  }

  /** The arrow-head write before snapping: the dragged end's size and head
      width, copied to the other end with Ctrl. */
  function StoreArrowEnd(style: StyleMap, start: bool, size: real, arrow: real, ctrl: bool): (r: StyleMap)
    ensures r.Keys == style.Keys + {SizeKey(start), ArrowWidthKey(start)}
                      + (if ctrl then {SizeKey(!start), ArrowWidthKey(!start)} else {})
    ensures AgreeOutside(style, r, {"startWidth", "endWidth", StartSize, EndSize})
    ensures SizeKey(start) in r && r[SizeKey(start)] == Num(size)
    ensures ArrowWidthKey(start) in r && r[ArrowWidthKey(start)] == Num(arrow)
    ensures ctrl ==> SizeKey(!start) in r && r[SizeKey(!start)] == Num(size)
    ensures ctrl ==> ArrowWidthKey(!start) in r && r[ArrowWidthKey(!start)] == Num(arrow)
    ensures !ctrl ==> forall k :: k in {SizeKey(!start), ArrowWidthKey(!start)} ==>
      (k in r <==> k in style) && (k in style ==> r[k] == style[k])
  {
    var s1 := style[SizeKey(start) := Num(size)][ArrowWidthKey(start) := Num(arrow)];
    if ctrl then s1[SizeKey(!start) := Num(size)][ArrowWidthKey(!start) := Num(arrow)] else s1
  }

  /** The size a flexArrow handle writes for a drag `l` screen pixels from
      the end point: a third of the distance past the stroke, rounded to
      hundredths, in model units. */
  function SizeFromDistance(l: real, strokeWidth: real, scale: real): (r: real)
    requires scale != 0.0
    ensures Abs(3.0 * r * scale - (l - strokeWidth)) <= 0.015
  {
    var v := Round((l - strokeWidth) * 100.0 / 3.0);
    var r := (v / 100.0) / scale;
    assert 3.0 * r * scale == 3.0 * v / 100.0;
    r
  }

  /** The tolerance a flexArrow's handles snap with: one grid step in model
      units. */
  function FlexTolerance(gridSize: real, scale: real): (r: real)
    requires scale != 0.0
    ensures r * scale == gridSize
  {
    gridSize / scale
  }

  /** The link width handle's write as the source does it: twice the
      measured distance, rounded, divided by the scale, minus the spacing.
      The spacing is in screen pixels but is subtracted after the division,
      so the width jumps on any drag at a scale other than 1. */
  function LinkWidthWriteAsWritten(d: real, scale: real, spacing: real): (r: real)
    requires scale != 0.0
    ensures (r + spacing) * scale == Round(2.0 * d)
  {
    var v := Round(2.0 * d);
    assert (v / scale) * scale == v;
    v / scale - spacing
  }

  /** The link width handle's write with the spacing removed in screen
      pixels before converting to model units, the inverse of the handle's
      position. */
  function LinkWidthWrite(d: real, scale: real, spacing: real): (r: real)
    requires scale != 0.0
    ensures r * scale + spacing == Round(2.0 * d)
  {
    var v := Round(2.0 * d);
    assert ((v - spacing) / scale) * scale == v - spacing;
    (v - spacing) / scale
  }

  /** The dragged point's distance from the end segment, on screen
      (`Math.sqrt(ptSegDistSq(...))`, supplied as `segDist`). */
  function DragAcross(e: EdgeState, ax: Axis, pt: Point, segDist: (Point, Point, Point) -> real): real
  {
    segDist(ax.p0, ax.p1, ToScreen(e.view, pt))
  }

  /** The dragged point's distance along the end segment from `p0`, on
      screen (`ptLineDist` to the perpendicular through `p0`, supplied as
      `lineDist`). */
  function DragAlong(e: EdgeState, ax: Axis, pt: Point, lineDist: (Point, Point, Point) -> real): real
  {
    lineDist(ax.p0, Point(ax.p0.x + ax.ny, ax.p0.y - ax.nx), ToScreen(e.view, pt))
  }

  /** The body width the flexArrow width handle writes for a drag `w`
      screen pixels off the axis: the full span, rounded to a pixel, in
      model units. */
  function WidthFromDistance(w: real, scale: real): (r: real)
    requires scale != 0.0
    ensures r * scale == Round(2.0 * w)
  {
    Round(w * 2.0) / scale
  }

  /** The head width the flexArrow arrow-head handle writes for a drag `w`
      screen pixels off the axis: how far the rounded span exceeds the drawn
      body width (never negative), in model units. */
  function ArrowFromDistance(w: real, bodyWidth: real, scale: real): (r: real)
    requires scale != 0.0
    ensures r * scale == Max(0.0, Round(2.0 * w) - bodyWidth)
    ensures r * scale >= 0.0
  {
    Max(0.0, Round(w * 2.0) - bodyWidth) / scale
  }

  /** The two flexArrow handles' writes for a drag measuring `w` across and
      `l` along: the width handle stores the body width, the arrow-head
      handle the head width; with Alt both store the size from `l` as is.
      Sizes snap within a sixth of the grid tolerance, head widths within
      all of it. */
  function FlexDrag(h: Handle, e: EdgeState, w: real, l: real, m: Modifiers): (r: StyleMap)
    requires e.view.scale != 0.0 && !h.kind.LinkWidth?
    ensures h.kind.FlexWidth? ==> AgreeOutside(e.style, r, {"width", StartSize, EndSize})
    ensures h.kind.FlexArrowHead? ==> AgreeOutside(e.style, r, {"startWidth", "endWidth", StartSize, EndSize})
    ensures m.ctrl ==> SizeKey(h.start) in r && SizeKey(!h.start) in r && r[SizeKey(h.start)] == r[SizeKey(!h.start)]
    ensures h.kind.FlexWidth? ==> "width" in r && r["width"] == Num(WidthFromDistance(w, e.view.scale))
    ensures h.kind.FlexArrowHead? && m.alt ==>
      ArrowWidthKey(h.start) in r
      && r[ArrowWidthKey(h.start)] == Num(ArrowFromDistance(w, FlexEdgeWidth(e.style, e.strokeWidth), e.view.scale))
    ensures m.alt ==> SizeKey(h.start) in r && r[SizeKey(h.start)] == Num(SizeFromDistance(l, e.strokeWidth, e.view.scale))
  {
    var s := e.view.scale;
    var tol := FlexTolerance(e.gridSize, s);
    var size := SizeFromDistance(l, e.strokeWidth, s);
    if h.kind.FlexWidth? then
      WriteWidthAndSize(e.style, h.start, size, WidthFromDistance(w, s), m, tol / 6.0)
    else
      WriteArrowAndSize(e.style, h.start, size, ArrowFromDistance(w, FlexEdgeWidth(e.style, e.strokeWidth), s),
                        m, tol / 6.0, tol)
  }

  /** handle.setPosition as the source writes it: measure the dragged point
      against the end segment in screen coordinates and rewrite the style.
      A link stores `LinkWidthWriteAsWritten` of the distance off the axis;
      a flexArrow handle writes as `FlexDrag` says. */
  function SetPosition(h: Handle, e: EdgeState, ax: Axis, pt: Point, m: Modifiers,
                       segDist: (Point, Point, Point) -> real,
                       lineDist: (Point, Point, Point) -> real): (r: StyleMap)
    requires e.view.scale != 0.0
    ensures h.kind.LinkWidth? ==> AgreeOutside(e.style, r, {"width"}) && "width" in r
    ensures h.kind.LinkWidth? ==>
      r["width"] == Num(LinkWidthWriteAsWritten(DragAcross(e, ax, pt, segDist), e.view.scale, h.kind.spacing))
    ensures h.kind.FlexWidth? ==> AgreeOutside(e.style, r, {"width", StartSize, EndSize})
    ensures h.kind.FlexArrowHead? ==> AgreeOutside(e.style, r, {"startWidth", "endWidth", StartSize, EndSize})
    ensures !h.kind.LinkWidth? && m.ctrl ==>
      SizeKey(h.start) in r && SizeKey(!h.start) in r && r[SizeKey(h.start)] == r[SizeKey(!h.start)]
    ensures h.kind.FlexWidth? ==>
      "width" in r && r["width"] == Num(WidthFromDistance(DragAcross(e, ax, pt, segDist), e.view.scale))
    ensures !h.kind.LinkWidth? && m.alt ==>
      SizeKey(h.start) in r
      && r[SizeKey(h.start)] == Num(SizeFromDistance(DragAlong(e, ax, pt, lineDist), e.strokeWidth, e.view.scale))
    ensures h.kind.FlexArrowHead? && m.alt ==>
      ArrowWidthKey(h.start) in r
      && r[ArrowWidthKey(h.start)]
         == Num(ArrowFromDistance(DragAcross(e, ax, pt, segDist), FlexEdgeWidth(e.style, e.strokeWidth), e.view.scale))
  {
    var w := DragAcross(e, ax, pt, segDist);
    match h.kind
    case LinkWidth(spacing) =>
      e.style["width" := Num(LinkWidthWriteAsWritten(w, e.view.scale, spacing))]
    case _ =>
      FlexDrag(h, e, w, DragAlong(e, ax, pt, lineDist), m)
  }

  /** handle.setPosition with the link write corrected (`LinkWidthWrite`:
      the spacing removed in screen pixels before unscaling); the flexArrow
      handles write exactly as the source does. */
  function SetPositionCorrected(h: Handle, e: EdgeState, ax: Axis, pt: Point, m: Modifiers,
                                segDist: (Point, Point, Point) -> real,
                                lineDist: (Point, Point, Point) -> real): (r: StyleMap)
    requires e.view.scale != 0.0
    ensures h.kind.LinkWidth? ==> AgreeOutside(e.style, r, {"width"}) && "width" in r
    ensures h.kind.LinkWidth? ==>
      r["width"] == Num(LinkWidthWrite(DragAcross(e, ax, pt, segDist), e.view.scale, h.kind.spacing))
    ensures !h.kind.LinkWidth? ==> r == SetPosition(h, e, ax, pt, m, segDist, lineDist)
  {
    match h.kind
    case LinkWidth(spacing) =>
      e.style["width" := Num(LinkWidthWrite(DragAcross(e, ax, pt, segDist), e.view.scale, spacing))]
    case _ =>
      SetPosition(h, e, ax, pt, m, segDist, lineDist)
  }

  // ---------------------------------------------------------------------
  // Dropping a handle where it is drawn

  /** The screen point a handle is drawn at. */
  function HandleScreenPoint(h: Handle, e: EdgeState, ax: Axis): Point
    requires e.view.scale != 0.0
  {
    ToScreen(e.view, GetPosition(h, e, ax))
  }

  /** The host's distance functions, at the point a handle is drawn, give
      its frame coordinates: its distance from the perpendicular through
      `p0` (`ptLineDist`) is the size of its offset along, and its distance
      from the segment (`ptSegDistSq`) the size of its offset across, as
      it is whenever the point lies beside the segment rather than beyond
      an end of it. */
  predicate MeasuresFrame(h: Handle, e: EdgeState, ax: Axis,
                          segDist: (Point, Point, Point) -> real, lineDist: (Point, Point, Point) -> real)
    requires e.view.scale != 0.0
  {
    var q := HandleScreenPoint(h, e, ax);
    segDist(ax.p0, ax.p1, q) == Abs(Across(ax, q))
    && lineDist(ax.p0, Point(ax.p0.x + ax.ny, ax.p0.y - ax.nx), q) == Abs(Along(ax, q))
  }

  /** Read then write, for any handle on an end segment of the edge: the
      distances measured at the drawn position are the offsets `GetPosition`
      drew it at. */
  lemma DropInPlaceMeasures(h: Handle, e: EdgeState, ax: Axis, pts: seq<Point>,
                            segDist: (Point, Point, Point) -> real,
                            lineDist: (Point, Point, Point) -> real)
    requires e.view.scale != 0.0 && AxisOf(ax, pts, h.start)
    requires MeasuresFrame(h, e, ax, segDist, lineDist)
    ensures h.kind.LinkWidth? ==>
      DragAcross(e, ax, GetPosition(h, e, ax), segDist)
      == Abs(LinkHandleDistance(e.style, e.strokeWidth, e.view.scale, h.kind.spacing))
    ensures !h.kind.LinkWidth? ==>
      DragAcross(e, ax, GetPosition(h, e, ax), segDist) == Abs(FlexSpan(h, e)) / 2.0
      && DragAlong(e, ax, GetPosition(h, e, ax), lineDist) == Abs(FlexAlong(e, h.start))
  {
    var pt := GetPosition(h, e, ax);
    var q := ToScreen(e.view, pt);
    assert q == HandleScreenPoint(h, e, ax);
    if h.kind.LinkWidth? {
      assert Across(ax, q) == LinkHandleDistance(e.style, e.strokeWidth, e.view.scale, h.kind.spacing);
    } else {
      var span := FlexSpan(h, e);
      assert Across(ax, q) == (if h.start then span / 2.0 else -span / 2.0);
      assert Abs(Across(ax, q)) == Abs(span) / 2.0;
      assert Along(ax, q) == FlexAlong(e, h.start);
    }
  }

  /** Dropping a flexArrow width handle where it is drawn stores the width
      written for half its drawn span (one unit less than the width it was
      drawn from, by `WidthFromDistanceShrinks`). */
  lemma FlexWidthDropInPlace(h: Handle, e: EdgeState, ax: Axis, pts: seq<Point>, m: Modifiers,
                             segDist: (Point, Point, Point) -> real, lineDist: (Point, Point, Point) -> real)
    requires e.view.scale != 0.0 && AxisOf(ax, pts, h.start) && h.kind.FlexWidth?
    requires MeasuresFrame(h, e, ax, segDist, lineDist)
    ensures SetPosition(h, e, ax, GetPosition(h, e, ax), m, segDist, lineDist)["width"]
         == Num(WidthFromDistance(Abs(FlexSpan(h, e)) / 2.0, e.view.scale))
  {
    DropInPlaceMeasures(h, e, ax, pts, segDist, lineDist);
  }

  /** The width a drop in place writes, for a stroke of at least a pixel
      and a whole, non-negative drawn span, is one unit less than the width
      the handle was drawn from: each drop in place narrows the arrow. */
  lemma WidthFromDistanceShrinks(h: Handle, e: EdgeState)
    requires e.view.scale != 0.0 && h.kind.FlexWidth? && 1.0 <= e.strokeWidth
    requires var span := FlexSpan(h, e); 0.0 <= span && span == span.Floor as real
    ensures WidthFromDistance(Abs(FlexSpan(h, e)) / 2.0, e.view.scale)
         == NumberOr(e.style, "width", FlexDefaultWidth) - 1.0
  {
    var span := FlexSpan(h, e);
    var width := NumberOr(e.style, "width", FlexDefaultWidth);
    RoundWhole(span);
    assert 2.0 * (Abs(span) / 2.0) == span;
    assert span == (width - 1.0) * e.view.scale;
    CancelScale(WidthFromDistance(Abs(span) / 2.0, e.view.scale), width - 1.0, e.view.scale);
  }

  /** Dropping a flexArrow handle where it is drawn, with Alt held so that
      nothing snaps, stores the size written for its drawn distance along
      the segment (the size itself at scale 1 by `SizeFromDistanceAtScaleOne`,
      but not at scale 2 by `FlexSizeDriftsAtScaleTwo`). */
  lemma FlexSizeDropInPlace(h: Handle, e: EdgeState, ax: Axis, pts: seq<Point>,
                            segDist: (Point, Point, Point) -> real, lineDist: (Point, Point, Point) -> real)
    requires e.view.scale != 0.0 && AxisOf(ax, pts, h.start) && !h.kind.LinkWidth?
    requires MeasuresFrame(h, e, ax, segDist, lineDist)
    ensures SetPosition(h, e, ax, GetPosition(h, e, ax), Modifiers(false, true), segDist, lineDist)[SizeKey(h.start)]
         == Num(SizeFromDistance(Abs(FlexAlong(e, h.start)), e.strokeWidth, e.view.scale))
  {
    DropInPlaceMeasures(h, e, ax, pts, segDist, lineDist);
  }

  /** At scale 1 the size a drop in place writes is the size the handle
      was drawn from, for sizes in whole hundredths placing the handle
      ahead of the end point. */
  lemma SizeFromDistanceAtScaleOne(e: EdgeState, start: bool)
    requires e.view.scale == 1.0 && 0.0 <= FlexAlong(e, start)
    requires var size := NumberOr(e.style, SizeKey(start), ArrowSize / 5.0);
      100.0 * size == (100.0 * size).Floor as real
    ensures SizeFromDistance(Abs(FlexAlong(e, start)), e.strokeWidth, 1.0)
         == NumberOr(e.style, SizeKey(start), ArrowSize / 5.0)
  {
    var size := NumberOr(e.style, SizeKey(start), ArrowSize / 5.0);
    assert (Abs(FlexAlong(e, start)) - e.strokeWidth) * 100.0 / 3.0 == 100.0 * size;
    RoundWhole(100.0 * size);
  }

  /** At scale 2, an arrow of size 10 with a one-pixel stroke is drawn 62
      pixels along, and dropping its handle there writes size 10.165. */
  lemma FlexSizeDriftsAtScaleTwo()
    ensures var e := EdgeState(map[StartSize := Num(10.0)], View(2.0, 0.0, 0.0), 1.0, 10.0);
      FlexAlong(e, true) == 62.0
      && SizeFromDistance(Abs(FlexAlong(e, true)), e.strokeWidth, e.view.scale) == 10.165
  {
    var e := EdgeState(map[StartSize := Num(10.0)], View(2.0, 0.0, 0.0), 1.0, 10.0);
    assert NumberOr(e.style, SizeKey(true), ArrowSize / 5.0) == 10.0;
    assert (62.0 - 1.0) * 100.0 / 3.0 == 6100.0 / 3.0;
    assert (6100.0 / 3.0 + 0.5).Floor == 2033;
  }

  /** Dropping an arrow-head handle where it is drawn, with Alt held, stores
      the head width written for half its drawn span (at scale 1 the head
      width less the stroke, by `ArrowFromDistanceAtScaleOne`). */
  lemma FlexArrowDropInPlace(h: Handle, e: EdgeState, ax: Axis, pts: seq<Point>,
                             segDist: (Point, Point, Point) -> real, lineDist: (Point, Point, Point) -> real)
    requires e.view.scale != 0.0 && AxisOf(ax, pts, h.start) && h.kind.FlexArrowHead?
    requires MeasuresFrame(h, e, ax, segDist, lineDist)
    ensures SetPosition(h, e, ax, GetPosition(h, e, ax), Modifiers(false, true), segDist, lineDist)[ArrowWidthKey(h.start)]
         == Num(ArrowFromDistance(Abs(FlexSpan(h, e)) / 2.0, FlexEdgeWidth(e.style, e.strokeWidth), e.view.scale))
  {
    DropInPlaceMeasures(h, e, ax, pts, segDist, lineDist);
  }

  /** At scale 1, for a whole, non-negative drawn span, the head width a
      drop in place writes is the one the handle was drawn from less the
      stroke (never below zero). */
  lemma ArrowFromDistanceAtScaleOne(h: Handle, e: EdgeState)
    requires e.view.scale == 1.0 && h.kind.FlexArrowHead?
    requires var span := FlexSpan(h, e); 0.0 <= span && span == span.Floor as real
    ensures ArrowFromDistance(Abs(FlexSpan(h, e)) / 2.0, FlexEdgeWidth(e.style, e.strokeWidth), 1.0)
         == Max(0.0, NumberOr(e.style, ArrowWidthKey(h.start), FlexDefaultArrowWidth) - e.strokeWidth)
  {
    var span := FlexSpan(h, e);
    RoundWhole(span);
    assert 2.0 * (Abs(span) / 2.0) == span;
  }

  /** Dropping a link handle where it is drawn keeps the width under the
      corrected write, at every scale (strokes of at most one pixel, whole
      drawn width, handle on the right of the axis), and stores what
      `LinkWidthWriteAsWritten` makes of the same distance as written
      (`LinkWidthAsWrittenDrifts`). */
  lemma LinkDropInPlace(h: Handle, e: EdgeState, ax: Axis, pts: seq<Point>, m: Modifiers,
                        segDist: (Point, Point, Point) -> real, lineDist: (Point, Point, Point) -> real)
    requires e.view.scale != 0.0 && AxisOf(ax, pts, h.start) && h.kind.LinkWidth?
    requires MeasuresFrame(h, e, ax, segDist, lineDist)
    requires e.strokeWidth <= 1.0 && 0.0 <= LinkHandleDistance(e.style, e.strokeWidth, e.view.scale, h.kind.spacing)
    requires var d := LinkEdgeWidth(e.style, e.strokeWidth) * e.view.scale + h.kind.spacing; d == d.Floor as real
    ensures SetPositionCorrected(h, e, ax, GetPosition(h, e, ax), m, segDist, lineDist)["width"]
         == Num(NumberOr(e.style, "width", LinkDefaultWidth))
    ensures SetPosition(h, e, ax, GetPosition(h, e, ax), m, segDist, lineDist)["width"]
         == Num(LinkWidthWriteAsWritten(LinkHandleDistance(e.style, e.strokeWidth, e.view.scale, h.kind.spacing),
                                        e.view.scale, h.kind.spacing))
  {
    LinkWidthRoundTrip(e.style, e.strokeWidth, e.view.scale, h.kind.spacing);
    DropInPlaceMeasures(h, e, ax, pts, segDist, lineDist);
  }

  // ---------------------------------------------------------------------
  // The link width handle: round trip and the scale discrepancy

  /** The screen distance of a link handle from the edge's axis, the value a
      drag that does not move it measures. */
  function LinkHandleDistance(style: StyleMap, strokeWidth: real, scale: real, spacing: real): real
  {
    (LinkEdgeWidth(style, strokeWidth) * scale + spacing) / 2.0
  }

  /** Corrected write: grabbing a link handle and releasing it in place keeps
      the width, at every scale, when the drawn width is a whole number of
      pixels and the stroke is at most one pixel. */
  lemma LinkWidthRoundTrip(style: StyleMap, strokeWidth: real, scale: real, spacing: real)
    requires scale != 0.0 && strokeWidth <= 1.0
    requires var d := LinkEdgeWidth(style, strokeWidth) * scale + spacing; d == d.Floor as real
    ensures LinkWidthWrite(LinkHandleDistance(style, strokeWidth, scale, spacing), scale, spacing)
         == NumberOr(style, "width", LinkDefaultWidth)
  {
    var ew := LinkEdgeWidth(style, strokeWidth);
    var d := ew * scale + spacing;
    var half := LinkHandleDistance(style, strokeWidth, scale, spacing);
    assert 2.0 * half == d;
    RoundWhole(d);
    var r := LinkWidthWrite(half, scale, spacing);
    assert r * scale == ew * scale;
    CancelScale(r, ew, scale);
  }

  /** A non-zero factor cancels. */
  lemma CancelScale(a: real, b: real, s: real)
    requires s != 0.0 && a * s == b * s
    ensures a == b
  {
    assert (a - b) * s == 0.0;
  }

  /** As written, the round trip holds only at scale 1: at scale 2 a link of
      width 4 with a one-pixel stroke and the handles' spacing of 10 is
      rewritten to width -1. */
  lemma LinkWidthAsWrittenDrifts()
    ensures var style := map["width" := Num(4.0)];
      LinkWidthWriteAsWritten(LinkHandleDistance(style, 1.0, 2.0, 10.0), 2.0, 10.0) == -1.0
      && LinkWidthWrite(LinkHandleDistance(style, 1.0, 2.0, 10.0), 2.0, 10.0) == 4.0
  {
    var style := map["width" := Num(4.0)];
    assert LinkEdgeWidth(style, 1.0) == 4.0;
    assert LinkHandleDistance(style, 1.0, 2.0, 10.0) == 9.0;
    assert Round(18.0) == 18.0;
  }

  /** At scale 1 the as-written and corrected writes agree. */
  lemma LinkWidthWritesAgreeAtScaleOne(d: real, spacing: real)
    ensures LinkWidthWriteAsWritten(d, 1.0, spacing) == LinkWidthWrite(d, 1.0, spacing)
  {
  }
}

=== FILE: js_array.dfy ===
/**
  The few JavaScript array operations the loader and the server rely on,
  over sequences of strings.
 */
module JsArray {
  /** No value occurs twice. */
  predicate NoDup(xs: seq<string>)
  {
    forall i, j :: 0 <= i < j < |xs| ==> xs[i] != xs[j]
  }

  /** `a.indexOf(v)`: the first index of `v`, or -1. */
  function IndexOf(xs: seq<string>, v: string): (r: int)
    ensures r == -1 <==> v !in xs
    ensures 0 <= r ==> r < |xs| && xs[r] == v && v !in xs[..r]
  {
    if xs == [] then -1
    else if xs[0] == v then 0
    else
      var k := IndexOf(xs[1..], v);
      assert 0 <= k ==> xs[1..][..k] == xs[1..k + 1];
      if k < 0 then -1 else k + 1
  }

  /** Appending leaves the first index of an earlier value alone, and gives
      a new value the last index. */
  lemma {:induction false} IndexOfAppend(xs: seq<string>, x: string, v: string)
    ensures v in xs ==> IndexOf(xs + [x], v) == IndexOf(xs, v)
    ensures v !in xs && v == x ==> IndexOf(xs + [x], v) == |xs|
  {
    if xs != [] {
      assert (xs + [x])[1..] == xs[1..] + [x];
      IndexOfAppend(xs[1..], x, v);
    }
  }
}

=== FILE: loader.dfy ===
/**
  The script loader of the Vue component package (`ensureMxClient` in
  utils.js): it builds a list of candidate URLs for mxClient.js, tries them
  one after another, fills in the library's global path variables only when
  they are unset, and afterwards optionally loads the Grapheditor shapes.

  Script loading is an oracle: `net(url)` says whether the script at `url`
  fires `onload`, fires `onerror`, or never settles. An unset (or otherwise
  falsy) string global or argument is the empty string.
 */
module Loader {
  import opened Style
  import opened JsArray

  /** `[...].filter(Boolean)` on strings: drop the falsy (empty) entries.
      `TruthyCounts` and `TruthyKeepsOrder` state that every other entry is
      kept as often as it occurs, and in order. */
  function Truthy(xs: seq<string>): (r: seq<string>)
    ensures forall v :: v in r <==> v in xs && v != ""
    ensures |r| <= |xs|
  {
    if xs == [] then [] else (if xs[0] == "" then [] else [xs[0]]) + Truthy(xs[1..])
  }

  /** Filtering keeps every non-empty entry as often as it occurs. */
  lemma {:induction false} TruthyCounts(xs: seq<string>)
    ensures multiset(Truthy(xs)) == multiset(xs)["" := 0]
  {
    if xs != [] {
      assert xs == [xs[0]] + xs[1..];
      TruthyCounts(xs[1..]);
    }
  }

  /** Filtering keeps order: a value that comes first among the truthy
      entries came first in the original list. */
  lemma {:induction false} TruthyKeepsOrder(xs: seq<string>, v: string, w: string)
    requires v in Truthy(xs) && w in Truthy(xs)
    requires IndexOf(Truthy(xs), v) < IndexOf(Truthy(xs), w)
    ensures IndexOf(xs, v) < IndexOf(xs, w)
  {
    var rest := Truthy(xs[1..]);
    if xs[0] == "" {
      assert Truthy(xs) == rest;
      TruthyKeepsOrder(xs[1..], v, w);
    } else {
      assert Truthy(xs) == [xs[0]] + rest;
      if v != xs[0] {
        assert w != xs[0];
        assert IndexOf(Truthy(xs), v) == IndexOf(rest, v) + 1;
        assert IndexOf(Truthy(xs), w) == IndexOf(rest, w) + 1;
        TruthyKeepsOrder(xs[1..], v, w);
      }
    }
  }

  /** `.filter((v, i, a) => a.indexOf(v) === i)`: keep each value at its
      first occurrence only. The result holds every value once, and in the
      order of first occurrence. */
  function FirstOccurrences(xs: seq<string>): (r: seq<string>)
    ensures NoDup(r)
    ensures forall v :: v in r <==> v in xs
    ensures forall i, j :: 0 <= i < j < |r| ==> IndexOf(xs, r[i]) < IndexOf(xs, r[j])
    ensures |r| <= |xs|
    decreases |xs|
  {
    if xs == [] then []
    else
      var d := FirstOccurrences(xs[..|xs| - 1]);
      FirstOccurrencesStep(xs[..|xs| - 1], xs[|xs| - 1], d);
      assert xs == xs[..|xs| - 1] + [xs[|xs| - 1]];
      if xs[|xs| - 1] in xs[..|xs| - 1] then d else d + [xs[|xs| - 1]]
  }

  /** One step of FirstOccurrences: appending a value keeps the first
      occurrences of the shorter list in their order, and a new value goes
      last. */
  lemma FirstOccurrencesStep(init: seq<string>, last: string, d: seq<string>)
    requires NoDup(d)
    requires forall v :: v in d <==> v in init
    requires forall i, j :: 0 <= i < j < |d| ==> IndexOf(init, d[i]) < IndexOf(init, d[j])
    requires |d| <= |init|
    ensures var r := if last in init then d else d + [last];
      NoDup(r)
      && (forall v :: v in r <==> v in init + [last])
      && (forall i, j :: 0 <= i < j < |r| ==> IndexOf(init + [last], r[i]) < IndexOf(init + [last], r[j]))
      && |r| <= |init| + 1
  {
    forall v | v in init
      ensures IndexOf(init + [last], v) == IndexOf(init, v)
    {
      IndexOfAppend(init, last, v);
    }
    if last !in init {
      IndexOfAppend(init, last, last);
    }
  }

  /** FirstOccurrences of a list with one more value at the end. */
  lemma FirstOccurrencesAppend(init: seq<string>, last: string)
    ensures FirstOccurrences(init + [last])
         == if last in init then FirstOccurrences(init) else FirstOccurrences(init) + [last]
  {
    var xs := init + [last];
    assert xs[..|xs| - 1] == init;
  }

  /** Dropping the last value of a list without duplicates leaves a list
      without duplicates that does not hold that value. */
  lemma NoDupInit(xs: seq<string>)
    requires NoDup(xs) && xs != []
    ensures NoDup(xs[..|xs| - 1]) && xs[|xs| - 1] !in xs[..|xs| - 1]
  {
    var init := xs[..|xs| - 1];
    forall i, j | 0 <= i < j < |init|
      ensures init[i] != init[j]
    {
      assert init[i] == xs[i] && init[j] == xs[j];
    }
    forall i | 0 <= i < |init|
      ensures init[i] != xs[|xs| - 1]
    {
      assert init[i] == xs[i];
    }
  }

  /** A list without duplicates is its own first occurrences. */
  lemma {:induction false} FirstOccurrencesOfNoDup(xs: seq<string>)
    requires NoDup(xs)
    ensures FirstOccurrences(xs) == xs
    decreases |xs|
  {
    if xs != [] {
      var init := xs[..|xs| - 1];
      NoDupInit(xs);
      FirstOccurrencesOfNoDup(init);
      FirstOccurrencesAppend(init, xs[|xs| - 1]);
      assert xs == init + [xs[|xs| - 1]];
    }
  }

  // ---------------------------------------------------------------------
  // The style-derived candidate

  const DistCss := "dist/index.css"
  const ClientSuffix := "/vendor/mxgraph/js/mxClient.js"

  /** The characters `.` does not match and `$` does not pass in a regular
      expression without the multiline flag. */
  predicate LineTerminator(c: char)
  {
    c == '\n' || c == '\r' || c == '\U{2028}' || c == '\U{2029}'
  }

  predicate LineFree(s: string)
  {
    forall i :: 0 <= i < |s| ==> !LineTerminator(s[i])
  }

  /** `dist/index.css.*$` matches from `j`. */
  predicate DistTailAt(s: string, j: nat)
  {
    j + |DistCss| <= |s| && s[j..j + |DistCss|] == DistCss && LineFree(s[j + |DistCss|..])
  }

  /** `\/?dist\/index\.css.*$` matches from `i`. */
  predicate MatchesAt(s: string, i: nat)
  {
    (i < |s| && s[i] == '/' && DistTailAt(s, i + 1)) || DistTailAt(s, i)
  }

  /** The leftmost position at or after `i` where the pattern matches. */
  function FirstMatch(s: string, i: nat): (r: Option<nat>)
    requires i <= |s|
    ensures r.Some? ==> i <= r.value <= |s| && MatchesAt(s, r.value)
    ensures r.Some? ==> forall k :: i <= k < r.value ==> !MatchesAt(s, k)
    ensures r.None? ==> forall k :: i <= k <= |s| ==> !MatchesAt(s, k)
    decreases |s| - i
  {
    if MatchesAt(s, i) then Some(i)
    else if i == |s| then None
    else FirstMatch(s, i + 1)
  }

  /** `href.replace(/\/?dist\/index\.css.*$/, "")`: cut the text at the
      leftmost match; the match always runs to the end. */
  function StripDistCss(href: string): (r: string)
    ensures r <= href
    ensures r == href <==> forall k :: 0 <= k <= |href| ==> !MatchesAt(href, k)
    ensures r != href ==> MatchesAt(href, |r|) && forall k :: 0 <= k < |r| ==> !MatchesAt(href, k)
  {
    var m := FirstMatch(href, 0);
    if m.None? then href
    else href[..m.value]
  }

  /** The candidate derived from the package's stylesheet link: the
      stylesheet's URL with `dist/index.css…` cut off, plus the bundled
      client's path; empty (no candidate) when there is no stylesheet link or
      nothing is left of it. */
  function StyleCandidate(styleHref: Option<string>): (r: string)
    ensures styleHref.None? || styleHref == Some("") ==> r == ""
    ensures r != "" ==> styleHref.Some? && r == StripDistCss(styleHref.value) + ClientSuffix
    ensures styleHref.Some? && StripDistCss(styleHref.value) != "" ==> r != ""
  {
    if styleHref.None? || styleHref.value == "" then ""
    else
      var root := StripDistCss(styleHref.value);
      if root == "" then "" else root + ClientSuffix
  }

  /** A position holding anything but `d` starts no `dist/index.css`. */
  lemma NotDistTail(s: string, j: nat)
    requires j < |s| && s[j] != 'd'
    ensures !DistTailAt(s, j)
  {
  }

  /** A stylesheet served from a package root yields the client under that
      root; the slash before `dist` goes with the match. */
  lemma StyleCandidateExample()
    ensures StyleCandidate(Some("pkg/" + DistCss + "?v=3")) == "pkg" + ClientSuffix
  {
    StripUnderPkg();
  }

  lemma StripUnderPkg()
    ensures StripDistCss("pkg/" + DistCss + "?v=3") == "pkg"
  {
    var s := "pkg/" + DistCss + "?v=3";
    assert FirstMatch(s, 0) == Some(3) by {
      assert !MatchesAt(s, 0) by { NotDistTail(s, 0); NotDistTail(s, 1); }
      assert !MatchesAt(s, 1) by { NotDistTail(s, 1); NotDistTail(s, 2); }
      assert !MatchesAt(s, 2) by { NotDistTail(s, 2); NotDistTail(s, 3); }
      assert MatchesAt(s, 3) by {
        assert s[4..4 + |DistCss|] == DistCss;
        assert s[4 + |DistCss|..] == "?v=3";
      }
      assert FirstMatch(s, 2) == Some(3);
      assert FirstMatch(s, 1) == Some(3);
    }
    assert s[..3] == "pkg";
  }

  /** The values of `r` appear in the order of their first occurrence in
      `xs`. */
  predicate InOrderOf(r: seq<string>, xs: seq<string>)
  {
    forall i, j :: 0 <= i < j < |r| ==> IndexOf(xs, r[i]) < IndexOf(xs, r[j])
  }

  /** Both filters together keep the list's order of first occurrence. */
  lemma FilteredKeepsOrder(xs: seq<string>)
    ensures InOrderOf(FirstOccurrences(Truthy(xs)), xs)
  {
    var r := FirstOccurrences(Truthy(xs));
    forall i, j | 0 <= i < j < |r|
      ensures IndexOf(xs, r[i]) < IndexOf(xs, r[j])
    {
      TruthyKeepsOrder(xs, r[i], r[j]);
    }
  }

  /** The unfiltered candidate list, in the source's order. */
  function CandidateUrls(mxClientUrl: string, relativeUrl: string, styleHref: Option<string>): seq<string>
  {
    [mxClientUrl, relativeUrl, StyleCandidate(styleHref)]
  }

  /** The candidate list: the caller's URL, the bundled client beside the
      module, and the style-derived URL, each kept when truthy, duplicates
      dropped after their first occurrence (`CandidatesInOrder` states that
      they keep the source order). */
  function Candidates(mxClientUrl: string, relativeUrl: string, styleHref: Option<string>): (r: seq<string>)
    ensures NoDup(r)
    ensures forall v :: v in r <==> v != "" && (v == mxClientUrl || v == relativeUrl || v == StyleCandidate(styleHref))
    ensures |r| <= 3
    ensures mxClientUrl != "" ==> |r| > 0 && r[0] == mxClientUrl
  {
    var all := CandidateUrls(mxClientUrl, relativeUrl, styleHref);
    var t := Truthy(all);
    var r := FirstOccurrences(t);
    if mxClientUrl != "" then
      assert t[0] == mxClientUrl;
      FirstStaysFirst(t);
      r
    else
      r
  }

  /** The candidates keep the order in which they first occur in the
      source list: the caller's URL, then the module-relative one, then the
      style-derived one. */
  lemma CandidatesInOrder(mxClientUrl: string, relativeUrl: string, styleHref: Option<string>)
    ensures InOrderOf(Candidates(mxClientUrl, relativeUrl, styleHref), CandidateUrls(mxClientUrl, relativeUrl, styleHref))
  {
    FilteredKeepsOrder(CandidateUrls(mxClientUrl, relativeUrl, styleHref));
  }

  /** The first entry of a list is the first of its first occurrences. */
  lemma FirstStaysFirst(t: seq<string>)
    requires t != []
    ensures FirstOccurrences(t) != [] && FirstOccurrences(t)[0] == t[0]
  {
    var r := FirstOccurrences(t);
    assert IndexOf(t, t[0]) == 0;
    assert t[0] in r;
  }

  // ---------------------------------------------------------------------
  // Globals

  const ClientPath := "/js/mxClient.js"

  /** `url` ends with `suffix`. */
  predicate EndsWith(url: string, suffix: string)
  {
    |suffix| <= |url| && url[|url| - |suffix|..] == suffix
  }

  /** `url.replace(/\/js\/mxClient\.js$/, "")`: the library's base path. */
  function BaseOf(url: string): (r: string)
    ensures r <= url
    ensures ClientPath <= url[|r|..] || r == url
  {
    if |url| >= |ClientPath| && url[|url| - |ClientPath|..] == ClientPath then url[..|url| - |ClientPath|]
    else url
  }

  /** The base is the URL less the client's path when it ends with it, and
      the URL itself otherwise. */
  lemma BaseOfStripsSuffix(url: string)
    ensures EndsWith(url, ClientPath) ==> BaseOf(url) + ClientPath == url
    ensures !EndsWith(url, ClientPath) ==> BaseOf(url) == url
  {
    if EndsWith(url, ClientPath) {
      assert url[..|url| - |ClientPath|] + url[|url| - |ClientPath|..] == url;
    }
  }

  /** Stripping undoes appending the client's path. */
  lemma BaseOfClientPath(b: string)
    ensures BaseOf(b + ClientPath) == b
  {
    var u := b + ClientPath;
    assert u[|u| - |ClientPath|..] == ClientPath;
    assert u[..|u| - |ClientPath|] == b;
  }

  /** The library's global switches the loader reads and writes. An empty
      path means unset; `loadResources` is None while null or undefined. */
  datatype Globals = Globals(
    basePath: string,
    imageBasePath: string,
    loadResources: Option<bool>,
    hasClient: bool)

  /** The globals written before trying `url`: each is set only while it is
      unset, the base path to the URL's base, the image path to the caller's
      argument or the base's images folder, the resource switch to false. */
  function AttemptGlobals(g: Globals, url: string, imageArg: string): (r: Globals)
    ensures g.basePath != "" ==> r.basePath == g.basePath
    ensures g.basePath == "" ==> r.basePath == BaseOf(url)
    ensures g.imageBasePath != "" ==> r.imageBasePath == g.imageBasePath
    ensures g.imageBasePath == "" && imageArg != "" ==> r.imageBasePath == imageArg
    ensures g.imageBasePath == "" && imageArg == "" ==> r.imageBasePath == BaseOf(url) + "/images"
    ensures g.loadResources.Some? ==> r.loadResources == g.loadResources
    ensures g.loadResources.None? ==> r.loadResources == Some(false)
    ensures r.hasClient == g.hasClient
  {
    var base := BaseOf(url);
    Globals(
      if g.basePath == "" then base else g.basePath,
      if g.imageBasePath == "" then (if imageArg != "" then imageArg else base + "/images") else g.imageBasePath,
      if g.loadResources.None? then Some(false) else g.loadResources,
      g.hasClient)
  }

  /** Once every global is set, a further attempt changes none of them. */
  lemma AttemptGlobalsSettled(g: Globals, url: string, imageArg: string)
    requires g.basePath != "" && g.imageBasePath != "" && g.loadResources.Some?
    ensures AttemptGlobals(g, url, imageArg) == g
  {
  }

  // ---------------------------------------------------------------------
  // The fallback state machine

  /** What a script tag does: fires onload, fires onerror, or neither. */
  datatype Outcome = Loaded | Failed | Pending

  /** The promise's fate. */
  datatype Settle = Resolved | Rejected | Unsettled

  /** A finished run: how the promise settled, the globals afterwards, and
      how far each list was walked: the candidates tried are
      `urls[..tried]` and the shape scripts tried `shapes[..shapesTried]`. */
  datatype Run = Run(status: Settle, globals: Globals, tried: nat, shapesTried: nat)

  /** The Grapheditor shapes step after the client loaded (`loadGe`): with
      no `Graph` in the window it resolves without loading; otherwise it
      tries each candidate until one loads, resolving in any case once the
      list is exhausted. The second result is the index past the last
      script tried. */
  function LoadGe(cands: seq<string>, i: nat, graph: bool, net: string -> Outcome): (r: (Settle, nat))
    requires i <= |cands|
    ensures r.0 != Rejected
    ensures !graph ==> r == (Resolved, i)
    ensures i <= r.1 <= |cands|
    ensures forall k :: i <= k < r.1 - 1 ==> net(cands[k]) == Failed
    ensures r.0 == Unsettled <==> i < r.1 && net(cands[r.1 - 1]) == Pending
    ensures graph && i < |cands| ==> i < r.1
    decreases |cands| - i
  {
    if i >= |cands| then (Resolved, i)
    else if !graph then (Resolved, i)
    else match net(cands[i])
      case Loaded => (Resolved, i + 1)
      case Pending => (Unsettled, i + 1)
      case Failed =>
        var rest := LoadGe(cands, i + 1, graph, net);
        if rest.1 == i + 1 then (Resolved, i + 1) else rest
  }

  /** `tryLoad` when the client was already present: the same walk over the
      shape scripts, but with no check for `Graph`. */
  function TryLoad(cands: seq<string>, i: nat, net: string -> Outcome): (r: (Settle, nat))
    requires i <= |cands|
    ensures r.0 != Rejected
    ensures i <= r.1 <= |cands|
    ensures forall k :: i <= k < r.1 - 1 ==> net(cands[k]) == Failed
    ensures r.0 == Unsettled <==> i < r.1 && net(cands[r.1 - 1]) == Pending
    ensures i < |cands| ==> i < r.1
    decreases |cands| - i
  {
    if i >= |cands| then (Resolved, i)
    else match net(cands[i])
      case Loaded => (Resolved, i + 1)
      case Pending => (Unsettled, i + 1)
      case Failed =>
        var rest := TryLoad(cands, i + 1, net);
        if rest.1 == i + 1 then (Resolved, i + 1) else rest
  }

  /** Every script in `us` fires onerror. */
  predicate AllFailed(us: seq<string>, net: string -> Outcome)
  {
    forall k :: 0 <= k < |us| ==> net(us[k]) == Failed
  }

  /** `loadWithIndex(idx)`: past the end of the list the promise rejects;
      otherwise the globals are filled for `urls[idx]` and its script is
      added; on error the next index is tried, on load the shapes step
      runs. */
  function LoadWithIndex(urls: seq<string>, idx: nat, g: Globals, imageArg: string,
                         net: string -> Outcome, graph: bool, shapeCands: seq<string>): (r: Run)
    requires idx <= |urls|
    ensures idx <= r.tried <= |urls|
    ensures idx < |urls| <==> idx < r.tried
    ensures forall k :: idx <= k < r.tried - 1 ==> net(urls[k]) == Failed
    ensures r.status == Rejected <==> forall k :: idx <= k < |urls| ==> net(urls[k]) == Failed
    ensures r.status == Rejected ==> r.tried == |urls| && r.shapesTried == 0
    ensures r.status == Resolved ==> idx < r.tried && net(urls[r.tried - 1]) == Loaded && r.globals.hasClient
    ensures r.shapesTried <= |shapeCands|
    ensures r.status == Unsettled && net(urls[r.tried - 1]) != Pending ==>
      net(urls[r.tried - 1]) == Loaded && r.shapesTried > 0 && net(shapeCands[r.shapesTried - 1]) == Pending
    decreases |urls| - idx
  {
    if idx >= |urls| then Run(Rejected, g, idx, 0)
    else
      var u := urls[idx];
      var g1 := AttemptGlobals(g, u, imageArg);
      match net(u)
      case Loaded =>
        var ge := LoadGe(shapeCands, 0, graph, net);
        Run(ge.0, g1.(hasClient := true), idx + 1, ge.1)
      case Pending =>
        Run(Unsettled, g1, idx + 1, 0)
      case Failed =>
        LoadWithIndex(urls, idx + 1, g1, imageArg, net, graph, shapeCands)
  }

  /** The globals after a run: a path set before the run is kept; an unset
      base path takes the base of the first candidate tried (unless that
      base is empty, which leaves it unset for the next attempt); the
      resource switch, when unset, is set to false once any candidate is
      tried, and is otherwise kept. */
  lemma {:induction false} LoadWithIndexGlobals(urls: seq<string>, idx: nat, g: Globals, imageArg: string,
                                                net: string -> Outcome, graph: bool, shapeCands: seq<string>)
    requires idx <= |urls|
    ensures var r := LoadWithIndex(urls, idx, g, imageArg, net, graph, shapeCands);
      (g.basePath != "" ==> r.globals.basePath == g.basePath)
      && (g.basePath == "" && idx < |urls| && BaseOf(urls[idx]) != "" ==> r.globals.basePath == BaseOf(urls[idx]))
      && (g.imageBasePath != "" ==> r.globals.imageBasePath == g.imageBasePath)
      && (idx < |urls| ==> r.globals.loadResources.Some?)
      && (g.loadResources.Some? ==> r.globals.loadResources == g.loadResources)
      && (g.loadResources.None? && idx < |urls| ==> r.globals.loadResources == Some(false))
    decreases |urls| - idx
  {
    if idx < |urls| && net(urls[idx]) == Failed {
      LoadWithIndexGlobals(urls, idx + 1, AttemptGlobals(g, urls[idx], imageArg), imageArg, net, graph, shapeCands);
    }
  }

  /** What the loader can see of the page. */
  datatype Env = Env(
    hasWindow: bool,
    globals: Globals,
    graph: bool,
    graphHasHandles: bool,
    relativeUrl: string,
    styleHref: Option<string>,
    shapesUrl: string)

  /** The caller's options. */
  datatype Args = Args(mxClientUrl: string, basePath: string, imageBasePath: string)

  /** ensureMxClient. Without a window it resolves at once. With the client
      already loaded it fills only the unset path globals from the arguments
      and runs the shapes step (skipped when `Graph` already has handle
      support); no client script is added then. Otherwise it walks the
      candidate list, and rejects only when every candidate failed. */
  function EnsureMxClient(env: Env, args: Args, net: string -> Outcome): (r: Run)
    ensures !env.hasWindow ==> r == Run(Resolved, env.globals, 0, 0)
    ensures env.hasWindow && env.globals.hasClient ==> r.tried == 0
    ensures env.hasWindow && env.globals.hasClient ==>
      r.globals.basePath == (if env.globals.basePath == "" then args.basePath else env.globals.basePath)
      && r.globals.imageBasePath == (if env.globals.imageBasePath == "" then args.imageBasePath else env.globals.imageBasePath)
      && r.globals.loadResources == env.globals.loadResources
    ensures env.hasWindow && env.globals.hasClient && env.graph && env.graphHasHandles ==>
      r.status == Resolved && r.shapesTried == 0
    ensures env.hasWindow && env.globals.hasClient && !(env.graph && env.graphHasHandles) ==>
      r.shapesTried == 1 && (r.status == Unsettled <==> net(env.shapesUrl) == Pending)
    ensures r.status == Rejected <==>
      env.hasWindow && !env.globals.hasClient
      && AllFailed(Candidates(args.mxClientUrl, env.relativeUrl, env.styleHref), net)
    ensures r.status == Rejected ==> r.tried == |Candidates(args.mxClientUrl, env.relativeUrl, env.styleHref)|
  {
    if !env.hasWindow then Run(Resolved, env.globals, 0, 0)
    else if env.globals.hasClient then
      var g := env.globals;
      var g1 := g.(basePath := if args.basePath != "" && g.basePath == "" then args.basePath else g.basePath,
                   imageBasePath := if args.imageBasePath != "" && g.imageBasePath == "" then args.imageBasePath else g.imageBasePath);
      if env.graph && env.graphHasHandles then Run(Resolved, g1, 0, 0)
      else
        var t := TryLoad([env.shapesUrl], 0, net);
        Run(t.0, g1, 0, t.1)
    else
      var urls := Candidates(args.mxClientUrl, env.relativeUrl, env.styleHref);
      LoadWithIndex(urls, 0, env.globals, args.imageBasePath, net, env.graph, [env.shapesUrl])
  }

  /** The base path is fixed by the first candidate tried, not by the one
      that finally loads: with an unset base path, whichever candidate
      succeeds, the base path is that of the first candidate. */
  lemma BasePathFromFirstCandidate(env: Env, args: Args, net: string -> Outcome)
    requires env.hasWindow && !env.globals.hasClient && env.globals.basePath == ""
    requires Candidates(args.mxClientUrl, env.relativeUrl, env.styleHref) != []
    requires BaseOf(Candidates(args.mxClientUrl, env.relativeUrl, env.styleHref)[0]) != ""
    ensures EnsureMxClient(env, args, net).globals.basePath
         == BaseOf(Candidates(args.mxClientUrl, env.relativeUrl, env.styleHref)[0])
  {
    var urls := Candidates(args.mxClientUrl, env.relativeUrl, env.styleHref);
    LoadWithIndexGlobals(urls, 0, env.globals, args.imageBasePath, net, env.graph, [env.shapesUrl]);
  }

  /** Three distinct truthy candidates keep their order. */
  lemma ThreeCandidates(a: string, b: string, href: string)
    requires a != "" && b != "" && StyleCandidate(Some(href)) != ""
    requires a != b && a != StyleCandidate(Some(href)) && b != StyleCandidate(Some(href))
    ensures Candidates(a, b, Some(href)) == [a, b, StyleCandidate(Some(href))]
  {
    var all := [a, b, StyleCandidate(Some(href))];
    assert Truthy(all[2..]) == all[2..];
    assert Truthy(all[1..]) == all[1..];
    assert Truthy(all) == all;
    FirstOccurrencesOfNoDup(all);
  }

  /** Without a caller's URL, the bundled client beside the module is tried
      before the style-derived one, so it is the one that fixes the base
      path. */
  lemma RelativeBeforeStyle(relativeUrl: string, styleHref: Option<string>)
    requires relativeUrl != "" && StyleCandidate(styleHref) != ""
    requires relativeUrl != StyleCandidate(styleHref)
    ensures Candidates("", relativeUrl, styleHref) == [relativeUrl, StyleCandidate(styleHref)]
  {
    var c := StyleCandidate(styleHref);
    var r := Candidates("", relativeUrl, styleHref);
    var all := CandidateUrls("", relativeUrl, styleHref);
    CandidatesInOrder("", relativeUrl, styleHref);
    assert IndexOf(all, relativeUrl) == 1;
    assert IndexOf(all, c) == 2;
    assert relativeUrl in r && c in r;
    assert IndexOf(all, r[0]) < IndexOf(all, r[1]);
  }

  /** The package's stylesheet at `/p/dist/index.css` points at `/p`. */
  lemma SlashGoesWithMatch()
    ensures StyleCandidate(Some("/p/" + DistCss)) == "/p" + ClientSuffix
  {
    StripUnderP();
  }

  lemma StripUnderP()
    ensures StripDistCss("/p/" + DistCss) == "/p"
  {
    var href := "/p/" + DistCss;
    assert FirstMatch(href, 0) == Some(2) by {
      assert !MatchesAt(href, 0) by { NotDistTail(href, 0); NotDistTail(href, 1); }
      assert !MatchesAt(href, 1) by { NotDistTail(href, 1); NotDistTail(href, 2); }
      assert MatchesAt(href, 2) by {
        assert href[3..3 + |DistCss|] == DistCss;
        assert href[3 + |DistCss|..] == [];
      }
      assert FirstMatch(href, 1) == Some(2);
    }
    assert href[..2] == "/p";
  }

  /** A fresh page whose caller's URL and bundled client both fail while the
      style-derived URL loads: three candidates are tried, the run
      resolves, and every global comes from the first candidate, the one
      that failed. */
  lemma ThirdCandidateLoads(env: Env, args: Args, net: string -> Outcome)
    requires env.hasWindow && env.globals == Globals("", "", None, false) && !env.graph
    requires args.imageBasePath == "" && BaseOf(args.mxClientUrl) != ""
    requires var a, b, c := args.mxClientUrl, env.relativeUrl, StyleCandidate(env.styleHref);
      a != "" && b != "" && c != "" && a != b && a != c && b != c
      && net(a) == Failed && net(b) == Failed && net(c) == Loaded
    ensures var r := EnsureMxClient(env, args, net);
      var base := BaseOf(args.mxClientUrl);
      r.status == Resolved && r.tried == 3 && r.shapesTried == 0
      && r.globals == Globals(base, base + "/images", Some(false), true)
  {
    var a, b, c := args.mxClientUrl, env.relativeUrl, StyleCandidate(env.styleHref);
    var urls := [a, b, c];
    ThreeCandidates(a, b, env.styleHref.value);
    var g1 := AttemptGlobals(env.globals, a, "");
    AttemptGlobalsSettled(g1, b, "");
    AttemptGlobalsSettled(g1, c, "");
    var shapes := [env.shapesUrl];
    assert LoadWithIndex(urls, 2, g1, "", net, false, shapes) == Run(Resolved, g1.(hasClient := true), 3, 0);
    assert LoadWithIndex(urls, 1, g1, "", net, false, shapes) == Run(Resolved, g1.(hasClient := true), 3, 0);
  }
}

=== FILE: process_shape.dfy ===
/**
  The process shape of shapes.js: a rectangle with two vertical bars inset
  from its left and right sides, and a label squeezed between the bars.
 */
module ProcessShape {
  import opened Style
  import opened Canvas

  /** Relative inset used when the style has no `size`. */
  const DefaultInset := 0.1

  /** The host's default arc size, `RECTANGLE_ROUNDING_FACTOR * 100`. */
  const DefaultArcSize := 15.0

  /** The host's direction constants. */
  const DirectionEast := "east"
  const DirectionWest := "west"

  /** Whether the label runs along the bars: the style's `horizontal`
      (default true) loosely equals "the shape is not rotated to north or
      south". */
  predicate LabelAlongBars(style: StyleMap, direction: Option<string>)
  {
    LooseEqualsBool(style, "horizontal",
      direction.None? || direction.value == DirectionEast || direction.value == DirectionWest)
  }

  /** A rounded process widens the inset to the corner radius `min(w, h) * f`,
      with `f` the style's arc size in percent. */
  function RoundedInset(inset: real, w: real, h: real, style: StyleMap, rounded: bool): (r: real)
    ensures inset <= r
    ensures !rounded ==> r == inset
  {
    if rounded then
      var f := NumberOr(style, "arcSize", DefaultArcSize) / 100.0;
      Max(inset, Min(w * f, h * f))
    else inset
  }

  /** The unrounded inset of the label: a fraction in [0, 1] of the width. */
  function LabelInset(w: real, h: real, style: StyleMap, rounded: bool): (r: real)
    ensures 0.0 <= w ==> 0.0 <= r
    ensures 0.0 <= w && !rounded ==> r <= w
  {
    var f := Clamp(0.0, 1.0, NumberOr(style, "size", DefaultInset));
    ScaleBounds(w, f);
    RoundedInset(w * f, w, h, style, rounded)
  }

  /** ProcessShape.getLabelBounds: when the label runs along the bars it is
      shifted right by the rounded inset and narrowed by twice the inset, each
      rounded separately; otherwise the host's bounds are kept. */
  function ProcessLabelBounds(rect: Rect, style: StyleMap, direction: Option<string>, rounded: bool): (r: Rect)
    ensures !LabelAlongBars(style, direction) ==> r == rect
    ensures r.y == rect.y && r.height == rect.height
    ensures LabelAlongBars(style, direction) && 0.0 <= rect.width ==>
      rect.x <= r.x && r.x + r.width <= rect.x + rect.width + 0.5
    ensures
      var left := r.x - rect.x;
      var right := (rect.x + rect.width) - (r.x + r.width);
      -1.0 <= left - right <= 1.0
  {
    if LabelAlongBars(style, direction) then
      var inset := LabelInset(rect.width, rect.height, style, rounded);
      RoundingBalance(inset);
      Rect(rect.x + Round(inset), rect.y, rect.width - Round(2.0 * inset), rect.height)
    else rect
  }

  /** Rounding `x` and `2x` separately leaves margins at most one pixel
      apart: `|2 round(x) - round(2x)| <= 1`, and round(x) never exceeds
      round(2x) for a non-negative x. */
  lemma RoundingBalance(x: real)
    ensures -1.0 <= 2.0 * Round(x) - Round(2.0 * x) <= 1.0
    ensures 0.0 <= x ==> 0.0 <= Round(x) <= Round(2.0 * x)
  {
    var a := Round(x).Floor;
    var b := Round(2.0 * x).Floor;
    assert Round(x) == a as real;
    assert Round(2.0 * x) == b as real;
    assert -1.5 < (2 * a - b) as real < 1.5;
  }

  /** The inset of the painted bars: fixed (clamped to [0, w]) when the
      style's `fixedSize` is truthy, otherwise relative to the width; widened
      for rounded corners and rounded to whole pixels. */
  function BarInset(w: real, h: real, style: StyleMap, rounded: bool): (r: real)
    ensures r == r.Floor as real
    ensures 0.0 <= w ==> 0.0 <= r
    ensures 0.0 <= w && !rounded && w == w.Floor as real ==> r <= w
  {
    var size := NumberOr(style, "size", DefaultInset);
    var f := Clamp(0.0, 1.0, size);
    var inset := if Flag(style, "fixedSize", false) then Clamp(0.0, w, size) else Portion(w, f);
    var wide := RoundedInset(inset, w, h, style, rounded);
    RoundBelowWhole(wide, w);
    Round(wide)
  }

  /** Rounding a value that is at most a whole number stays at most it. */
  lemma RoundBelowWhole(v: real, bound: real)
    ensures v <= bound && bound == bound.Floor as real ==> Round(v) <= bound
  {
    if v <= bound && bound == bound.Floor as real {
      var a := (v + 0.5).Floor;
      var b := bound.Floor;
      assert (a as real) <= v + 0.5;
      assert (a as real) < (b + 1) as real;
      assert a <= b;
    }
  }

  /** ProcessShape.paintForeground: two full-height bars at `inset` from the
      left and right sides (the host rectangle's own foreground follows). */
  function ProcessForeground(x: real, y: real, w: real, h: real, style: StyleMap, rounded: bool): (r: seq<PathCmd>)
    ensures |r| == 7 && r[1].MoveTo? && r[3].MoveTo? && r[2].LineTo? && r[4].LineTo?
    ensures r[1].p.y == r[3].p.y == y && r[2].p.y == r[4].p.y == y + h
    ensures r[1].p.x == r[2].p.x && r[3].p.x == r[4].p.x
    ensures r[1].p.x - x == (x + w) - r[3].p.x
    ensures 0.0 <= w ==> x <= r[1].p.x
  {
    var inset := BarInset(w, h, style, rounded);
    [Begin,
     MoveTo(Point(x + inset, y)), LineTo(Point(x + inset, y + h)),
     MoveTo(Point(x + w - inset, y)), LineTo(Point(x + w - inset, y + h)),
     End, Stroke]
  }

  /** For a whole-pixel width and square corners the bars stay inside the
      shape's bounds. */
  lemma ProcessBarsWithin(x: real, y: real, w: real, h: real, style: StyleMap)
    requires 0.0 <= w && 0.0 <= h && w == w.Floor as real
    ensures Within(ProcessForeground(x, y, w, h, style, false), Rect(x, y, w, h))
  {
  }

  /** With square corners the label's left edge sits on the left bar: the
      label inset and the bar inset agree when both are relative. */
  lemma LabelStartsAtBar(x: real, y: real, w: real, h: real, style: StyleMap)
    requires LabelAlongBars(style, None) && !Flag(style, "fixedSize", false)
    ensures ProcessLabelBounds(Rect(x, y, w, h), style, None, false).x
         == ProcessForeground(x, y, w, h, style, false)[1].p.x
  {
  }

  /** A rounded process with an arc size above 100% draws its bars past the
      opposite side: nothing clamps the rounded inset. */
  lemma RoundedBarsCanCross()
    ensures
      var style := map["arcSize" := Num(200.0)];
      var r := ProcessForeground(0.0, 0.0, 10.0, 10.0, style, true);
      r[1].p.x == 20.0 && r[3].p.x == -10.0
  {
    var style := map["arcSize" := Num(200.0)];
    assert NumberOr(style, "size", DefaultInset) == 0.1;
    assert RoundedInset(1.0, 10.0, 10.0, style, true) == 20.0;
    assert Round(20.0) == 20.0;
  }
}

=== FILE: server.dfy ===
/**
  The development static file server: its command-line parsing, the
  extension-to-MIME lookup, the path guard that maps a request URL to a file
  under the served root, and the request handler's choice of status.

  Node's path functions other than `extname`, `decodeURIComponent`, the
  conversion of a string to a number, and the file system are parameters.
  `extname` is written out with its POSIX rules, where `/` is the only
  separator.
 */
module Server {
  import opened Style
  import opened JsArray

  // ---------------------------------------------------------------------
  // Command line

  /** A JavaScript number as `Number.isFinite` sees it. */
  datatype JsNumber = Finite(value: real) | NotFinite

  const DefaultPort := 8000.0
  const DefaultPortText := "8000"

  /** The server's configuration: the port to listen on and the absolute
      directory to serve. */
  datatype Config = Config(port: real, root: string)

  /** `get(key)`: the element after the first occurrence of `key`; none when
      the key is absent or last. */
  function FlagValue(argv: seq<string>, key: string): (r: Option<string>)
    ensures key !in argv ==> r.None?
    ensures key in argv && IndexOf(argv, key) + 1 < |argv| ==> r == Some(argv[IndexOf(argv, key) + 1])
    ensures key in argv && IndexOf(argv, key) + 1 == |argv| ==> r.None?
  {
    var i := IndexOf(argv, key);
    if i >= 0 && i + 1 < |argv| then Some(argv[i + 1]) else None
  }

  /** `a || b` for an optional string: the first when it is a non-empty
      string. */
  function OrElse(a: Option<string>, b: string): (r: string)
    ensures a.Some? && a.value != "" ==> r == a.value
    ensures a.None? || a.value == "" ==> r == b
  {
    if a.Some? && a.value != "" then a.value else b
  }

  /** The port a number gives: itself when finite, 8000 otherwise. */
  function PortOf(n: JsNumber): (r: real)
    ensures n.Finite? ==> r == n.value
    ensures n.NotFinite? ==> r == DefaultPort
  {
    if n.Finite? then n.value else DefaultPort
  }

  /** parseArgs: `--port` and `--root` take the following argument; each
      falls back to its environment variable, then to 8000 and the server's
      own directory. The root is made absolute. */
  function ParseArgs(argv: seq<string>, envPort: Option<string>, envRoot: Option<string>, dirname: string,
                     toNumber: string -> JsNumber, resolve: string -> string): (r: Config)
    ensures var flag := FlagValue(argv, "--port");
      flag.Some? && flag.value != "" ==> r.port == PortOf(toNumber(flag.value))
    ensures var flag := FlagValue(argv, "--port");
      (flag.None? || flag.value == "") && envPort.Some? && envPort.value != "" ==> r.port == PortOf(toNumber(envPort.value))
    ensures var flag := FlagValue(argv, "--port");
      (flag.None? || flag.value == "") && (envPort.None? || envPort.value == "") ==> r.port == PortOf(toNumber(DefaultPortText))
    ensures var flag := FlagValue(argv, "--root");
      flag.Some? && flag.value != "" ==> r.root == resolve(flag.value)
    ensures var flag := FlagValue(argv, "--root");
      (flag.None? || flag.value == "") && envRoot.Some? && envRoot.value != "" ==> r.root == resolve(envRoot.value)
    ensures var flag := FlagValue(argv, "--root");
      (flag.None? || flag.value == "") && (envRoot.None? || envRoot.value == "") ==> r.root == resolve(dirname)
  {
    var portText := OrElse(FlagValue(argv, "--port"), OrElse(envPort, DefaultPortText));
    var rootArg := OrElse(FlagValue(argv, "--root"), OrElse(envRoot, dirname));
    Config(PortOf(toNumber(portText)), resolve(rootArg))
  }

  /** With no flag and no environment variable the port is 8000, as long as
      the text "8000" reads as that number. */
  lemma DefaultPortWithoutArguments(dirname: string, toNumber: string -> JsNumber, resolve: string -> string)
    requires toNumber(DefaultPortText) == Finite(DefaultPort)
    ensures ParseArgs([], None, None, dirname, toNumber, resolve) == Config(DefaultPort, resolve(dirname))
  {
  }

  /** A flag wins over the environment, and a port that does not read as a
      finite number falls back to 8000. */
  lemma FlagBeatsEnvironment(toNumber: string -> JsNumber, resolve: string -> string)
    requires toNumber("abc") == NotFinite
    ensures ParseArgs(["--port", "abc", "--root", "site"], Some("9000"), Some("/env"), "/srv", toNumber, resolve)
         == Config(DefaultPort, resolve("site"))
  {
    var argv := ["--port", "abc", "--root", "site"];
    assert IndexOf(argv, "--port") == 0;
    assert argv[1..][1..] == ["--root", "site"];
    assert IndexOf(argv, "--root") == 2;
  }

  /** A flag given last has no value, so the environment decides. */
  lemma TrailingFlagFallsBack(toNumber: string -> JsNumber, resolve: string -> string)
    ensures ParseArgs(["--port"], Some("9000"), None, "/srv", toNumber, resolve).port == PortOf(toNumber("9000"))
  {
    assert IndexOf(["--port"], "--port") == 0;
  }

  // ---------------------------------------------------------------------
  // MIME types

  const OctetStream := "application/octet-stream"

  /** The extension table, keyed by lower-case extension with its dot. */
  function MimeEntry(ext: string): (r: Option<string>)
    ensures r.Some? ==> ext != "" && ext[0] == '.'
  {
    if ext == ".html" then Some("text/html; charset=utf-8")
    else if ext == ".js" then Some("application/javascript; charset=utf-8")
    else if ext == ".css" then Some("text/css; charset=utf-8")
    else if ext == ".png" then Some("image/png")
    else if ext == ".jpg" then Some("image/jpeg")
    else if ext == ".jpeg" then Some("image/jpeg")
    else if ext == ".gif" then Some("image/gif")
    else if ext == ".svg" then Some("image/svg+xml")
    else if ext == ".xml" then Some("application/xml; charset=utf-8")
    else if ext == ".json" then Some("application/json; charset=utf-8")
    else if ext == ".txt" then Some("text/plain; charset=utf-8")
    else None
  }

  /** The index of the last `c` in `s`, or -1. */
  function LastIndex(s: string, c: char): (r: int)
    ensures -1 <= r < |s|
    ensures 0 <= r ==> s[r] == c
    ensures forall i :: r < i < |s| ==> s[i] != c
  {
    if s == [] then -1
    else if s[|s| - 1] == c then |s| - 1
    else LastIndex(s[..|s| - 1], c)
  }

  /** The path without its trailing slashes. */
  function TrimTrailingSlashes(p: string): (r: string)
    ensures r <= p
    ensures r == [] || r[|r| - 1] != '/'
    ensures forall i :: |r| <= i < |p| ==> p[i] == '/'
  {
    if p != [] && p[|p| - 1] == '/' then TrimTrailingSlashes(p[..|p| - 1]) else p
  }

  /** The last path segment, ignoring trailing slashes. */
  function Basename(p: string): (r: string)
    ensures '/' !in r
  {
    var t := TrimTrailingSlashes(p);
    var k := LastIndex(t, '/');
    t[k + 1..]
  }

  /** POSIX `path.extname`: the last segment from its last dot on; empty
      when the segment has no dot, starts with its only leading dot, or is
      `..`. */
  function Extname(p: string): (r: string)
    ensures r == "" || (r[0] == '.' && '.' !in r[1..] && '/' !in r)
    ensures r != "" ==> |r| < |Basename(p)| && Basename(p)[|Basename(p)| - |r|..] == r
    ensures r == "" <==> LastIndex(Basename(p), '.') <= 0 || Basename(p) == ".."
  {
    var b := Basename(p);
    var d := LastIndex(b, '.');
    if d <= 0 || b == ".." then "" else b[d..]
  }

  /** `toLowerCase` on the letters A to Z; every other character is kept. */
  function LowerChar(c: char): (r: char)
    ensures 'A' <= c <= 'Z' ==> 'a' <= r <= 'z' && r as int - 'a' as int == c as int - 'A' as int
    ensures !('A' <= c <= 'Z') ==> r == c
  {
    if 'A' <= c <= 'Z' then (c as int - 'A' as int + 'a' as int) as char else c
  }

  function LowerAscii(s: string): (r: string)
    ensures |r| == |s|
    ensures forall i :: 0 <= i < |s| ==> r[i] == LowerChar(s[i])
  {
    if s == [] then [] else [LowerChar(s[0])] + LowerAscii(s[1..])
  }

  /** getMimeType: the table's entry for the lower-cased extension, or the
      generic binary type. */
  function GetMimeType(filePath: string): (r: string)
    ensures MimeEntry(LowerAscii(Extname(filePath))).Some? ==> r == MimeEntry(LowerAscii(Extname(filePath))).value
    ensures MimeEntry(LowerAscii(Extname(filePath))).None? ==> r == OctetStream
    ensures r != OctetStream ==> Extname(filePath) != ""
  {
    var entry := MimeEntry(LowerAscii(Extname(filePath)));
    if entry.Some? then entry.value else OctetStream
  }

  /** Lower-casing twice is lower-casing once. */
  lemma LowerAsciiIdempotent(s: string)
    ensures LowerAscii(LowerAscii(s)) == LowerAscii(s)
  {
  }

  /** Paths whose extensions differ only in letter case get the same
      type. */
  lemma {:induction false} MimeIgnoresCase(p: string, q: string)
    requires LowerAscii(Extname(p)) == LowerAscii(Extname(q))
    ensures GetMimeType(p) == GetMimeType(q)
  {
  }

  /** The last `c` is the one no `c` follows. */
  lemma LastIndexAt(a: string, c: char, b: string)
    requires c !in b
    ensures LastIndex(a + [c] + b, c) == |a|
  {
    var s := a + [c] + b;
    var r := LastIndex(s, c);
    assert s[|a|] == c;
  }

  /** The last segment of `dir/name` is `name`. */
  lemma BasenameOfChild(dir: string, name: string)
    requires name != [] && '/' !in name
    ensures Basename(dir + "/" + name) == name
  {
    var p := dir + "/" + name;
    assert p[|p| - 1] == name[|name| - 1];
    assert TrimTrailingSlashes(p) == p;
    assert p == dir + ['/'] + name;
    LastIndexAt(dir, '/', name);
    assert p[|dir| + 1..] == name;
  }

  /** A file name with a stem before its last dot has the extension from
      that dot on. */
  lemma ExtnameOfFileName(dir: string, stem: string, tail: string)
    requires stem != [] && '/' !in stem && '/' !in tail && '.' !in tail
    requires stem + "." + tail != ".."
    ensures Extname(dir + "/" + stem + "." + tail) == "." + tail
  {
    var p := dir + "/" + stem + "." + tail;
    var name := stem + "." + tail;
    assert Basename(p) == name by {
      assert p == dir + "/" + name;
      BasenameOfChild(dir, name);
    }
    assert LastIndex(name, '.') == |stem| by {
      assert name == stem + ['.'] + tail;
      LastIndexAt(stem, '.', tail);
    }
    assert name[|stem|..] == "." + tail;
    ExtnameFromDot(p, name);
  }

  /** The extension of a path whose last segment has a dot after its first
      character is the segment from that dot on. */
  lemma ExtnameFromDot(p: string, name: string)
    requires Basename(p) == name && LastIndex(name, '.') > 0 && name != ".."
    ensures Extname(p) == name[LastIndex(name, '.')..]
  {
  }

  /** A dot file has no extension. */
  lemma DotFileHasNoExtension(dir: string, tail: string)
    requires '/' !in tail && '.' !in tail
    ensures Extname(dir + "/" + "." + tail) == ""
  {
    var name := "." + tail;
    assert dir + "/" + "." + tail == dir + "/" + name;
    BasenameOfChild(dir, name);
    assert name == [] + ['.'] + tail;
    LastIndexAt([], '.', tail);
  }

  lemma LowerHtml()
    ensures LowerAscii(".HTML") == ".html"
  {
  }

  /** An upper-case `.HTML` file is served as HTML. */
  lemma UpperCaseHtml(dir: string, stem: string)
    requires stem != [] && '/' !in stem
    ensures GetMimeType(dir + "/" + stem + "." + "HTML") == "text/html; charset=utf-8"
  {
    ExtnameOfFileName(dir, stem, "HTML");
    HtmlEntry();
  }

  lemma HtmlEntry()
    ensures MimeEntry(LowerAscii("." + "HTML")) == Some("text/html; charset=utf-8")
  {
    assert "." + "HTML" == ".HTML";
    LowerHtml();
  }

  /** A dot file is served as binary whatever follows its dot. */
  lemma DotFileIsBinary(dir: string, tail: string)
    requires '/' !in tail && '.' !in tail
    ensures GetMimeType(dir + "/" + "." + tail) == OctetStream
  {
    DotFileHasNoExtension(dir, tail);
  }

  // ---------------------------------------------------------------------
  // The path guard

  /** Node's path and URI functions as the guard uses them; `sep` is the
      platform's path separator. Decoding fails (throws) on a malformed
      escape. */
  datatype PathOps = PathOps(
    decode: string -> Option<string>,
    normalize: string -> string,
    join: (string, string) -> string,
    resolve: string -> string,
    sep: string)

  /** `url.split('?')[0]`: everything before the first `?`. */
  function QueryFree(url: string): (r: string)
    ensures r <= url
    ensures '?' !in r
    ensures |r| < |url| ==> url[|r|] == '?'
  {
    if url == [] || url[0] == '?' then [] else [url[0]] + QueryFree(url[1..])
  }

  /** Whatever follows the first `?` never reaches the path. */
  lemma {:induction false} QueryFreeIgnoresQuery(p: string, q: string)
    requires '?' !in p
    ensures QueryFree(p + "?" + q) == p
  {
    if p != [] {
      assert (p + "?" + q)[1..] == p[1..] + "?" + q;
      QueryFreeIgnoresQuery(p[1..], q);
    }
  }

  /** `rel.replace(/^\/+/, '')`: the path without its leading slashes. */
  function StripLeadingSlashes(s: string): (r: string)
    ensures r == [] || r[0] != '/'
    ensures |r| <= |s| && s[|s| - |r|..] == r
    ensures forall i :: 0 <= i < |s| - |r| ==> s[i] == '/'
  {
    if s != [] && s[0] == '/' then StripLeadingSlashes(s[1..]) else s
  }

  /** The request path relative to the root: query dropped, an empty path
      read as `/`, decoded, normalised, the root itself read as
      `/index.html`, and leading slashes stripped. None when decoding
      throws. */
  function RelativePath(urlPath: string, ops: PathOps): (r: Option<string>)
    ensures r.None? <==> ops.decode(if QueryFree(urlPath) == "" then "/" else QueryFree(urlPath)).None?
    ensures r.Some? ==> r.value == [] || r.value[0] != '/'
  {
    var noQuery := QueryFree(urlPath);
    var decoded := ops.decode(if noQuery == "" then "/" else noQuery);
    if decoded.None? then None
    else
      var rel := ops.normalize(decoded.value);
      var rel1 := if rel == "/" || rel == "" then "/index.html" else rel;
      Some(StripLeadingSlashes(rel1))
  }

  /** The guard's acceptance test: the path is the root or lies under it. */
  predicate Contained(path: string, root: string, sep: string)
  {
    path == root || root + sep <= path
  }

  /** Where a request URL leads. */
  datatype Resolution = DecodeError | Outside | Inside(path: string)

  /** resolvePathFromUrl: the absolute path the URL names, refused unless it
      is the root or below it. */
  function ResolvePathFromUrl(urlPath: string, root: string, ops: PathOps): (r: Resolution)
    ensures r.DecodeError? <==> RelativePath(urlPath, ops).None?
    ensures r.Inside? ==> Contained(r.path, root, ops.sep)
    ensures r.Inside? ==> r.path == ops.resolve(ops.join(root, RelativePath(urlPath, ops).value))
    ensures r.Outside? <==>
      RelativePath(urlPath, ops).Some?
      && !Contained(ops.resolve(ops.join(root, RelativePath(urlPath, ops).value)), root, ops.sep)
  {
    var rel := RelativePath(urlPath, ops);
    if rel.None? then DecodeError
    else
      var resolved := ops.resolve(ops.join(root, rel.value));
      if !Contained(resolved, root, ops.sep) then Outside else Inside(resolved)
  }

  /** A sibling directory sharing the root's name as a prefix is outside the
      root. */
  lemma SiblingIsOutside(urlPath: string, ops: PathOps)
    requires RelativePath(urlPath, ops).Some?
    requires ops.sep == "/"
    requires ops.resolve(ops.join("/srv/www", RelativePath(urlPath, ops).value)) == "/srv/www2/secret"
    ensures ResolvePathFromUrl(urlPath, "/srv/www", ops) == Outside
  {
    assert ("/srv/www" + "/")[8] == '/';
    assert "/srv/www2/secret"[8] == '2';
  }

  /** The query string never changes where a URL leads. */
  lemma QueryIgnored(p: string, q: string, root: string, ops: PathOps)
    requires '?' !in p
    ensures ResolvePathFromUrl(p + "?" + q, root, ops) == ResolvePathFromUrl(p, root, ops)
  {
    QueryFreeIgnoresQuery(p, q);
    assert QueryFree(p) == p;
  }

  /** An empty or `/` path names `index.html` directly under the root,
      provided `/` decodes and normalises to itself. */
  lemma RootServesIndex(urlPath: string, root: string, ops: PathOps)
    requires QueryFree(urlPath) == "" || QueryFree(urlPath) == "/"
    requires ops.decode("/") == Some("/") && ops.normalize("/") == "/"
    ensures RelativePath(urlPath, ops) == Some("index.html")
  {
    assert StripLeadingSlashes("/index.html") == "index.html";
  }

  // ---------------------------------------------------------------------
  // The request handler

  /** What the file system says about a path. */
  datatype Stat = Missing | File | Directory

  /** The file system as the handler sees it: what `stat` reports, whether
      `stat` throws before it calls back (Node does so for a path holding a
      NUL character), and whether `readFile` succeeds. */
  datatype Fs = Fs(stat: string -> Stat, throws: string -> bool, readable: string -> bool)

  /** One file-system call the handler makes. */
  datatype FsCall = StatCall(path: string) | ReadCall(path: string)

  /** A response: status, content type, the file sent on success, and the
      file-system calls made on the way. */
  datatype Response = Response(code: int, contentType: string, served: Option<string>, calls: seq<FsCall>)

  const TextPlain := "text/plain; charset=utf-8"

  function ErrorResponse(code: int, calls: seq<FsCall>): (r: Response)
    ensures r.code == code && r.contentType == TextPlain && r.served.None? && r.calls == calls
  {
    Response(code, TextPlain, None, calls)
  }

  /** The handler's request path: the URL, or `/` when there is none. */
  function RequestUrl(url: Option<string>): (r: string)
    ensures url.Some? && url.value != "" ==> r == url.value
    ensures url.None? || url.value == "" ==> r == "/"
  {
    if url.Some? && url.value != "" then url.value else "/"
  }

  /** The file a found path serves: a directory's `index.html`, or the path
      itself. */
  function Target(path: string, ops: PathOps, fs: Fs): string
  {
    if fs.stat(path) == Directory then ops.join(path, "index.html") else path
  }

  /** The response to a resolved request: 500 when decoding threw, 403
      when the guard refused (or left nothing), 500 when the first `stat`
      throws, 404 when the path or a directory's `index.html` is missing,
      500 when reading fails, and otherwise 200 with the file and its MIME
      type. */
  function Respond(res: Resolution, ops: PathOps, fs: Fs): (r: Response)
    ensures r.code in {200, 403, 404, 500}
    ensures r.code == 403 <==> res.Outside? || res == Inside("")
    ensures res.DecodeError? || r.code == 403 ==> r.calls == []
    ensures r.calls != [] ==> res.Inside? && r.calls[0] == StatCall(res.path)
    ensures r.code != 200 ==> r.contentType == TextPlain && r.served.None?
    ensures r.code == 200 ==>
      r.served.Some? && r.contentType == GetMimeType(r.served.value)
      && fs.stat(r.served.value) != Missing && fs.readable(r.served.value)
    ensures r.code == 200 && res.Inside? && fs.stat(res.path) == File ==> r.served == Some(res.path)
    ensures r.code == 200 && res.Inside? && fs.stat(res.path) == Directory ==> r.served == Some(ops.join(res.path, "index.html"))
  {
    match res
    case DecodeError => ErrorResponse(500, [])
    case Outside => ErrorResponse(403, [])
    case Inside(path) =>
      if path == "" then ErrorResponse(403, [])
      else if fs.throws(path) then ErrorResponse(500, [StatCall(path)])
      else if fs.stat(path) == Missing then ErrorResponse(404, [StatCall(path)])
      else
        var target := Target(path, ops, fs);
        var calls := [StatCall(path), StatCall(target)];
        if fs.stat(target) == Missing then ErrorResponse(404, calls)
        else if !fs.readable(target) then ErrorResponse(500, calls + [ReadCall(target)])
        else Response(200, GetMimeType(target), Some(target), calls + [ReadCall(target)])
  }

  /** Which status each case of the request handler answers with, and that
      the only paths it touches are the resolved path and the file that
      path serves. */
  lemma RespondByCase(res: Resolution, ops: PathOps, fs: Fs)
    ensures res.DecodeError? ==> Respond(res, ops, fs).code == 500
    ensures res.Inside? && res.path != "" && fs.throws(res.path) ==>
      Respond(res, ops, fs).code == 500 && Respond(res, ops, fs).calls == [StatCall(res.path)]
    ensures res.Inside? && res.path != "" && !fs.throws(res.path) && fs.stat(res.path) == Missing ==>
      Respond(res, ops, fs).code == 404
    ensures res.Inside? && res.path != "" && !fs.throws(res.path) && fs.stat(res.path) != Missing ==>
      var r := Respond(res, ops, fs);
      var target := Target(res.path, ops, fs);
      (fs.stat(target) == Missing ==> r.code == 404)
      && (fs.stat(target) != Missing && !fs.readable(target) ==> r.code == 500)
      && (fs.stat(target) != Missing && fs.readable(target) ==> r.code == 200 && r.served == Some(target))
    ensures forall c :: c in Respond(res, ops, fs).calls ==> c.path in {res.path, Target(res.path, ops, fs)}
  {
  }

  /** requestHandler: the response to the request's URL (`/` when there is
      none). A refused path is answered 403 before the file system is
      touched, and the first file-system call is on a path under the root
      (`HandleRequestStaysInside` extends that to every call). */
  function HandleRequest(url: Option<string>, root: string, ops: PathOps, fs: Fs): (r: Response)
    ensures var res := ResolvePathFromUrl(RequestUrl(url), root, ops);
      r.code == 403 <==> res.Outside? || res == Inside("")
    ensures var res := ResolvePathFromUrl(RequestUrl(url), root, ops);
      res.Outside? ==> r.code == 403 && r.calls == []
    ensures r.calls != [] ==> r.calls[0].StatCall? && Contained(r.calls[0].path, root, ops.sep)
  {
    Respond(ResolvePathFromUrl(RequestUrl(url), root, ops), ops, fs)
  }

  /** When joining `index.html` onto a resolved path under the root stays
      under the root (as `path.join` does for the normalised paths `resolve`
      returns), every file-system call the handler makes, and the file it
      serves, are under the root. */
  lemma HandleRequestStaysInside(url: Option<string>, root: string, ops: PathOps, fs: Fs)
    requires forall x :: Contained(ops.resolve(x), root, ops.sep) ==>
      Contained(ops.join(ops.resolve(x), "index.html"), root, ops.sep)
    ensures var r := HandleRequest(url, root, ops, fs);
      (forall c :: c in r.calls ==> Contained(c.path, root, ops.sep))
      && (r.served.Some? ==> Contained(r.served.value, root, ops.sep))
  {
    var res := ResolvePathFromUrl(RequestUrl(url), root, ops);
    RespondByCase(res, ops, fs);
    if res.Inside? {
      assert Contained(Target(res.path, ops, fs), root, ops.sep);
    }
  }

  /** The query string never changes the response. */
  lemma {:induction false} ResponseIgnoresQuery(p: string, q: string, root: string, ops: PathOps, fs: Fs)
    requires '?' !in p
    ensures HandleRequest(Some(p + "?" + q), root, ops, fs) == HandleRequest(Some(if p == "" then "/" else p), root, ops, fs)
  {
    var u1 := RequestUrl(Some(p + "?" + q));
    var u2 := RequestUrl(Some(if p == "" then "/" else p));
    assert u1 == p + "?" + q;
    QueryFreeIgnoresQuery(p, q);
    if p == "" {
      assert QueryFree(u2) == "/";
    } else {
      assert u2 == p && QueryFree(p) == p;
    }
    assert RelativePath(u1, ops) == RelativePath(u2, ops);
  }
}

=== FILE: style.dfy ===
/**
  Style dictionaries as the shapes and handles read them, and the small
  numeric helpers (min, max, clamp, Math.round) every shape routine uses.

  A cell's style maps keys to values. The host's stylesheet stores a
  numeric style text ("20", "0.3", "0") as the number it parses to, so such
  values are `Num`; every other value is `Text`.
 */
module Style {

  datatype StyleValue = Num(n: real) | Text(t: string)

  type StyleMap = map<string, StyleValue>

  /** Math.min on two numbers (NaN is not modelled). */
  function Min(a: real, b: real): real
  {
    if a <= b then a else b
  }

  /** Math.max on two numbers (NaN is not modelled). */
  function Max(a: real, b: real): real
  {
    if a >= b then a else b
  }

  /** `Math.max(lo, Math.min(hi, v))`, the clamp every shape applies to a
      style parameter before using it as a coordinate. */
  function Clamp(lo: real, hi: real, v: real): (r: real)
    ensures lo <= r
    ensures lo <= hi ==> r <= hi
    ensures lo <= v <= hi ==> r == v
  {
    Max(lo, Min(hi, v))
  }

  /** `Math.round`: the nearest integer, halves rounded up. */
  function Round(x: real): (r: real)
    ensures x - 0.5 < r <= x + 0.5
    ensures r == (r.Floor as real)
  {
    (x + 0.5).Floor as real
  }

  /** A whole number rounds to itself. */
  lemma RoundWhole(x: real)
    ensures x == x.Floor as real ==> Round(x) == x
  {
    if x == x.Floor as real {
      var a := Round(x).Floor;
      assert Round(x) == a as real;
      assert -1 < a - x.Floor < 1;
    }
  }

  /** Numeric read of a style key with a default (`mxUtils.getNumber`, or
      `parseFloat(mxUtils.getValue(...))`). A text value that is not a number
      would read as NaN in the source; the model reads the default. */
  function NumberOr(style: StyleMap, key: string, default: real): real
  {
    if key in style && style[key].Num? then style[key].n else default
  }

  /** JavaScript truthiness of `mxUtils.getValue(style, key, default)`:
      the number 0 and the empty string are falsy, everything else truthy. */
  predicate Flag(style: StyleMap, key: string, default: bool)
  {
    if key !in style then default
    else match style[key]
      case Num(n) => n != 0.0
      case Text(t) => t != ""
  }

  /** `mxUtils.getValue(style, key, default) == t` for a non-numeric string
      `t`: a number never equals such a string. */
  predicate ValueIs(style: StyleMap, key: string, default: string, t: string)
  {
    if key !in style then default == t else style[key] == Text(t)
  }

  /** `mxUtils.getValue(style, 'fixedSize', '0') != '0'` (loose inequality:
      a number compares numerically with "0"). */
  predicate FixedSizeOn(style: StyleMap)
  {
    if "fixedSize" !in style then false
    else match style["fixedSize"]
      case Num(n) => n != 0.0
      case Text(t) => t != "0"
  }

  /** Whether `c` is one of the ASCII white-space characters that
      JavaScript's string-to-number conversion skips. */
  predicate IsSpace(c: char)
  {
    c == ' ' || c == '\t' || c == '\n' || c == '\r' || c == '\U{000B}' || c == '\U{000C}'
  }

  /** A text that converts to the number 0 because it holds nothing but
      white space (the empty text included). */
  predicate IsBlank(t: string)
  {
    forall i :: 0 <= i < |t| ==> IsSpace(t[i])
  }

  /** `mxUtils.getValue(style, key, true) == b` with loose equality between a
      style value and a boolean: the boolean becomes 1 or 0, and a text that
      is not numeric converts to 0 only when it is blank. */
  predicate LooseEqualsBool(style: StyleMap, key: string, b: bool)
  {
    if key !in style then b
    else match style[key]
      case Num(n) => n == (if b then 1.0 else 0.0)
      case Text(t) => !b && IsBlank(t)
  }

  /** The text stored under `key`, if any. */
  function TextOf(style: StyleMap, key: string): Option<string>
  {
    if key in style && style[key].Text? then Some(style[key].t) else None
  }

  datatype Option<+T> = None | Some(value: T)

  /** Product of a length and a fraction in [0, 1] stays in [0, length]. */
  lemma ScaleBounds(len: real, f: real)
    ensures 0.0 <= len && 0.0 <= f <= 1.0 ==> 0.0 <= len * f <= len
  {
  }

  /** The part `f` of a length: `len * f`, between 0 and `len` for a
      fraction `f`. */
  function Portion(len: real, f: real): (r: real)
    ensures r == len * f
    ensures 0.0 <= len && 0.0 <= f <= 1.0 ==> 0.0 <= r <= len
  {
    ScaleBounds(len, f);
    len * f
  }

  /** Scaling a non-negative length is monotone in the factor. */
  lemma ScaleMonotone(len: real, f: real, g: real)
    ensures 0.0 <= len && f <= g ==> len * f <= len * g
  {
    if 0.0 <= len && f <= g {
      assert len * g - len * f == len * (g - f);
    }
  }
}

=== FILE: uml_shapes.dfy ===
/**
  The UML shapes of shapes.js. Actor, boundary, destroy and control
  translate the canvas to the shape's origin and draw in the local frame
  `Box(w, h)`; lifeline and frame draw at `(x, y)` in canvas coordinates.
 */
module UmlShapes {
  import opened Style
  import opened Canvas

  /** UmlActorShape.paintBackground: a head filling the top quarter, a spine
      down to two thirds of the height, arms at one third and two legs to the
      bottom corners. */
  function UmlActorPaint(w: real, h: real): (r: seq<PathCmd>)
    ensures 0.0 <= w && 0.0 <= h ==> Within(r, Box(w, h))
    ensures |r| == 15 && r[0].Ellipse? && r[3].MoveTo?
    ensures r[0].r.y + r[0].r.height == r[3].p.y
    ensures r[3].p.x == r[0].r.x + r[0].r.width / 2.0
  {
    [Ellipse(Rect(w / 4.0, 0.0, w / 2.0, h / 4.0)), FillAndStroke,
     Begin,
     MoveTo(Point(w / 2.0, h / 4.0)), LineTo(Point(w / 2.0, (2.0 * h) / 3.0)),
     MoveTo(Point(w / 2.0, h / 3.0)), LineTo(Point(0.0, h / 3.0)),
     MoveTo(Point(w / 2.0, h / 3.0)), LineTo(Point(w, h / 3.0)),
     MoveTo(Point(w / 2.0, (2.0 * h) / 3.0)), LineTo(Point(0.0, h)),
     MoveTo(Point(w / 2.0, (2.0 * h) / 3.0)), LineTo(Point(w, h)),
     End, Stroke]
  }

  /** UmlBoundaryShape.paintBackground: a vertical bar on the left edge, a
      stub to one sixth of the width, and the ellipse filling the rest. */
  function UmlBoundaryPaint(w: real, h: real): (r: seq<PathCmd>)
    ensures 0.0 <= w && 0.0 <= h ==> Within(r, Box(w, h))
    ensures |r| == 12 && r[7].LineTo? && r[10].Ellipse?
    ensures r[7].p.x == r[10].r.x && r[7].p.y == r[10].r.y + r[10].r.height / 2.0
  {
    [Begin, MoveTo(Point(0.0, h / 4.0)), LineTo(Point(0.0, (3.0 * h) / 4.0)), End, Stroke,
     Begin, MoveTo(Point(0.0, h / 2.0)), LineTo(Point(w / 6.0, h / 2.0)), End, Stroke,
     Ellipse(Rect(w / 6.0, 0.0, (5.0 * w) / 6.0, h)), FillAndStroke]
  }

  /** UmlBoundaryShape.getLabelMargins: the label keeps clear of the bar and
      stub, a left margin of one sixth of the width. */
  function UmlBoundaryLabelMargins(rect: Rect): (r: Rect)
    ensures r.y == 0.0 && r.width == 0.0 && r.height == 0.0
    ensures r.x == UmlBoundaryPaint(rect.width, rect.height)[10].r.x
  {
    Rect(rect.width / 6.0, 0.0, 0.0, 0.0)
  }

  /** UmlDestroyShape.paintVertexShape: the two diagonals of the box. */
  function UmlDestroyPaint(w: real, h: real): (r: seq<PathCmd>)
    ensures 0.0 <= w && 0.0 <= h ==> Within(r, Box(w, h))
    ensures |r| == 7 && r[1].MoveTo? && r[2].LineTo? && r[3].MoveTo? && r[4].LineTo?
    ensures r[1].p.x + r[2].p.x == w && r[3].p.x + r[4].p.x == w
    ensures r[1].p.y + r[2].p.y == h && r[3].p.y + r[4].p.y == h
  {
    [Begin, MoveTo(Point(w, 0.0)), LineTo(Point(0.0, h)),
     MoveTo(Point(0.0, 0.0)), LineTo(Point(w, h)), End, Stroke]
  }

  /** The y of the control shape's arrowhead apex, just below the ellipse's
      top (`h / 8 * 1.1`). */
  function ControlApexY(h: real): real
  {
    (h / 8.0) * 1.1
  }

  /** UmlControlShape.paintBackground: the upper barb of the arrowhead, then
      the ellipse filling all but the top eighth. */
  function UmlControlBackground(w: real, h: real): (r: seq<PathCmd>)
    ensures 0.0 <= w && 0.0 <= h ==> Within(r, Box(w, h))
    ensures |r| == 7 && r[1].MoveTo? && r[5].Ellipse?
    ensures 0.0 <= h ==> r[5].r.y <= r[1].p.y <= r[5].r.y + r[5].r.height
  {
    [Begin, MoveTo(Point((3.0 * w) / 8.0, ControlApexY(h))), LineTo(Point((5.0 * w) / 8.0, 0.0)), End, Stroke,
     Ellipse(Rect(0.0, h / 8.0, w, (7.0 * h) / 8.0)), FillAndStroke]
  }

  /** UmlControlShape.paintForeground: the lower barb, drawn in the frame the
      background translated to. */
  function UmlControlForeground(w: real, h: real): (r: seq<PathCmd>)
    ensures 0.0 <= w && 0.0 <= h ==> Within(r, Box(w, h))
    ensures |r| == 5 && r[1].MoveTo? && r[2].LineTo?
  {
    [Begin, MoveTo(Point((3.0 * w) / 8.0, ControlApexY(h))), LineTo(Point((5.0 * w) / 8.0, h / 4.0)), End, Stroke]
  }

  /** The two barbs of the control's arrowhead meet at one apex and mirror
      each other about the apex's height when the box is flat-topped:
      their far ends lie at the same x, at y = 0 and y = h / 4. */
  lemma ControlBarbsMeet(w: real, h: real)
    ensures UmlControlBackground(w, h)[1] == UmlControlForeground(w, h)[1]
    ensures UmlControlBackground(w, h)[2].p.x == UmlControlForeground(w, h)[2].p.x
    ensures UmlControlBackground(w, h)[2].p.y + UmlControlForeground(w, h)[2].p.y == h / 4.0
  {
  }

  /** UmlControlShape.getLabelMargins as written: it returns the bounds of
      the circle's band (below the top eighth), though the host reads the
      result as left/top/right/bottom margins. */
  function UmlControlLabelMargins(rect: Rect): (r: Rect)
    ensures r.x == rect.x && r.width == rect.width
    ensures r.y - rect.y == UmlControlBackground(rect.width, rect.height)[5].r.y
    ensures r.height == UmlControlBackground(rect.width, rect.height)[5].r.height
  {
    Rect(rect.x, rect.y + rect.height / 8.0, rect.width, (7.0 * rect.height) / 8.0)
  }

  /** Read as margins, the bounds above leave the label no width: the right
      margin is the whole width, so at most the rounding's half unit is
      left, and less still once the left margin is cut off too. */
  lemma UmlControlLabelCollapses(rect: Rect)
    requires 0.0 <= rect.width
    ensures MarginedBounds(rect, UmlControlLabelMargins(rect)).width <= 0.5
    ensures 0.0 <= rect.x && rect.width == rect.width.Floor as real ==>
      MarginedBounds(rect, UmlControlLabelMargins(rect)).width <= 0.0
  {
    RoundWhole(rect.width);
  }

  /** A control at (10, 20) of size 40 x 80: its label bounds come out with
      negative width and height. */
  lemma UmlControlLabelCollapsesAt()
    ensures MarginedBounds(Rect(10.0, 20.0, 40.0, 80.0), UmlControlLabelMargins(Rect(10.0, 20.0, 40.0, 80.0)))
      == Rect(20.0, 50.0, -10.0, -20.0)
  {
  }

  /** UmlControlShape.getLabelMargins as evidently intended: a top margin of
      one eighth and no other margin, so that the label sits in the band of
      the circle. */
  function UmlControlLabelMarginsCorrected(rect: Rect): (r: Rect)
    ensures r.x == 0.0 && r.width == 0.0 && r.height == 0.0
    ensures r.y == UmlControlBackground(rect.width, rect.height)[5].r.y
  {
    Rect(0.0, rect.height / 8.0, 0.0, 0.0)
  }

  /** The corrected margins give the label exactly the circle's band (the
      bounds the source computed) whenever that band starts on a whole
      unit, so that rounding leaves the top margin alone. */
  lemma UmlControlCorrectedLabelIsCircleBand(rect: Rect)
    requires 0.0 <= rect.width && 0.0 <= rect.height
    requires rect.height / 8.0 == (rect.height / 8.0).Floor as real
    ensures MarginedBounds(rect, UmlControlLabelMarginsCorrected(rect)) == UmlControlLabelMargins(rect)
    ensures var band := UmlControlBackground(rect.width, rect.height)[5].r;
      MarginedBounds(rect, UmlControlLabelMarginsCorrected(rect))
        == Rect(rect.x + band.x, rect.y + band.y, band.width, band.height)
  {
    RoundWhole(0.0);
    RoundWhole(rect.height / 8.0);
  }

  /** Height of a lifeline's head when the style has no `size`. */
  const LifelineDefaultSize := 40.0

  /** The head height, `size` clamped to [0, h]. */
  function LifelineHead(h: real, style: StyleMap): (r: real)
    ensures 0.0 <= r
    ensures 0.0 <= h ==> r <= h
    ensures 0.0 <= NumberOr(style, "size", LifelineDefaultSize) <= h ==> r == NumberOr(style, "size", LifelineDefaultSize)
  {
    Clamp(0.0, h, NumberOr(style, "size", LifelineDefaultSize))
  }

  /** UmlLifeline.getLabelBounds: the label covers the head only, its
      scaled height clamped to the bounds. */
  function UmlLifelineLabelBounds(rect: Rect, style: StyleMap, scale: real): (r: Rect)
    ensures r.x == rect.x && r.y == rect.y && r.width == rect.width
    ensures 0.0 <= r.height
    ensures 0.0 <= rect.height ==> r.height <= rect.height
  {
    Rect(rect.x, rect.y, rect.width, Clamp(0.0, rect.height, NumberOr(style, "size", LifelineDefaultSize) * scale))
  }

  /** UmlLifeline.paintBackground: the host rectangle over the head, then a
      dashed line down the middle from the head to the bottom, drawn only
      when the head is shorter than the shape. */
  function UmlLifelineBackground(x: real, y: real, w: real, h: real, style: StyleMap): (r: seq<PathCmd>)
    ensures 0.0 <= w && 0.0 <= h ==> Within(r, Rect(x, y, w, h))
    ensures 2 <= |r| && r[0] == RectCmd(Rect(x, y, w, LifelineHead(h, style)))
    ensures |r| > 2 <==> LifelineHead(h, style) < h
    ensures |r| > 2 ==>
      (|r| == 8 && r[2] == SetDashed(true)
       && r[4] == MoveTo(Point(x + w / 2.0, y + r[0].r.height))
       && r[5] == LineTo(Point(x + w / 2.0, y + h)))
  {
    var size := LifelineHead(h, style);
    var head := [RectCmd(Rect(x, y, w, size)), FillAndStroke];
    if size < h then
      head + [SetDashed(true), Begin,
              MoveTo(Point(x + w / 2.0, y + size)), LineTo(Point(x + w / 2.0, y + h)),
              End, Stroke]
    else head
  }

  /** At scale 1 the label covers exactly the painted head. */
  lemma LifelineLabelCoversHead(x: real, y: real, w: real, h: real, style: StyleMap)
    ensures UmlLifelineLabelBounds(Rect(x, y, w, h), style, 1.0).height
         == UmlLifelineBackground(x, y, w, h, style)[0].r.height
  {
  }

  /** The frame's tab defaults and corner cut. */
  const FrameDefaultWidth := 60.0
  const FrameDefaultHeight := 30.0
  const FrameCorner := 10.0

  /** UmlFrame.getLabelMargins: right and bottom margins that leave the
      label exactly the tab's (scaled) width and height. */
  function UmlFrameLabelMargins(rect: Rect, style: StyleMap, scale: real): (r: Rect)
    ensures r.x == 0.0 && r.y == 0.0
    ensures rect.width - r.width == NumberOr(style, "width", FrameDefaultWidth) * scale
    ensures rect.height - r.height == NumberOr(style, "height", FrameDefaultHeight) * scale
  {
    Rect(0.0, 0.0,
      rect.width - NumberOr(style, "width", FrameDefaultWidth) * scale,
      rect.height - NumberOr(style, "height", FrameDefaultHeight) * scale)
  }

  /** The tab's width: at least the corner, at most the frame. */
  function FrameTabWidth(w: real, style: StyleMap): (r: real)
    ensures r <= w
    ensures 0.0 <= w ==> 0.0 <= r
    ensures FrameCorner <= w ==> FrameCorner <= r
    ensures FrameCorner <= NumberOr(style, "width", FrameDefaultWidth) <= w ==> r == NumberOr(style, "width", FrameDefaultWidth)
  {
    Min(w, Max(FrameCorner, NumberOr(style, "width", FrameDefaultWidth)))
  }

  /** The tab's height: at least one and a half corners, at most the frame. */
  function FrameTabHeight(h: real, style: StyleMap): (r: real)
    ensures r <= h
    ensures 0.0 <= h ==> 0.0 <= r
    ensures FrameCorner * 1.5 <= h ==> FrameCorner * 1.5 <= r
    ensures FrameCorner * 1.5 <= NumberOr(style, "height", FrameDefaultHeight) <= h ==> r == NumberOr(style, "height", FrameDefaultHeight)
  {
    Min(h, Max(FrameCorner * 1.5, NumberOr(style, "height", FrameDefaultHeight)))
  }

  /** UmlFrame.paintBackground: an optional swimlane-coloured fill of the
      whole frame (any `swimlaneFillColor` other than "none"), then the
      filled tab with its cut corner, then the open outline from the tab
      round the frame back to the tab's bottom. */
  function UmlFramePaint(x: real, y: real, w: real, h: real, style: StyleMap): (r: seq<PathCmd>)
    ensures 0.0 <= w && 0.0 <= h ==> Within(r, Rect(x, y, w, h))
    ensures 15 <= |r|
    ensures ValueIs(style, "swimlaneFillColor", "none", "none") <==> r[0] == Begin
    ensures !ValueIs(style, "swimlaneFillColor", "none", "none") ==>
      r[0] == SetFillColor(style["swimlaneFillColor"]) && r[1] == RectCmd(Rect(x, y, w, h))
  {
    var w0 := FrameTabWidth(w, style);
    var h0 := FrameTabHeight(h, style);
    var tab := FrameTab(x, y, w, h, w0, h0);
    if "swimlaneFillColor" in style && style["swimlaneFillColor"] != Text("none") then
      [SetFillColor(style["swimlaneFillColor"]), RectCmd(Rect(x, y, w, h)), Fill] + tab
    else tab
  }

  /** The tab and the frame outline for a tab of `w0` by `h0`. */
  function FrameTab(x: real, y: real, w: real, h: real, w0: real, h0: real): (r: seq<PathCmd>)
    requires w0 <= w && h0 <= h
    requires 0.0 <= w ==> 0.0 <= w0
    requires 0.0 <= h ==> 0.0 <= h0
    ensures |r| == 15 && r[0] == Begin
    ensures 0.0 <= w && 0.0 <= h ==> Within(r, Rect(x, y, w, h))
  {
    [Begin, MoveTo(Point(x, y)), LineTo(Point(x + w0, y)),
     LineTo(Point(x + w0, y + Max(0.0, h0 - FrameCorner * 1.5))),
     LineTo(Point(x + Max(0.0, w0 - FrameCorner), y + h0)),
     LineTo(Point(x, y + h0)), Close, FillAndStroke,
     Begin, MoveTo(Point(x + w0, y)), LineTo(Point(x + w, y)), LineTo(Point(x + w, y + h)),
     LineTo(Point(x, y + h)), LineTo(Point(x, y + h0)), Stroke]
  }

  /** At scale 1, when the style's tab fits the frame, the label area left by
      the margins is exactly the painted tab. */
  lemma FrameLabelMatchesTab(rect: Rect, style: StyleMap)
    requires FrameCorner <= NumberOr(style, "width", FrameDefaultWidth) <= rect.width
    requires FrameCorner * 1.5 <= NumberOr(style, "height", FrameDefaultHeight) <= rect.height
    ensures rect.width - UmlFrameLabelMargins(rect, style, 1.0).width == FrameTabWidth(rect.width, style)
    ensures rect.height - UmlFrameLabelMargins(rect, style, 1.0).height == FrameTabHeight(rect.height, style)
  {
  }
}
